=== FILE: README.md ===
# DopePad core in Dafny

DopePad is a terminal notepad. This project models its core as pure
functions over immutable data and proves what the program promises about
them. The core has four parts:

- **The document engine.** `TextBuffer` holds the text, a clamped cursor
  with a preferred column, a scrolling viewport, and a sparse map from
  character offsets to colour ids. Every insert and delete re-indexes the
  colour map.
- **The dialog state machine.** `Overlay` is the open dialog.
  `PendingAction` and `PostCategoryAction` are continuations stored as
  data. Around them sit:
  - the unsaved-changes guard;
  - the redirect into "new category" when no category exists;
  - category and search-match cycling;
  - tree selection;
  - the file-tree keys and the editor commands.
- **Line endings and the colour sidecar.** This covers detecting CRLF, the
  rewrites on load and save, the sidecar's path, and its field-selection
  rule.
- **The key table.** `map_key_event` is a first-match table from key
  events to commands.

Modules:

| file | module | contents |
|---|---|---|
| wrappers.dfy | `Wrappers` | `Option`, `Result` |
| text_lines.dfy | `TextLines` | splitting text at '\n' and joining it back |
| color_map.dfy | `ColorMap` | the offset shifts of the colour map |
| buffer.dfy | `Buffer` | `TextBuffer`: queries, viewport, navigation, edits, colours, search |
| buffer_scenarios.dfy | `BufferScenarios` | multi-step buffer properties |
| paths.dfy | `Paths` | paths as component lists |
| filesystem.dfy | `FileSystem` | end-of-line handling and the sidecar |
| keys.dfy | `Keys`, `Commands` | key events and the editor commands |
| input.dfy | `Input` | `map_key_event` |
| file_tree.dfy | `FileTree` | tree selection |
| names.dfy | `Names` | trimming, note names, the go-to-line number parse |
| modular.dfy | `Modular` | modular-arithmetic facts used by the cycling proofs |
| categories.dfy | `Categories` | the category list and its lowercase order |
| app.dfy | `Application` | the app state, disk effects, dialogs, tree keys, commands, `handle_key` |
| app_properties.dfy | `AppProperties` | every key keeps the cursor valid and in view |
| app_dialogs.dfy | `AppDialogs` | dialog transitions |
| app_guards.dfy | `AppGuards` | the unsaved-changes guard and key sequences |

Filesystem effects are decided by a `Disk` record. It holds the readable
documents with their raw contents and the colour sidecars. It also holds
the sets of paths where writing, removing and creating a directory
succeed. Every effect either succeeds or fails according to these sets.
A sidecar entry marked missing counts as no file, both when reading it
and when checking whether a path exists or has a sidecar to remove.

## Model

| member | source | states |
|---|---|---|
| Buffer.LineCount | src/core/buffer.rs:66-68 | a text has one more line than it has '\n' breaks, so there is always at least one line |
| Buffer.LineText | src/core/buffer.rs:84-93 | a line's text holds no break, and a line past the end is empty |
| Buffer.Offset | src/core/buffer.rs:99-103 | the offset of a clamped (line, column) position never passes the end of the text |
| Buffer.OffsetInjective | src/core/buffer.rs:99-103 | two valid positions with the same offset are the same position |
| Buffer.ClampCursor | src/core/buffer.rs:114-118 | the clamped cursor is valid, and a valid cursor is left as it is |
| Buffer.EnsureCursorVisible | src/core/buffer.rs:126-155 | the cursor is clamped and then lies inside the window; an axis that already showed the clamped cursor is not scrolled; the window size and everything but cursor and scroll position are kept |
| Buffer.EnsureCursorVisibleIdempotent | src/core/buffer.rs:126-155 | a second `ensure_cursor_visible` changes nothing |
| Buffer.SetViewportSize | src/core/buffer.rs:120-124 | a zero width or height becomes 1; the cursor ends valid and visible; the document is unchanged |
| Buffer.FromText | src/core/buffer.rs:47-64 | the buffer holds the given text, path and read-only flag, clean, uncoloured, with the cursor valid and visible |
| Buffer.SetTextFromString | src/core/buffer.rs:418-427 | the text is replaced; the cursor and scroll go to the origin; colours are cleared and the buffer is clean; path, read-only flag and window size are kept |
| Buffer.MoveLeft | src/core/buffer.rs:157-166 | from a valid cursor, the offset goes back by one unless it is at the start of the text; the document is unchanged and the cursor is valid and visible |
| Buffer.MoveRight | src/core/buffer.rs:168-178 | from a valid cursor, the offset goes forward by one unless it is at the end of the text |
| Buffer.MoveRightThenLeft | src/core/buffer.rs:157-178 | before the end of the text, right then left returns to the same cursor |
| Buffer.MoveLeftThenRight | src/core/buffer.rs:157-178 | after the start of the text, left then right returns to the same cursor |
| Buffer.MoveUp | src/core/buffer.rs:180-188 | moves one line up to the preferred column, or to the end of a shorter line; the first line stays; the preferred column is kept |
| Buffer.MoveDown | src/core/buffer.rs:190-198 | moves one line down the same way; the last line stays |
| Buffer.MoveDownThenUp | src/core/buffer.rs:180-198 | with the cursor at its preferred column, down then up returns to the same cursor |
| Buffer.MoveHome | src/core/buffer.rs:200-204 | the cursor goes to column 0 of its (clamped) line and the preferred column becomes 0 |
| Buffer.MoveEnd | src/core/buffer.rs:206-210 | the cursor stays on its line and lands at the end of the text or just before a break |
| Buffer.PageUp | src/core/buffer.rs:212-219 | the cursor goes up by the window height less one, stopping at line 0, and takes the preferred column where the line allows it |
| Buffer.PageDown | src/core/buffer.rs:221-228 | the cursor goes down by the window height less one, stopping at the last line |
| Buffer.GotoLine | src/core/buffer.rs:230-238 | a 1-based line in range puts the cursor on it; 0 goes to the first line and a number past the end to the last; the column is kept where the line allows it |
| Buffer.InsertChar | src/core/buffer.rs:240-254 | read-only changes nothing; otherwise the character is placed at the cursor offset and the buffer is dirty; a non-break character moves the column one on, lengthens only the cursor's line by one and keeps the line count |
| Buffer.InsertCharColors | src/core/buffer.rs:240-254 | later colours move up by one; the new character takes the active colour, or no colour when none is active |
| Buffer.InsertNewline | src/core/buffer.rs:256-268 | the break is placed at the cursor offset; the line is cut at the cursor, the cursor goes to the start of the new line, and the line count grows by one |
| Buffer.Backspace | src/core/buffer.rs:270-292 | read-only changes nothing; at the origin only the view is re-checked; otherwise the character before the cursor is removed, later colours move down by one, and the cursor steps back onto the removed position (to the end of the previous line from column 0) |
| Buffer.BackspaceOffset | src/core/buffer.rs:270-292 | away from the origin the cursor offset drops by exactly one; from column 0 the removed character is a break and the line count drops by one |
| Buffer.Delete | src/core/buffer.rs:294-306 | read-only or at the end of the text nothing changes; otherwise the character at the cursor is removed, later colours move down by one, and the cursor stays |
| Buffer.InsertThenBackspace | src/core/buffer.rs:240-292 | typing a non-break character and then backspace restores text, colours and cursor |
| Buffer.NewlineThenBackspace | src/core/buffer.rs:256-292 | a break followed by backspace restores text, colours and cursor |
| Buffer.BackspaceIsLeftThenDelete | src/core/buffer.rs:270-306 | away from the origin, backspace has the same effect on text, colours and cursor as moving left and then deleting |
| Buffer.InsertKeepsColourOnCharacter | src/core/buffer.rs:308-322 | after an insert, every coloured character keeps its colour at its new offset |
| Buffer.RemoveKeepsColourOnCharacter | src/core/buffer.rs:324-345 | after a removal, every surviving coloured character keeps its colour at its new offset |
| Buffer.RemoveUndoesInsertColors | src/core/buffer.rs:308-345 | removing the inserted offset undoes a tagged insert's shift of the colour map |
| Buffer.SetCurrentCharColor | src/core/buffer.rs:347-363 | on a character that is not a break, the colour is set or cleared at the cursor offset and the buffer is dirty; elsewhere only the active colour changes |
| Buffer.CurrentCharColor | src/core/buffer.rs:365-368 | the colour at the cursor offset, else the active colour |
| Buffer.SetThenCurrentCharColor | src/core/buffer.rs:347-368 | after setting a colour, the current colour reads back what was set, unless the cursor is off a character and an old colour is stored there |
| Buffer.MatchesFrom | src/core/buffer.rs:403-416 | the matching lines from a start line on, ascending; a line is listed if and only if it matches |
| Buffer.FindMatches | src/core/buffer.rs:403-416 | an empty query finds nothing; otherwise the result is strictly ascending, lies below the line count, and lists a line if and only if its lowercased text contains the lowercased query |
| BufferScenarios.NewBufferIsBlank | src/core/buffer.rs:43-45 | a new writable buffer holds one empty line with the cursor at the origin |
| BufferScenarios.TypingLengthensLine | src/core/buffer.rs:474-486 | `n` typed non-break characters lengthen the cursor's line by `n` and keep the line count |
| BufferScenarios.TypeTwoLines | src/core/buffer.rs:474-486 | on a blank buffer, `n` characters, a break and `m` characters give two lines of lengths `n` and `m` |
| BufferScenarios.TypeTwoThenBackspace | src/core/buffer.rs:439-446 | two typed characters and a backspace leave only the first, with the cursor one column on |
| BufferScenarios.TypedCharactersTakeActiveColor | src/core/buffer.rs:449-456 | with an active colour, both of two typed characters carry it at their offsets |
| BufferScenarios.ColorFollowsCharacter | src/core/buffer.rs:459-471 | a colour set on the second character stays on it through home, typing at the start, and delete |
| ColorMap.ShiftAfterInsert | src/core/buffer.rs:308-322 | keys below the insert point keep their colour; every key at or after it moves up by the count with its colour; nothing else is added |
| ColorMap.ShiftAfterRemove | src/core/buffer.rs:324-345 | keys below the removed range keep their colour; keys in the range are dropped; keys after it move down by the count |
| ColorMap.InsertNothingIsIdentity | src/core/buffer.rs:308-311 | a zero-length insert leaves the map unchanged |
| ColorMap.RemoveNothingIsIdentity | src/core/buffer.rs:324-327 | a zero-length removal leaves the map unchanged |
| ColorMap.RemoveUndoesInsert | src/core/buffer.rs:308-345 | removing what was inserted restores the map |
| ColorMap.RemoveUndoesTaggedInsert | src/core/buffer.rs:308-345 | removing the inserted character also drops the colour given to it |
| ColorMap.InsertKeepsKeysInText | src/core/buffer.rs:308-322 | when every key lies inside the text before an insert, every key lies inside the longer text after it |
| ColorMap.RemoveKeepsKeysInText | src/core/buffer.rs:324-345 | when every key lies inside the text before a removal, every key lies inside the shorter text after it |
| TextLines.Split | src/core/buffer.rs:66-93 | a text splits into one more line than it has breaks, and no line holds a break |
| TextLines.JoinSplit | src/core/buffer.rs:84-97 | joining the split lines with '\n' gives back the text |
| TextLines.SplitJoin | src/core/buffer.rs:84-97 | splitting joined break-free lines gives back the lines |
| FileSystem.DetectEol | src/io/filesystem.rs:81-87 | CRLF if and only if the content holds "\r\n" somewhere |
| FileSystem.EncodeCrlf | src/io/filesystem.rs:70-74 | every '\n' is written as "\r\n", and the output grows by exactly the number of breaks |
| FileSystem.LoadDocument | src/io/filesystem.rs:59-68 | the line ending is CRLF if and only if the raw text holds "\r\n"; the text is never longer than the raw contents |
| FileSystem.SaveDocument | src/io/filesystem.rs:70-79 | LF writes the text unchanged; CRLF puts '\r' before every break and adds nothing else |
| FileSystem.NormalizeUndoesEncode | src/io/filesystem.rs:59-79 | collapsing "\r\n" after encoding gives back the text |
| FileSystem.EncodeUndoesNormalize | src/io/filesystem.rs:59-79 | when every '\n' follows a '\r', encoding after collapsing gives back the raw text |
| FileSystem.CrlfFileRoundTrip | src/io/filesystem.rs:146-159 | a CRLF file whose every break is "\r\n" is reproduced exactly by load then save |
| FileSystem.SaveThenLoadCrlf | src/io/filesystem.rs:59-79 | text with a break, saved with CRLF and loaded again, gives back the same text and CRLF |
| FileSystem.SidecarPathFor | src/io/filesystem.rs:89-98 | the file name gains ".dopedpad.json" ("untitled.txt" stands in when there is none); the parent directory is kept |
| FileSystem.LoadSidecar | src/io/filesystem.rs:100-117 | a missing sidecar gives an empty map; an unreadable or malformed one gives the matching error; otherwise the character colours, or the line colours when the character colours are empty. Its partner is `SidecarRoundTrip` |
| FileSystem.SaveSidecar | src/io/filesystem.rs:119-133 | the map is stored as the character colours, with empty line colours |
| FileSystem.SidecarRoundTrip | src/io/filesystem.rs:161-173 | loading a saved sidecar gives back exactly the saved map, the empty map included |
| Input.MapKeyEvent | src/input/mod.rs:5-60 | a key event that is not a press maps to nothing; a press maps by the table |
| Input.ColorIdsInRange | src/input/mod.rs:50-57 | a colour command comes exactly from an unmodified F2 to F9, and its id is 1 to 8 |
| Input.ResetComesFromF10 | src/input/mod.rs:49 | the colour reset comes exactly from an unmodified F10 |
| Input.EscClosesOverlay | src/input/mod.rs:22 | Esc with any modifiers, and nothing else, closes the dialog |
| Input.EnterByMode | src/input/mod.rs:31-45 | Enter is "previous match" with Shift in search mode, "next match" in search mode, and a new line otherwise |
| Input.InsertExactly | src/input/mod.rs:46-48 | a character is inserted exactly for that character with no modifier or Shift alone, and a tab for Tab |
| Input.QuitExactly | src/input/mod.rs:12-13 | quit comes exactly from q or Q with Control alone |
| Input.SaveExactly | src/input/mod.rs:14-20 | save comes exactly from s or S with Control alone, or with Control and Shift |
| Input.ControlShortcuts | src/input/mod.rs:23-30 | Control with F, G, O or N opens search, go-to-line, the file tree or a new file |
| FileTree.SelectedPath | src/app/mod.rs:132-136 | the selected node's path; no path when the selection is out of range |
| FileTree.SelectedCategoryIndex | src/app/mod.rs:138-140 | the selected node's category; none when the selection is out of range |
| FileTree.MoveSelection | src/app/mod.rs:155-173 | no nodes, or no file node within one lap, leaves the tree unchanged; otherwise the selection goes to the first file node in the given direction, wrapping round |
| FileTree.NoFileWithinAll | src/app/mod.rs:161-171 | one full lap finds no file node if and only if the tree has none |
| FileTree.MoveSelectionLandsOnFile | src/app/mod.rs:155-173 | when the tree holds a file node, the selection ends on a file node; otherwise nothing changes |
| Names.Trim | src/app/mod.rs:1009 | the result is empty exactly when the input is all white space; otherwise it is the infix that starts and ends with a non-space character, with only white space cut from either end |
| Names.TrimIdempotent | src/app/mod.rs:1009 | trimming twice is trimming once |
| Names.FinalName | src/app/mod.rs:1009-1012 | the final note name always ends in ".txt" |
| Names.FinalNameShape | src/app/mod.rs:1009-1012 | the final name is the trimmed name when that ends in ".txt", and the trimmed name plus ".txt" otherwise |
| Names.FinalNameIdempotent | src/app/mod.rs:1009-1012 | normalising a final name again changes nothing |
| Names.Pop | src/app/mod.rs:634-636 | popping drops exactly the last character, and an empty name stays empty |
| Names.ParseUsize | src/app/mod.rs:689-694 | a parse succeeds only on digits, optionally after one '+', and only for values up to 2^64 - 1 |
| Names.ParseDecimal | src/app/mod.rs:689-694 | the decimal digits of a number up to 2^64 - 1 parse back to it |
| Categories.InsertPos | src/app/mod.rs:304-320 | a new category goes after every name whose lowercase key does not sort after its own, and before the first one that does |
| Categories.Insert | src/app/mod.rs:304-320 | the new list is the old one with the new name spliced in at one place, and nothing lost or added besides |
| Categories.InsertKeepsSorted | src/app/mod.rs:318 | a list sorted by lowercase name stays sorted once a new name is taken in |
| Categories.InsertBefore | src/app/mod.rs:318 | with category "b", a new "a" goes first |
| Categories.LexTotal | src/app/mod.rs:318 | any two keys are ordered one way or the other |
| Categories.LexTrans | src/app/mod.rs:318 | the key order is transitive |
| Application.RequestUnsavedConfirmation | src/app/mod.rs:232-239 | the unsaved-changes dialog opens on the current file name with "Yes" selected, holding the action; nothing else changes |
| Application.OpenDeleteConfirmation | src/app/mod.rs:419-430 | the delete dialog opens with "No" selected, on the file name or "unknown.txt" |
| Application.CategoryIndexForPath | src/app/mod.rs:432-437 | the first category whose directory is the path's parent, and none when no category's directory is |
| Application.OpenSaveAsDialog | src/app/mod.rs:355-386 | with no category, "new category" opens carrying the action and `pending_after_save` is cleared; otherwise Save As opens keeping the action for after the save, on the buffer's file name or "note.txt" when it has none, and on the buffer's category or the first one when it lies in none |
| Application.OpenNewFileDialog | src/app/mod.rs:388-409 | with no category, "new category" opens carrying the preferred category; otherwise "new file" opens on "new_note.txt" in the preferred category clamped to the last one, else the buffer's category, else the first |
| Application.OpenNewCategoryDialog | src/app/mod.rs:411-417 | the new-category dialog opens on an empty name holding its follow-up; see AppDialogs.CategoryCreatedResumes for what the follow-up does |
| Application.PersistToPath | src/app/mod.rs:1091-1105 | the save succeeds exactly when the document, and with styles on its sidecar, can be written; a writable path gets the document with the chosen line ending even when the sidecar write then fails; on success with styles on the sidecar holds the buffer's character colours, and otherwise the sidecars are untouched; on success the buffer takes the path and is clean, on failure it is unchanged |
| Application.OpenDocument | src/app/mod.rs:1107-1123 | opening succeeds exactly for a readable file; it loads a clean buffer with the file's text and line ending, the sidecar's colours when styles are on and the sidecar loads, the old window size, and the tree unfocused; a failure changes nothing |
| Application.DeleteNotePath | src/app/mod.rs:1063-1089 | the file is removed when removable; the delete succeeds exactly when the sidecar, if styles are on and it exists, can be removed as well, and then the sidecar is gone; a failure changes nothing but the disk; deleting the open file leaves `EmptiedBuffer` with LF; on success the tree takes the focus |
| Application.EmptiedBuffer | src/app/mod.rs:1077-1083 | the buffer after the open file is deleted: empty, unnamed, clean, uncoloured, read-only as the mode says, in the old window size with the cursor valid and visible |
| Application.SaveToCategory | src/app/mod.rs:1008-1021 | an unknown category fails; otherwise the buffer is persisted under the final name in the category's directory |
| Application.CreateNewFileInCategory | src/app/mod.rs:1023-1043 | a note is created exactly when the category exists, the final path does not, and it can be written; it starts empty and nothing else changes |
| Application.CreateCategory | src/app/mod.rs:1045-1061 | the category is created exactly when the trimmed name is not blank, has no path separator, does not exist yet, and its directory can be made; the list takes it in its sorted place and the tree takes the focus; a refusal changes nothing |
| Application.CreateCategoryKeepsOrder | src/app/mod.rs:304-320 | a created category keeps a sorted list sorted, and the list gains only that name |
| Application.CreatedCategoryHoldsNotes | src/app/mod.rs:432-437 | a note path inside a created category is found in the category of that name |
| Application.ExecutePendingAction | src/app/mod.rs:908-927 | quit stops the editor; open loads the file or reports "Failed to open file"; new file opens its dialog; delete removes the file or reports "Delete failed" |
| Application.BuildSearchState | src/app/mod.rs:886-898 | the matches are those of the buffer; there is no selection exactly when nothing matches; otherwise the requested index clamped to the last match |
| Application.JumpToSearchMatch | src/app/mod.rs:900-906 | a selected match in range moves the cursor to its line and leaves the document as it was; otherwise nothing changes |
| Application.CycleInverse | src/app/mod.rs:851-863 | a step back undoes a step forward round the matches, and a step forward undoes a step back |
| Application.CycleTimesClosed | src/app/mod.rs:851-863 | `k` steps forward land `k` places on and `k` steps back `k` places back, modulo the count |
| Application.FullCycle | src/app/mod.rs:851-863 | as many steps as there are entries, either way, come back to the start |
| Application.SearchStep | src/app/mod.rs:851-866 | Enter in search selects the next match, or with Shift the previous one, wrapping round; an unset selection counts as the first |
| Application.SearchStepsSelect | src/app/mod.rs:851-866 | `k` presses of Enter select the match `k` cycle steps on |
| Application.SearchFullCycle | src/app/mod.rs:851-866 | pressing Enter as often as there are matches comes back to the selected match |
| Application.CycleCategory | src/app/mod.rs:706-727 | Down gives the next index modulo the count, Up the previous, wrapping to the last; with no categories the index stays |
| Application.ChoiceKey | src/app/mod.rs:517-547 | Left, Up, y and Y select "Yes"; Right, Down, n and N select "No"; no other key selects anything |
| Application.ConfirmUnsavedEnterAsWritten | src/app/mod.rs:549-564 | as the program is written: "No" runs the action and then closes every dialog, including one the action opened |
| Application.ConfirmUnsavedEnter | src/app/mod.rs:549-564 | corrected: "No" runs the held action; "Yes" saves to the buffer's path and runs the action only when the save worked, else reports "Save failed"; with no path Save As opens holding the action |
| Application.SaveAsEnterAsWritten | src/app/mod.rs:735-747 | as the program is written: after a successful save no dialog is left open, even one the held action opened |
| Application.SaveAsEnter | src/app/mod.rs:735-747 | corrected: a blank name is refused; a failed save reports "Save As failed"; after a save the held action, if any, runs once and is cleared |
| AppDialogs.ConfirmUnsavedKeys | src/app/mod.rs:511-548 | in the unsaved-changes dialog Esc closes it; any other key but Enter keeps it on the same file and action and sets the answer by the choice keys |
| AppDialogs.UnsavedAnswerKey | src/app/mod.rs:517-573 | a key other than Esc and Enter sets the answer that key selects, or keeps it |
| AppDialogs.ConfirmDeleteKeys | src/app/mod.rs:575-611 | the delete dialog follows the same key rules |
| AppDialogs.DeleteAnswerKey | src/app/mod.rs:580-627 | a key other than Esc and Enter sets the answer that key selects, or keeps it |
| AppDialogs.ConfirmDeleteEnter | src/app/mod.rs:612-619 | Enter on "No" closes the dialog; on "Yes" the file is removed, and the dialog closes exactly when the delete succeeds, else "Delete failed" is shown |
| AppDialogs.NameIgnoresRejected | src/app/mod.rs:664-680 | in a name dialog, a character typed with Control or Alt, or a path separator, changes nothing |
| AppDialogs.NameEditing | src/app/mod.rs:633-681 | other editing keys keep the same dialog: a name character is appended, Backspace pops one, and a separator-free name stays separator-free |
| AppDialogs.BlankNameRefused | src/app/mod.rs:641-645 | Enter on a name that trims to nothing reports the blank name and creates nothing |
| AppDialogs.CategoryEnterDispatch | src/app/mod.rs:641-667 | Enter in the new-category dialog is `NewCategoryEnter` on the dialog's name and follow-up |
| AppDialogs.CategoryCreatedResumes | src/app/mod.rs:641-667 | on a name that is not blank, a refused category reports "Category creation failed"; a created one is in the list, and the follow-up runs: nothing closes the dialog, Save As opens holding the pending action, or the new-file dialog opens |
| AppDialogs.NoteEnterDispatch | src/app/mod.rs:802-821 | Enter in the new-file dialog is `NewFileEnter` on the dialog's name and category |
| AppDialogs.NoteCreatedOpens | src/app/mod.rs:802-821 | on a name that is not blank, a note that cannot be created reports "File creation failed"; a created note is written empty at its final path and opened, clean, with the dialog closed |
| AppDialogs.CategoryKeysStayInRange | src/app/mod.rs:706-727 | Up and Down keep Save As or New File on the same name with a category in range |
| AppDialogs.CategoryDownUp | src/app/mod.rs:706-727 | Down then Up returns to the dialog as it was |
| AppDialogs.CategoryPresses | src/app/mod.rs:706-727 | `k` presses of Up or Down move the category `k` steps round |
| AppDialogs.CategoryRoundTrip | src/app/mod.rs:706-727 | as many presses as there are categories return to the dialog as it was |
| AppDialogs.GotoInputDigits | src/app/mod.rs:683-701 | the go-to-line input only ever holds digits |
| AppDialogs.TypeDigits | src/app/mod.rs:695-698 | typed digits are appended to the go-to-line input in order |
| AppDialogs.GotoTypedLine | src/app/mod.rs:683-701 | typing a number and Enter closes the dialog with the cursor on that line |
| AppDialogs.GotoEnter | src/app/mod.rs:689-694 | Enter goes to the line the input parses to and closes the dialog |
| AppDialogs.SearchEditsQuery | src/app/mod.rs:844-877 | editing the query searches again and selects the first match, or none when nothing matches |
| AppDialogs.SearchEnter | src/app/mod.rs:851-867 | Enter with no matches changes nothing; otherwise the selection steps round the matches and the document stays as it was |
| AppGuards.HandleKeys | src/app/mod.rs:322-349 | any key sequence keeps the cursor valid and in view |
| AppGuards.QuitAsksFirst | src/app/mod.rs:968-974 | Control+Q quits a clean editor at once and asks about a dirty one |
| AppGuards.NewFileAsksFirst | src/app/mod.rs:995-1004 | Control+N is refused when read-only, asks first when dirty, and otherwise opens the new-file dialog |
| AppGuards.TreeOpenAsksFirst | src/app/mod.rs:460-472 | Enter in the tree opens the selected note at once when clean and asks first when dirty |
| AppGuards.TreeDeleteAsksFirst | src/app/mod.rs:473-484 | deleting from the tree is refused when read-only, asks about unsaved changes when it is the open file, and otherwise asks to confirm the delete |
| AppGuards.TreeNewFileAsksFirst | src/app/mod.rs:444-456 | n in the tree is refused when read-only, asks about unsaved changes first when dirty (holding the selected category), and otherwise opens the new-file dialog on the selected category |
| AppGuards.TreeNewCategory | src/app/mod.rs:457-459 | c in the tree opens the new-category dialog with nothing to resume |
| AppGuards.TreeFocusDispatch | src/app/mod.rs:322-347 | with the tree focused and no dialog, the tree takes every key but Control+Shift+S |
| AppGuards.DirtyDocumentKept | src/app/mod.rs:322-349 | with no dialog open, no key loses unsaved changes: the editor keeps running and the text is either still dirty in the buffer or written to the buffer's file |
| AppGuards.DirtyKeptInTree | src/app/mod.rs:439-494 | no tree key changes a dirty buffer or stops the editor |
| AppGuards.DirtyKeptByCommand | src/app/mod.rs:929-1006 | no editor command loses unsaved changes |
| AppGuards.QuitAnswer | src/app/mod.rs:549-564 | held for quitting, "No" quits without writing; "Yes" quits once the document is written, keeps running after a failed save, and without a path asks where to save, still holding the quit |
| AppGuards.QuitAnswerAsWritten | src/app/mod.rs:549-564 | held for quitting, the program as written and the corrected answer agree |
| AppGuards.DiscardThenNewFileAsWritten | src/app/mod.rs:549-564 | as written, "No" held for a new file opens the new-file dialog and then closes it again |
| AppGuards.DiscardThenNewFile | src/app/mod.rs:549-564 | corrected, "No" held for a new file leaves the new-file dialog open on a category in range, with the buffer untouched |
| AppGuards.SaveThenNewFileAsWritten | src/app/mod.rs:735-747 | as written, Save As holding a new-file request saves and then closes the new-file dialog the request opened |
| AppGuards.SaveThenNewFile | src/app/mod.rs:735-747 | corrected, Save As holding a new-file request saves, clears the request, and leaves the new-file dialog open |
| AppGuards.NewFileAfterDiscardingChanges | src/app/mod.rs:549-564 | with the corrected Enter, Control+N, n and Enter on a dirty buffer end in the new-file dialog with the unsaved text still in the buffer |
| AppProperties.PendingActionKeepsWf | src/app/mod.rs:908-927 | every pending action leaves the cursor valid and in view |
| AppProperties.OverlayKeyKeepsWf | src/app/mod.rs:496-884 | every dialog key leaves the cursor valid and in view |
| AppProperties.TreeKeyKeepsWf | src/app/mod.rs:439-494 | every tree key leaves the cursor valid and in view |
| AppProperties.TreeLetterKeepsBuffer | src/app/mod.rs:449-493 | the tree's letter keys and Delete only open dialogs and leave the buffer as it was |
| AppProperties.ApplyCommandKeepsWf | src/app/mod.rs:929-1006 | every editor command leaves the cursor valid and in view |
| AppProperties.HandleKeyKeepsWf | src/app/mod.rs:322-349 | every key leaves the cursor on a position of the text and inside the window |
| Application.HandleKey | src/app/mod.rs:322-349 | dispatches to the dialog, the tree or the key table; see AppProperties.HandleKeyKeepsWf, AppGuards.DirtyDocumentKept, AppGuards.TreeFocusDispatch and the AppGuards guard lemmas |
| Application.HandleOverlayKey | src/app/mod.rs:496-884 | the open dialog takes the key; see AppProperties.OverlayKeyKeepsWf and the AppDialogs lemmas for each dialog |
| Application.ConfirmUnsavedKey | src/app/mod.rs:511-573 | see AppDialogs.ConfirmUnsavedKeys, AppDialogs.UnsavedAnswerKey and Application.ConfirmUnsavedEnter; Enter follows the corrected `ConfirmUnsavedEnter`, which keeps a dialog the action opens where lines 563 and 882 close it (see Findings) |
| Application.ConfirmDeleteKey | src/app/mod.rs:574-628 | see AppDialogs.ConfirmDeleteKeys, AppDialogs.DeleteAnswerKey and AppDialogs.ConfirmDeleteEnter |
| Application.NewCategoryKey | src/app/mod.rs:629-681 | see AppDialogs.NameEditing, AppDialogs.NameIgnoresRejected, AppDialogs.BlankNameRefused and AppDialogs.CategoryCreatedResumes |
| Application.NewCategoryEnter | src/app/mod.rs:641-667 | see AppDialogs.CategoryCreatedResumes and AppDialogs.BlankNameRefused |
| Application.GotoKey | src/app/mod.rs:683-701 | see AppDialogs.GotoInputDigits, AppDialogs.TypeDigits, AppDialogs.GotoEnter and AppDialogs.GotoTypedLine |
| Application.NameDialog | src/app/mod.rs:702-840 | see AppDialogs.NameEditing, AppDialogs.CategoryKeysStayInRange, AppDialogs.CategoryRoundTrip, Application.SaveAsEnter and AppDialogs.NoteCreatedOpens; Enter in Save As follows the corrected `SaveAsEnter`, which keeps a dialog the held action opens where lines 746 and 882 close it (see Findings) |
| Application.NewFileEnter | src/app/mod.rs:802-821 | see AppDialogs.NoteCreatedOpens and AppDialogs.BlankNameRefused |
| Application.SearchKey | src/app/mod.rs:841-879 | see AppDialogs.SearchEditsQuery, AppDialogs.SearchEnter and Application.SearchFullCycle |
| Application.HandleTreeKey | src/app/mod.rs:439-494 | see AppProperties.TreeKeyKeepsWf, AppProperties.TreeLetterKeepsBuffer, AppGuards.DirtyKeptInTree and the AppGuards tree lemmas |
| Application.TreeDelete | src/app/mod.rs:473-484 | see AppGuards.TreeDeleteAsksFirst |
| Application.ApplyCommand | src/app/mod.rs:929-1006 | see AppProperties.ApplyCommandKeepsWf, AppGuards.DirtyKeptByCommand, AppGuards.QuitAsksFirst and AppGuards.NewFileAsksFirst |
| Application.SetColor | src/app/mod.rs:943-956 | refuses in read-only mode, else `Buffer.SetCurrentCharColor`; see AppProperties.ApplyCommandKeepsWf and Buffer.SetThenCurrentCharColor |
| Input.MapPress | src/input/mod.rs:9-59 | the first-match key table; see Input.MapKeyEvent and the Input lemmas above |

## Left out

- Rendering (src/ui/mod.rs), the terminal set-up and event loop (`run`, `setup_terminal`, `TerminalGuard`), the redraw flag, the notes-root discovery from environment variables, and `update_viewport_from_size`. None of these decides editor state.
- Ropey's storage. The text is a `seq<char>`, and lines break at '\n' only. Ropey also breaks lines at a lone '\r', U+000B, U+000C, U+0085, U+2028 and U+2029. Texts holding those characters have a different line structure in the program.
- Buffer.LowerStr: lowercases ASCII letters only. Rust's `to_lowercase` covers all of Unicode and can change a string's length, so `FindMatches` and the category order can differ on non-ASCII text.
- Categories.Key: the same ASCII-only lowercasing. The order among names with equal keys follows the directory listing, which the model does not see; a new name goes after the names whose keys equal its own.
- Application.CreateCategory: the program re-reads the notes root after creating the directory. The model takes the category list to be that listing already, sorted, and inserts the new name in its sorted place. `CreateCategoryKeepsOrder` proves the list stays sorted.
- The file tree's nodes are taken as given. `refresh_tree` rebuilds them after saving, creating and deleting, and when the tree is opened, keeping the selected path. The model does not rebuild them, so the tree shown after such an effect is not modelled.
- The detail appended to error messages (`: {e:#}`, the underlying I/O or parse error) is dropped. The model keeps each message's fixed prefix, for example "Save failed", "Save As failed", "Category creation failed", "Delete failed", "Failed to open file".
- FileSystem.LoadDocument: the raw contents are given as a string. The `from_utf8_lossy` decoding of the bytes is not modelled.
- The sidecar's JSON encoding and decoding (serde_json) is not modelled. A sidecar is a record of its two colour maps, or marked missing, unreadable or malformed.
- Names.ParseUsize: `usize` is taken to be 64 bits wide, so the largest line number accepted is 2^64 - 1.
- The viewport sizes are `nat` rather than `u16`; the saturating `height - 1` and `width - 1` are written out.
- Application.NewFileEnter: the program reports "Failed to open new file" when the note it has just written cannot be read back. In the `Disk` record a written file is always readable, so that branch never fires in the model (`AppDialogs.NoteCreatedOpens`).
- The `Command` enum is defined in a file that is not part of this model; `Commands.Command` mirrors the variants the core uses.
- Application.HandleOverlayKey, Application.HandleKey, Application.ConfirmUnsavedKey, Application.NameDialog: Enter in the unsaved-changes dialog and in Save As follow the corrected definitions listed under Findings (`ConfirmUnsavedEnter`, `SaveAsEnter`). In the program as written, a dialog the confirmed action opens is closed again at once.

## Findings

| source | as written | input that shows it | evidently intended | confidence | as-written member | corrected member |
|---|---|---|---|---|---|---|
| src/app/mod.rs:549-564 | after Enter in the unsaved-changes dialog runs the pending action, `next` is set to no dialog, and line 882 writes it back over whatever dialog the action opened | a dirty buffer and at least one category, then Control+N, n, Enter: the new-file dialog opens and is closed at once, so no note is started; a failed open after "No" loses its "Failed to open file" error the same way | the dialog the action opens (new file, new category, error) stays open | high, not executed | Application.ConfirmUnsavedEnterAsWritten, AppGuards.DiscardThenNewFileAsWritten | Application.ConfirmUnsavedEnter, AppGuards.DiscardThenNewFile |
| src/app/mod.rs:735-747 | after Enter in Save As runs the held action, `next` is set to no dialog, closing any dialog the action opened | an unnamed dirty buffer, Control+N, Enter on "Yes", then Enter in Save As: the note is saved, and the new-file dialog the held request opens is closed at once | the new-file dialog opened by the held request stays open | high, not executed | Application.SaveAsEnterAsWritten, AppGuards.SaveThenNewFileAsWritten | Application.SaveAsEnter, AppGuards.SaveThenNewFile |

=== FILE: app.dfy ===
/**
 * The application state machine: the overlay dialogs, the continuations
 * they carry, the file-tree keys and the editor commands. Filesystem effects
 * are decided by a `Disk` record that says which reads, writes, removals and
 * directory creations succeed.
 */
module Application {
  import opened Wrappers
  import opened Keys
  import C = Commands
  import opened ColorMap
  import B = Buffer
  import FS = FileSystem
  import opened Paths
  import FT = FileTree
  import Input
  import opened Names
  import opened Modular
  import Cat = Categories

  datatype Mode = Edit | ReadOnly

  datatype Choice = Yes | No

  /** What to do once the unsaved-changes question is settled. */
  datatype PendingAction =
    | Quit
    | OpenPath(path: Path)
    | OpenNewFileOverlay(preferredCategory: Option<nat>)
    | DeletePath(path: Path)

  /** What to do once a category has been created. */
  datatype PostCategoryAction =
    | NoAction
    | OpenSaveAs(pending: Option<PendingAction>)
    | OpenNewFile(preferredCategory: Option<nat>)

  /** The dialog drawn over the editor, if any. */
  datatype Overlay =
    | NoOverlay
    | Help
    | Search(input: string, state: B.SearchState)
    | Goto(input: string)
    | SaveAs(filename: string, categoryIndex: nat)
    | NewFile(filename: string, categoryIndex: nat)
    | NewCategory(name: string, next: PostCategoryAction)
    | ConfirmUnsaved(fileName: string, pending: PendingAction, choice: Choice)
    | ConfirmDelete(fileName: string, path: Path, choice: Choice)
    | Error(message: string)

  /**
   * The part of the filesystem the editor touches: readable documents with
   * their raw contents, colour sidecars, other existing entries, and the
   * paths where writing, removing and creating a directory succeed.
   */
  datatype Disk = Disk(
    files: map<Path, string>,
    sidecars: map<Path, FS.SidecarFile>,
    others: set<Path>,
    writable: set<Path>,
    removable: set<Path>,
    mkdirOk: set<Path>)

  /** What reading the sidecar at `p` gives; an entry marked missing reads as no file. */
  function SidecarAt(d: Disk, p: Path): FS.SidecarFile {
    if p in d.sidecars then d.sidecars[p] else FS.Missing
  }

  /** A sidecar file is present at `p`. */
  predicate HasSidecar(d: Disk, p: Path) {
    SidecarAt(d, p) != FS.Missing
  }

  /** `path.exists()`. */
  predicate Exists(d: Disk, p: Path) {
    p in d.files || HasSidecar(d, p) || p in d.others
  }

  datatype App = App(
    buffer: B.TextBuffer,
    overlay: Overlay,
    mode: Mode,
    eol: FS.EolStyle,
    running: bool,
    noStyle: bool,
    notesRoot: Path,
    tree: FT.Tree,
    pendingAfterSave: Option<PendingAction>,
    categories: seq<string>,
    disk: Disk)

  /**
   * The state the editor keeps between keys: the cursor names a position
   * of the text and lies inside the window.
   */
  predicate Wf(a: App) {
    B.Settled(a.buffer)
  }

  /** An effect's resulting state, and whether it succeeded. */
  datatype Outcome = Outcome(app: App, ok: bool)

  /** `create_new_file_in_category`'s resulting state and the created path, if any. */
  datatype Created = Created(app: App, path: Option<Path>)

  // ---------------------------------------------------------------- dialogs

  function OpenError(a: App, message: string): (r: App)
    ensures r == a.(overlay := Error(message))
  {
    a.(overlay := Error(message))
  }

  /** `current_file_name`: the buffer's file name, or "[No Name]". */
  function CurrentFileName(a: App): string {
    match a.buffer.path
    case Some(p) => FileName(p).GetOr("[No Name]")
    case None => "[No Name]"
  }

  /** `request_unsaved_confirmation`: asks about unsaved changes, "Yes" preselected. */
  function RequestUnsavedConfirmation(a: App, pending: PendingAction): (r: App)
    ensures r == a.(overlay := ConfirmUnsaved(CurrentFileName(a), pending, Yes))
  {
    a.(overlay := ConfirmUnsaved(CurrentFileName(a), pending, Yes))
  }

  /** The first category from `i` on whose directory is `dir`. */
  function CategoryFrom(root: Path, categories: seq<string>, dir: Path, i: nat): (r: Option<nat>)
    ensures r.Some? ==> i <= r.value < |categories| && JoinName(root, categories[r.value]) == dir
    ensures r.Some? ==> forall k :: i <= k < r.value ==> JoinName(root, categories[k]) != dir
    ensures r.None? ==> forall k :: i <= k < |categories| ==> JoinName(root, categories[k]) != dir
    decreases |categories| - i
  {
    if i >= |categories| then None
    else if JoinName(root, categories[i]) == dir then Some(i)
    else CategoryFrom(root, categories, dir, i + 1)
  }

  /** `category_index_for_path`: the first category whose directory holds `p`. */
  function CategoryIndexForPath(a: App, p: Path): (r: Option<nat>)
    ensures r.Some? ==> (r.value < |a.categories|
      && Parent(p) == Some(JoinName(a.notesRoot, a.categories[r.value]))
      && forall k :: 0 <= k < r.value ==> Parent(p) != Some(JoinName(a.notesRoot, a.categories[k])))
    ensures r.None? ==> forall k :: 0 <= k < |a.categories| ==> Parent(p) != Some(JoinName(a.notesRoot, a.categories[k]))
  {
    match Parent(p)
    case None => None
    case Some(dir) => CategoryFrom(a.notesRoot, a.categories, dir, 0)
  }

  /** The category of the buffer's file, if it lies in one. */
  function BufferCategory(a: App): Option<nat> {
    match a.buffer.path
    case Some(p) => CategoryIndexForPath(a, p)
    case None => None
  }

  /**
   * `open_save_as_overlay_with_pending`. With no category yet it asks for
   * one first and hands the pending action to that dialog, clearing
   * `pending_after_save`; otherwise it opens Save As on an existing
   * category and keeps the action for after the save.
   */
  function OpenSaveAsDialog(a: App, pending: Option<PendingAction>): (r: App)
    ensures |a.categories| == 0 ==>
      r == a.(overlay := NewCategory("", OpenSaveAs(pending)), pendingAfterSave := None)
    ensures |a.categories| > 0 ==>
      && r == a.(overlay := r.overlay, pendingAfterSave := pending)
      && r.overlay.SaveAs? && r.overlay.categoryIndex < |a.categories|
    ensures |a.categories| > 0 && a.buffer.path.Some? && FileName(a.buffer.path.value).Some? ==>
      r.overlay.filename == FileName(a.buffer.path.value).value
    ensures |a.categories| > 0 && (a.buffer.path.None? || FileName(a.buffer.path.value).None?) ==>
      r.overlay.filename == "note.txt"
    ensures |a.categories| > 0 && BufferCategory(a).Some? ==> r.overlay.categoryIndex == BufferCategory(a).value
    ensures |a.categories| > 0 && BufferCategory(a).None? ==> r.overlay.categoryIndex == 0
  {
    var a1 := a.(pendingAfterSave := pending);
    if |a.categories| == 0 then
      a1.(overlay := NewCategory("", OpenSaveAs(a1.pendingAfterSave)), pendingAfterSave := None)
    else
      var filename := match a.buffer.path
        case Some(p) => FileName(p).GetOr("note.txt")
        case None => "note.txt";
      var index := B.Min(BufferCategory(a).GetOr(0), |a.categories| - 1);
      a1.(overlay := SaveAs(filename, index))
  }

  /**
   * `open_new_file_overlay`. With no category yet it asks for one first,
   * carrying the preferred category along; otherwise it opens the new-file
   * dialog on the preferred category, else the buffer's, else the first,
   * clamped to the last.
   */
  function OpenNewFileDialog(a: App, preferred: Option<nat>): (r: App)
    ensures |a.categories| == 0 ==> r == a.(overlay := NewCategory("", OpenNewFile(preferred)))
    ensures |a.categories| > 0 ==>
      && r == a.(overlay := r.overlay)
      && r.overlay.NewFile? && r.overlay.filename == "new_note.txt"
      && r.overlay.categoryIndex < |a.categories|
    ensures |a.categories| > 0 && preferred.Some? ==>
      r.overlay.categoryIndex == B.Min(preferred.value, |a.categories| - 1)
    ensures |a.categories| > 0 && preferred.None? && BufferCategory(a).Some? ==>
      r.overlay.categoryIndex == BufferCategory(a).value
    ensures |a.categories| > 0 && preferred.None? && BufferCategory(a).None? ==> r.overlay.categoryIndex == 0
  {
    if |a.categories| == 0 then
      a.(overlay := NewCategory("", OpenNewFile(preferred)))
    else
      var index := B.Min(preferred.Or(BufferCategory(a)).GetOr(0), |a.categories| - 1);
      a.(overlay := NewFile("new_note.txt", index))
  }

  /** `open_new_category_overlay`. */
  function OpenNewCategoryDialog(a: App, next: PostCategoryAction): (r: App)
    ensures r == a.(overlay := NewCategory("", next))
  {
    a.(overlay := NewCategory("", next))
  }

  /** `open_delete_confirmation`: asks before deleting, "No" preselected. */
  function OpenDeleteConfirmation(a: App, path: Path): (r: App)
    ensures r == a.(overlay := ConfirmDelete(FileName(path).GetOr("unknown.txt"), path, No))
  {
    a.(overlay := ConfirmDelete(FileName(path).GetOr("unknown.txt"), path, No))
  }

  // ---------------------------------------------------------- disk effects

  /**
   * `persist_to_path`: writes the document, then (with styles on) its
   * sidecar; on success the buffer takes the path and is clean. A failed
   * sidecar write leaves the written document on disk.
   */
  function PersistToPath(a: App, path: Path): (r: Outcome)
    ensures !r.ok ==> r.app.buffer == a.buffer && r.app.overlay == a.overlay
    ensures r.ok <==> path in a.disk.writable && (a.noStyle || FS.SidecarPathFor(path) in a.disk.writable)
    ensures r.ok ==> r.app.buffer == a.buffer.(path := Some(path), dirty := false)
    ensures path in a.disk.writable ==> r.app.disk.files == a.disk.files[path := FS.SaveDocument(a.buffer.text, a.eol)]
    ensures path !in a.disk.writable ==> r.app.disk == a.disk
    ensures r.ok && !a.noStyle ==>
      r.app.disk.sidecars == a.disk.sidecars[FS.SidecarPathFor(path) := FS.Stored(FS.SaveSidecar(a.buffer.charColors))]
    ensures a.noStyle || !r.ok ==> r.app.disk.sidecars == a.disk.sidecars
    ensures r.app.disk == a.disk.(files := r.app.disk.files, sidecars := r.app.disk.sidecars)
    ensures r.app == a.(disk := r.app.disk, buffer := r.app.buffer)
  {
    if path !in a.disk.writable then Outcome(a, false)
    else
      var d1 := a.disk.(files := a.disk.files[path := FS.SaveDocument(a.buffer.text, a.eol)]);
      var sidecar := FS.SidecarPathFor(path);
      if !a.noStyle && sidecar !in a.disk.writable then Outcome(a.(disk := d1), false)
      else
        var d2 := if a.noStyle then d1
          else d1.(sidecars := d1.sidecars[sidecar := FS.Stored(FS.SaveSidecar(a.buffer.charColors))]);
        Outcome(a.(disk := d2, buffer := B.MarkSaved(a.buffer.(path := Some(path)))), true)
  }

  /**
   * `open_document`: loads the file into a fresh buffer (read-only in
   * read-only mode), takes its colours from the sidecar when styles are on
   * and the sidecar loads, keeps the window size, adopts the file's line
   * ending and leaves the tree.
   */
  function OpenDocument(a: App, path: Path): (r: Outcome)
    ensures r.ok <==> path in a.disk.files
    ensures !r.ok ==> r.app == a
    ensures r.ok ==> var doc := FS.LoadDocument(a.disk.files[path]);
      && r.app.buffer.text == doc.text && r.app.eol == doc.eol
      && r.app.buffer.path == Some(path) && r.app.buffer.readonly == (a.mode == ReadOnly)
      && !r.app.buffer.dirty && B.Settled(r.app.buffer)
      && r.app.buffer.viewport.width == (if a.buffer.viewport.width == 0 then 1 else a.buffer.viewport.width)
      && r.app.buffer.viewport.height == (if a.buffer.viewport.height == 0 then 1 else a.buffer.viewport.height)
      && r.app == a.(buffer := r.app.buffer, eol := doc.eol, tree := a.tree.(focus := false))
    ensures r.ok && a.noStyle ==> r.app.buffer.charColors == map[]
    ensures r.ok && !a.noStyle ==>
      match FS.LoadSidecar(SidecarAt(a.disk, FS.SidecarPathFor(path)), FS.SidecarPathFor(path))
      case Ok(colors) => r.app.buffer.charColors == colors
      case Err(_) => r.app.buffer.charColors == map[]
  {
    if path !in a.disk.files then Outcome(a, false)
    else
      var doc := FS.LoadDocument(a.disk.files[path]);
      var loaded := B.FromText(doc.text, Some(path), a.mode == ReadOnly);
      var sidecar := FS.SidecarPathFor(path);
      var styled := if a.noStyle then loaded
        else match FS.LoadSidecar(SidecarAt(a.disk, sidecar), sidecar)
          case Ok(colors) => loaded.(charColors := colors)
          case Err(_) => loaded;
      var sized := B.SetViewportSize(styled, a.buffer.viewport.width, a.buffer.viewport.height);
      Outcome(a.(buffer := sized, eol := doc.eol, tree := a.tree.(focus := false)), true)
  }

  /**
   * The buffer left after the open file is deleted: empty, unnamed, clean
   * and uncoloured, in the old window size.
   */
  function EmptiedBuffer(a: App): (b: B.TextBuffer)
    ensures b.text == [] && b.path == None && !b.dirty && b.charColors == map[]
    ensures b.readonly == (a.mode == ReadOnly) && B.Settled(b)
    ensures b.viewport.width == (if a.buffer.viewport.width == 0 then 1 else a.buffer.viewport.width)
    ensures b.viewport.height == (if a.buffer.viewport.height == 0 then 1 else a.buffer.viewport.height)
  {
    B.SetViewportSize(B.NewBuffer(None, a.mode == ReadOnly), a.buffer.viewport.width, a.buffer.viewport.height)
  }

  /**
   * `delete_note_path`: removes the file and (with styles on) its sidecar
   * if one exists; deleting the open file leaves an empty unnamed buffer
   * with LF endings; on success the tree takes the focus.
   */
  function DeleteNotePath(a: App, path: Path): (r: Outcome)
    ensures path !in a.disk.removable ==> r == Outcome(a, false)
    ensures path in a.disk.removable ==>
      r.app.disk.files == a.disk.files - {path} && r.app.disk.others == a.disk.others - {path}
    ensures r.ok && !a.noStyle ==> r.app.disk.sidecars == a.disk.sidecars - {FS.SidecarPathFor(path)}
    ensures a.noStyle || !r.ok ==> r.app.disk.sidecars == a.disk.sidecars
    ensures !r.ok ==> r.app == a.(disk := r.app.disk)
    ensures r.ok <==> (path in a.disk.removable
      && (a.noStyle || !HasSidecar(a.disk, FS.SidecarPathFor(path)) || FS.SidecarPathFor(path) in a.disk.removable))
    ensures r.ok && a.buffer.path == Some(path) ==> r.app.buffer == EmptiedBuffer(a) && r.app.eol == FS.Lf
    ensures r.ok && a.buffer.path != Some(path) ==> r.app.buffer == a.buffer && r.app.eol == a.eol
    ensures r.ok ==> r.app.tree == a.tree.(focus := true)
    ensures r.app.overlay == a.overlay && r.app.categories == a.categories
  {
    if path !in a.disk.removable then Outcome(a, false)
    else
      var d1 := a.disk.(files := a.disk.files - {path}, others := a.disk.others - {path});
      var sidecar := FS.SidecarPathFor(path);
      if !a.noStyle && HasSidecar(d1, sidecar) && sidecar !in d1.removable then Outcome(a.(disk := d1), false)
      else
        var d2 := if a.noStyle then d1 else d1.(sidecars := d1.sidecars - {sidecar});
        var tree := a.tree.(focus := true);
        if a.buffer.path == Some(path) then
          Outcome(a.(disk := d2, buffer := EmptiedBuffer(a), eol := FS.Lf, tree := tree), true)
        else Outcome(a.(disk := d2, tree := tree), true)
  }

  /** The path a note named `filename` gets in category `index`. */
  function NotePath(a: App, index: nat, filename: string): Path
    requires index < |a.categories|
  {
    JoinName(JoinName(a.notesRoot, a.categories[index]), FinalName(filename))
  }

  /** `save_to_category`: persists under the final name in an existing category. */
  function SaveToCategory(a: App, filename: string, index: nat): (r: Outcome)
    ensures index >= |a.categories| ==> r == Outcome(a, false)
    ensures index < |a.categories| ==> r == PersistToPath(a, NotePath(a, index, filename))
  {
    if index >= |a.categories| then Outcome(a, false)
    else PersistToPath(a, NotePath(a, index, filename))
  }

  /**
   * `create_new_file_in_category`: writes an empty note under the final
   * name, refusing an unknown category and an existing path.
   */
  function CreateNewFileInCategory(a: App, filename: string, index: nat): (r: Created)
    ensures r.path.None? ==> r.app == a
    ensures r.path.Some? <==> (index < |a.categories|
      && !Exists(a.disk, NotePath(a, index, filename)) && NotePath(a, index, filename) in a.disk.writable)
    ensures r.path.Some? ==> (r.path.value == NotePath(a, index, filename)
      && r.app == a.(disk := a.disk.(files := a.disk.files[r.path.value := ""])))
  {
    if index >= |a.categories| then Created(a, None)
    else
      var path := NotePath(a, index, filename);
      if Exists(a.disk, path) || path !in a.disk.writable then Created(a, None)
      else Created(a.(disk := a.disk.(files := a.disk.files[path := ""])), Some(path))
  }

  /** The category-name rule: not blank after trimming, and no path separator. */
  predicate ValidCategoryName(t: string) {
    t != [] && '/' !in t && '\\' !in t
  }

  /**
   * `create_category`: makes the directory for the trimmed name, refusing
   * a blank name, a path separator and an existing entry; the re-read
   * category list takes the new directory in its lowercase order, and the
   * tree then takes the focus.
   */
  function CreateCategory(a: App, name: string): (r: Outcome)
    ensures !r.ok ==> r.app == a
    ensures r.ok <==> (ValidCategoryName(Trim(name))
      && !Exists(a.disk, JoinName(a.notesRoot, Trim(name)))
      && JoinName(a.notesRoot, Trim(name)) in a.disk.mkdirOk)
    ensures r.ok ==> r.app == a.(categories := Cat.Insert(a.categories, Trim(name)), tree := a.tree.(focus := true),
                                 disk := a.disk.(others := a.disk.others + {JoinName(a.notesRoot, Trim(name))}))
  {
    var t := Trim(name);
    if !ValidCategoryName(t) then Outcome(a, false)
    else
      var path := JoinName(a.notesRoot, t);
      if Exists(a.disk, path) || path !in a.disk.mkdirOk then Outcome(a, false)
      else
        Outcome(a.(categories := Cat.Insert(a.categories, t), tree := a.tree.(focus := true),
                   disk := a.disk.(others := a.disk.others + {path})), true)
  }

  /**
   * A created category joins the list in its sorted place, and the list
   * loses nothing.
   */
  lemma CreateCategoryKeepsOrder(a: App, name: string)
    requires Cat.Sorted(a.categories) && CreateCategory(a, name).ok
    ensures var cats := CreateCategory(a, name).app.categories;
      && Cat.Sorted(cats) && multiset(cats) == multiset(a.categories) + multiset{Trim(name)}
  {
    Cat.InsertKeepsSorted(a.categories, Trim(name));
  }

  /** A note in a created category is found in that category. */
  lemma CreatedCategoryHoldsNotes(a: App, name: string, file: string)
    requires CreateCategory(a, name).ok
    ensures var r := CreateCategory(a, name).app;
      var i := CategoryIndexForPath(r, JoinName(JoinName(a.notesRoot, Trim(name)), file));
      i.Some? && r.categories[i.value] == Trim(name)
  {
    var r := CreateCategory(a, name).app;
    var t := Trim(name);
    var p := JoinName(JoinName(a.notesRoot, t), file);
    assert t in multiset(r.categories);
    var k :| 0 <= k < |r.categories| && r.categories[k] == t;
    var i := CategoryIndexForPath(r, p);
    assert Parent(p) == Some(JoinName(r.notesRoot, r.categories[k]));
    var c := r.categories[i.value];
    assert JoinName(a.notesRoot, c).parts[|a.notesRoot.parts|] == c;
  }

  /** `execute_pending_action`: carries out the action the dialog was holding. */
  function ExecutePendingAction(a: App, pending: PendingAction): (r: App)
    ensures pending == Quit ==> r == a.(running := false)
    ensures pending.OpenNewFileOverlay? ==> r == OpenNewFileDialog(a, pending.preferredCategory)
    ensures pending.OpenPath? && OpenDocument(a, pending.path).ok ==> r == OpenDocument(a, pending.path).app
    ensures pending.OpenPath? && !OpenDocument(a, pending.path).ok ==> r == a.(overlay := Error("Failed to open file"))
    ensures pending.DeletePath? ==> var o := DeleteNotePath(a, pending.path);
      r == if o.ok then o.app else o.app.(overlay := Error("Delete failed"))
  {
    match pending
    case Quit => a.(running := false)
    case OpenPath(path) =>
      var o := OpenDocument(a, path);
      if o.ok then o.app else OpenError(o.app, "Failed to open file")
    case OpenNewFileOverlay(preferred) => OpenNewFileDialog(a, preferred)
    case DeletePath(path) =>
      var o := DeleteNotePath(a, path);
      if o.ok then o.app else OpenError(o.app, "Delete failed")
  }

  // ----------------------------------------------------------------- search

  /**
   * `build_search_state`: the matches of `query` in the buffer, with the
   * selection clamped to the last match, and none when nothing matches.
   */
  function BuildSearchState(a: App, query: string, index: nat): (s: B.SearchState)
    ensures s.query == query && s.matches == B.FindMatches(a.buffer.text, query)
    ensures s.current.None? <==> |s.matches| == 0
    ensures s.current.Some? ==> s.current.value == B.Min(index, |s.matches| - 1) && s.current.value < |s.matches|
  {
    var matches := B.FindMatches(a.buffer.text, query);
    B.SearchState(query, matches, if |matches| == 0 then None else Some(B.Min(index, |matches| - 1)))
  }

  /** `jump_to_search_match`: goes to the selected match's line, if there is one. */
  function JumpToSearchMatch(a: App, s: B.SearchState): (r: App)
    ensures r == a.(buffer := r.buffer)
    ensures s.current.Some? && s.current.value < |s.matches| && s.matches[s.current.value] < B.LineCount(a.buffer.text) ==>
      r.buffer.cursor.line == s.matches[s.current.value] && B.SameDocument(r.buffer, a.buffer)
    ensures !(s.current.Some? && s.current.value < |s.matches|) ==> r == a
  {
    if s.current.Some? && s.current.value < |s.matches| then
      a.(buffer := B.GotoLine(a.buffer, s.matches[s.current.value] + 1))
    else a
  }

  /** One step round `n` entries: back from 0 to the last, forward from the last to 0. */
  function Cycle(i: nat, n: nat, back: bool): (r: nat)
    requires n > 0
    ensures !back ==> r < n
    ensures i < n ==> r < n
  {
    if back then (if i == 0 then n - 1 else i - 1) else (i + 1) % n
  }

  /** Within range, stepping back undoes stepping forward and vice versa. */
  lemma CycleInverse(i: nat, n: nat)
    requires i < n
    ensures Cycle(Cycle(i, n, false), n, true) == i
    ensures Cycle(Cycle(i, n, true), n, false) == i
  {
    if i + 1 < n { SmallMod(i + 1, n); } else { ModAddModulus(0, n); }
    if i > 0 { SmallMod(i, n); } else { ModAddModulus(n - 1, n); SmallMod(n - 1, n); }
  }

  /** `k` steps round `n` entries. */
  function CycleTimes(i: nat, n: nat, back: bool, k: nat): nat
    requires n > 0
    decreases k
  {
    if k == 0 then i else Cycle(CycleTimes(i, n, back, k - 1), n, back)
  }

  /** From an entry in range, `k` steps forward land `k` places on, and `k` back `k` places back, modulo `n`. */
  lemma {:induction false} CycleTimesClosed(i: nat, n: nat, back: bool, k: nat)
    requires i < n
    ensures CycleTimes(i, n, back, k) == if back then (i - k) % n else (i + k) % n
    decreases k
  {
    if k == 0 {
      SmallMod(i, n);
    } else {
      CycleTimesClosed(i, n, back, k - 1);
      var p := CycleTimes(i, n, back, k - 1);
      if back {
        if p == 0 {
          assert (i - (k - 1)) % n == 0;
          ModSum(i - (k - 1), -1, n);
          ModAddModulus(-1, n);
          SmallMod(n - 1, n);
        } else {
          ModSum(i - (k - 1), -1, n);
          SmallMod(p - 1, n);
        }
      } else {
        ModSum(i + (k - 1), 1, n);
      }
    }
  }

  /** `n` steps either way round `n` entries come back to the start. */
  lemma FullCycle(i: nat, n: nat, back: bool)
    requires i < n
    ensures CycleTimes(i, n, back, n) == i
  {
    CycleTimesClosed(i, n, back, n);
    SmallMod(i, n);
    if back { ModAddModulus(i - n, n); } else { ModAddModulus(i, n); }
  }

  /**
   * Enter in the search dialog: the next match, or with Shift the previous
   * one, wrapping round; an unset selection counts as the first match.
   */
  function SearchStep(s: B.SearchState, shift: bool): (r: B.SearchState)
    requires |s.matches| > 0
    ensures r == s.(current := r.current) && r.current.Some?
    ensures r.current.value == Cycle(s.current.GetOr(0), |s.matches|, shift)
  {
    s.(current := Some(Cycle(s.current.GetOr(0), |s.matches|, shift)))
  }

  /** `k` presses of Enter in the search dialog. */
  function SearchSteps(s: B.SearchState, shift: bool, k: nat): (r: B.SearchState)
    requires |s.matches| > 0
    ensures r.matches == s.matches
    decreases k
  {
    if k == 0 then s else SearchStep(SearchSteps(s, shift, k - 1), shift)
  }

  /** The selection after `k` presses is `k` cycle steps from the one before them. */
  lemma {:induction false} SearchStepsSelect(s: B.SearchState, shift: bool, k: nat)
    requires |s.matches| > 0 && k > 0
    ensures SearchSteps(s, shift, k).current == Some(CycleTimes(s.current.GetOr(0), |s.matches|, shift, k))
    decreases k
  {
    if k > 1 {
      SearchStepsSelect(s, shift, k - 1);
    }
  }

  /** Pressing Enter as often as there are matches returns to the selected match. */
  lemma SearchFullCycle(s: B.SearchState, shift: bool)
    requires |s.matches| > 0 && s.current.Some? && s.current.value < |s.matches|
    ensures SearchSteps(s, shift, |s.matches|).current == s.current
  {
    SearchStepsSelect(s, shift, |s.matches|);
    FullCycle(s.current.value, |s.matches|, shift);
  }

  // -------------------------------------------------------------- overlays

  /** Up and Down in Save As and New File: cycle round the categories, if there are any. */
  function CycleCategory(index: nat, n: nat, up: bool): (r: nat)
    ensures n == 0 ==> r == index
    ensures n > 0 && !up ==> r == (index + 1) % n
    ensures n > 0 && up ==> r == if index == 0 then n - 1 else index - 1
  {
    if n == 0 then index else Cycle(index, n, up)
  }

  /** The answer a confirmation key selects, if it is one. */
  function ChoiceKey(code: KeyCode): (r: Option<Choice>)
    ensures r == Some(Yes) <==> code in {Left, Up, Char('y'), Char('Y')}
    ensures r == Some(No) <==> code in {Right, Down, Char('n'), Char('N')}
  {
    match code
    case Left => Some(Yes)
    case Up => Some(Yes)
    case Char(c) => if c == 'y' || c == 'Y' then Some(Yes) else if c == 'n' || c == 'N' then Some(No) else None
    case Right => Some(No)
    case Down => Some(No)
    case _ => None
  }

  /** A character typed into a name: not with Control or Alt, and not a path separator. */
  predicate NameChar(key: KeyEvent) {
    key.code.Char? && !key.modifiers.control && !key.modifiers.alt
    && key.code.c != '/' && key.code.c != '\\'
  }

  /** A character typed into the search query: not with Control or Alt. */
  predicate QueryChar(key: KeyEvent) {
    key.code.Char? && !key.modifiers.control && !key.modifiers.alt
  }

  /**
   * Enter in the unsaved-changes dialog, as `handle_overlay_key` has it:
   * after the pending action runs, the dialog's successor is set to none,
   * which replaces any dialog the action opened.
   */
  function ConfirmUnsavedEnterAsWritten(a: App, pending: PendingAction, choice: Choice): (r: App)
    requires a.overlay == NoOverlay
    ensures choice == No ==> r == ExecutePendingAction(a, pending).(overlay := NoOverlay)
  {
    if choice == Yes then
      match a.buffer.path
      case Some(path) =>
        var o := PersistToPath(a, path);
        if !o.ok then OpenError(o.app, "Save failed")
        else ExecutePendingAction(o.app, pending).(overlay := NoOverlay)
      case None => OpenSaveAsDialog(a, Some(pending))
    else ExecutePendingAction(a, pending).(overlay := NoOverlay)
  }

  /**
   * Enter in the unsaved-changes dialog: "No" runs the pending action;
   * "Yes" saves to the buffer's path first and runs it only if the save
   * worked, or, with no path, opens Save As holding the action. Whatever
   * dialog the action opens stays open.
   */
  function ConfirmUnsavedEnter(a: App, pending: PendingAction, choice: Choice): (r: App)
    requires a.overlay == NoOverlay
    ensures choice == No ==> r == ExecutePendingAction(a, pending)
    ensures choice == Yes && a.buffer.path.Some? ==> var o := PersistToPath(a, a.buffer.path.value);
      r == if o.ok then ExecutePendingAction(o.app, pending) else o.app.(overlay := Error("Save failed"))
    ensures choice == Yes && a.buffer.path.None? ==> r == OpenSaveAsDialog(a, Some(pending))
  {
    if choice == Yes then
      match a.buffer.path
      case Some(path) =>
        var o := PersistToPath(a, path);
        if !o.ok then OpenError(o.app, "Save failed")
        else ExecutePendingAction(o.app, pending)
      case None => OpenSaveAsDialog(a, Some(pending))
    else ExecutePendingAction(a, pending)
  }

  /** A key in the unsaved-changes dialog; Enter as corrected, keeping the dialog an action opens. */
  function ConfirmUnsavedKey(a: App, key: KeyEvent, fileName: string, pending: PendingAction, choice: Choice): App
    requires a.overlay == NoOverlay
  {
    if key.code == Esc then a
    else if key.code == Enter then ConfirmUnsavedEnter(a, pending, choice)
    else a.(overlay := ConfirmUnsaved(fileName, pending, ChoiceKey(key.code).GetOr(choice)))
  }

  /** A key in the delete dialog: Enter on "Yes" deletes, and a failure is reported. */
  function ConfirmDeleteKey(a: App, key: KeyEvent, fileName: string, path: Path, choice: Choice): App
    requires a.overlay == NoOverlay
  {
    if key.code == Esc then a
    else if key.code == Enter then
      if choice == Yes then
        var o := DeleteNotePath(a, path);
        if o.ok then o.app else OpenError(o.app, "Delete failed")
      else a
    else a.(overlay := ConfirmDelete(fileName, path, ChoiceKey(key.code).GetOr(choice)))
  }

  /**
   * Enter in the new-category dialog: a blank name is refused; a created
   * category resumes what asked for it.
   */
  function NewCategoryEnter(a: App, name: string, next: PostCategoryAction): App
    requires a.overlay == NoOverlay
  {
    var t := Trim(name);
    if t == [] then OpenError(a, "Category name cannot be empty")
    else
      var o := CreateCategory(a, t);
      if !o.ok then OpenError(o.app, "Category creation failed")
      else
        match next
        case NoAction => o.app.(overlay := NoOverlay)
        case OpenSaveAs(pending) => OpenSaveAsDialog(o.app, pending)
        case OpenNewFile(preferred) => OpenNewFileDialog(o.app, preferred)
  }

  function NewCategoryKey(a: App, key: KeyEvent, name: string, next: PostCategoryAction): App
    requires a.overlay == NoOverlay
  {
    if key.code == Esc then a
    else if key.code == Backspace then a.(overlay := NewCategory(Pop(name), next))
    else if key.code == Enter then NewCategoryEnter(a, name, next)
    else if NameChar(key) then a.(overlay := NewCategory(name + [key.code.c], next))
    else a.(overlay := NewCategory(name, next))
  }

  /** The go-to-line dialog: digits only; Enter jumps when the input parses. */
  function GotoKey(a: App, key: KeyEvent, input: string): App
    requires a.overlay == NoOverlay
  {
    if key.code == Esc then a
    else if key.code == Backspace then a.(overlay := Goto(Pop(input)))
    else if key.code == Enter then
      match ParseUsize(input)
      case Some(n) => a.(buffer := B.GotoLine(a.buffer, n))
      case None => a
    else if key.code.Char? && IsDigit(key.code.c) then a.(overlay := Goto(input + [key.code.c]))
    else a.(overlay := Goto(input))
  }

  /**
   * Enter in Save As, as `handle_overlay_key` has it: the successor is set
   * to none after the held action runs, replacing any dialog it opened.
   */
  function SaveAsEnterAsWritten(a: App, filename: string, index: nat): (r: App)
    requires a.overlay == NoOverlay
    ensures Trim(filename) != [] && SaveToCategory(a, filename, index).ok ==> r.overlay == NoOverlay
  {
    if Trim(filename) == [] then OpenError(a, "File name cannot be empty")
    else
      var o := SaveToCategory(a, filename, index);
      if !o.ok then OpenError(o.app, "Save As failed")
      else
        var saved := o.app.(pendingAfterSave := None);
        match o.app.pendingAfterSave
        case Some(pending) => ExecutePendingAction(saved, pending).(overlay := NoOverlay)
        case None => saved.(overlay := NoOverlay)
  }

  /**
   * Enter in Save As: a blank name is refused; after a successful save the
   * held action, if any, runs, and whatever dialog it opens stays open.
   */
  function SaveAsEnter(a: App, filename: string, index: nat): (r: App)
    requires a.overlay == NoOverlay
    ensures Trim(filename) == [] ==> r == a.(overlay := Error("File name cannot be empty"))
    ensures Trim(filename) != [] && !SaveToCategory(a, filename, index).ok ==>
      r == SaveToCategory(a, filename, index).app.(overlay := Error("Save As failed"))
    ensures Trim(filename) != [] && SaveToCategory(a, filename, index).ok ==>
      var saved := SaveToCategory(a, filename, index).app;
      r == match saved.pendingAfterSave
        case Some(pending) => ExecutePendingAction(saved.(pendingAfterSave := None), pending)
        case None => saved.(pendingAfterSave := None)
  {
    if Trim(filename) == [] then OpenError(a, "File name cannot be empty")
    else
      var o := SaveToCategory(a, filename, index);
      if !o.ok then OpenError(o.app, "Save As failed")
      else
        var saved := o.app.(pendingAfterSave := None);
        match o.app.pendingAfterSave
        case Some(pending) => ExecutePendingAction(saved, pending)
        case None => saved
  }

  /** Enter in New File: a blank name is refused; a created note is opened. */
  function NewFileEnter(a: App, filename: string, index: nat): App
    requires a.overlay == NoOverlay
  {
    if Trim(filename) == [] then OpenError(a, "File name cannot be empty")
    else
      var c := CreateNewFileInCategory(a, filename, index);
      match c.path
      case None => OpenError(c.app, "File creation failed")
      case Some(path) =>
        var o := OpenDocument(c.app, path);
        if o.ok then o.app else OpenError(o.app, "Failed to open new file")
  }

  /**
   * The keys Save As and New File share: Up and Down cycle the category,
   * names take typed characters; Enter in Save As as corrected.
   */
  function NameDialog(a: App, key: KeyEvent, filename: string, index: nat, saveAs: bool): App
    requires a.overlay == NoOverlay
  {
    var n := |a.categories|;
    if key.code == Esc then a
    else if key.code == Enter then
      if saveAs then SaveAsEnter(a, filename, index) else NewFileEnter(a, filename, index)
    else
      var (f, i) :=
        if key.code == Up then (filename, CycleCategory(index, n, true))
        else if key.code == Down then (filename, CycleCategory(index, n, false))
        else if key.code == Backspace then (Pop(filename), index)
        else if NameChar(key) then (filename + [key.code.c], index)
        else (filename, index);
      a.(overlay := if saveAs then SaveAs(f, i) else NewFile(f, i))
  }

  /** The search dialog: editing the query searches again from the first match. */
  function SearchKey(a: App, key: KeyEvent, input: string, state: B.SearchState): App
    requires a.overlay == NoOverlay
  {
    if key.code == Esc then a
    else if key.code == Backspace || QueryChar(key) then
      var q := if key.code == Backspace then Pop(input) else input + [key.code.c];
      var s := BuildSearchState(a, q, 0);
      JumpToSearchMatch(a, s).(overlay := Search(q, s))
    else if key.code == Enter && |state.matches| > 0 then
      var s := SearchStep(state, key.modifiers.shift);
      JumpToSearchMatch(a, s).(overlay := Search(input, s))
    else a.(overlay := Search(input, state))
  }

  /**
   * `handle_overlay_key`: the open dialog takes the key and leaves its
   * successor. Enter in the unsaved-changes dialog and in Save As follows
   * the corrected `ConfirmUnsavedEnter` and `SaveAsEnter`, so a dialog the
   * confirmed action opens stays open; the program as written closes it
   * (`ConfirmUnsavedEnterAsWritten`, `SaveAsEnterAsWritten`).
   */
  function HandleOverlayKey(a: App, key: KeyEvent): App {
    var a0 := a.(overlay := NoOverlay);
    match a.overlay
    case NoOverlay => a0
    case Help => if key.code == Esc || key.code == Enter then a0 else a
    case Error(_) => if key.code == Esc || key.code == Enter then a0 else a
    case ConfirmUnsaved(fileName, pending, choice) => ConfirmUnsavedKey(a0, key, fileName, pending, choice)
    case ConfirmDelete(fileName, path, choice) => ConfirmDeleteKey(a0, key, fileName, path, choice)
    case NewCategory(name, next) => NewCategoryKey(a0, key, name, next)
    case Goto(input) => GotoKey(a0, key, input)
    case SaveAs(filename, index) => NameDialog(a0, key, filename, index, true)
    case NewFile(filename, index) => NameDialog(a0, key, filename, index, false)
    case Search(input, state) => SearchKey(a0, key, input, state)
  }

  // ------------------------------------------------------------- tree keys

  /** `handle_tree_key`: keys while the file tree has the focus. */
  function HandleTreeKey(a: App, key: KeyEvent): App {
    match key.code
    case Esc => a.(tree := a.tree.(focus := false))
    case Up => a.(tree := FT.MoveSelection(a.tree, -1))
    case Down => a.(tree := FT.MoveSelection(a.tree, 1))
    case Enter =>
      (match FT.SelectedPath(a.tree)
       case None => a
       case Some(path) =>
         if a.buffer.dirty then RequestUnsavedConfirmation(a, OpenPath(path))
         else
           var o := OpenDocument(a, path);
           if o.ok then o.app else OpenError(o.app, "Failed to open file"))
    case Delete => TreeDelete(a)
    case Char(c) =>
      if c == 'n' || c == 'N' then
        if a.buffer.readonly then OpenError(a, "Readonly mode: cannot create files")
        else if a.buffer.dirty then
          RequestUnsavedConfirmation(a, OpenNewFileOverlay(FT.SelectedCategoryIndex(a.tree)))
        else OpenNewFileDialog(a, FT.SelectedCategoryIndex(a.tree))
      else if c == 'c' || c == 'C' then OpenNewCategoryDialog(a, NoAction)
      else if c == 'd' || c == 'D' then TreeDelete(a)
      else if (c == 'o' || c == 'O') && key.modifiers.control then a.(tree := a.tree.(focus := false))
      else a
    case _ => a
  }

  /** Delete in the tree: the open file with unsaved changes asks first. */
  function TreeDelete(a: App): App {
    if a.buffer.readonly then OpenError(a, "Readonly mode: cannot delete files")
    else
      match FT.SelectedPath(a.tree)
      case None => a
      case Some(path) =>
        if a.buffer.dirty && a.buffer.path == Some(path) then RequestUnsavedConfirmation(a, DeletePath(path))
        else OpenDeleteConfirmation(a, path)
  }

  // --------------------------------------------------------------- commands

  /** Colouring needs a writable buffer. */
  function SetColor(a: App, color: Option<ColorId>): App {
    if a.buffer.readonly then OpenError(a, "Readonly mode: cannot modify styles")
    else a.(buffer := B.SetCurrentCharColor(a.buffer, color))
  }

  /** `apply_command`: a command from the key table, with no dialog open. */
  function ApplyCommand(a: App, cmd: C.Command): App
    requires Wf(a)
  {
    match cmd
    case Insert(c) => a.(buffer := B.InsertChar(a.buffer, c))
    case NewLine => a.(buffer := B.InsertNewline(a.buffer))
    case Backspace => a.(buffer := B.Backspace(a.buffer))
    case Delete => a.(buffer := B.Delete(a.buffer))
    case MoveLeft => a.(buffer := B.MoveLeft(a.buffer))
    case MoveRight => a.(buffer := B.MoveRight(a.buffer))
    case MoveUp => a.(buffer := B.MoveUp(a.buffer))
    case MoveDown => a.(buffer := B.MoveDown(a.buffer))
    case MoveHome => a.(buffer := B.MoveHome(a.buffer))
    case MoveEnd => a.(buffer := B.MoveEnd(a.buffer))
    case PageUp => a.(buffer := B.PageUp(a.buffer))
    case PageDown => a.(buffer := B.PageDown(a.buffer))
    case SetLineColor(id) => SetColor(a, Some(id))
    case ResetLineColor => SetColor(a, None)
    case Save =>
      if a.buffer.readonly then OpenError(a, "Readonly mode: save disabled")
      else
        (match a.buffer.path
         case Some(path) =>
           var o := PersistToPath(a, path);
           if o.ok then o.app else OpenError(o.app, "Save failed")
         case None => OpenSaveAsDialog(a, None))
    case Quit =>
      if a.buffer.dirty then RequestUnsavedConfirmation(a, Quit) else a.(running := false)
    case OpenHelp => a.(overlay := Help)
    case OpenSearch => a.(overlay := Search("", BuildSearchState(a, "", 0)))
    case OpenGoto => a.(overlay := Goto(""))
    case OpenFileTree => a.(tree := a.tree.(focus := !a.tree.focus))
    case NewFile =>
      if a.buffer.readonly then OpenError(a, "Readonly mode: cannot create files")
      else if a.buffer.dirty then RequestUnsavedConfirmation(a, OpenNewFileOverlay(None))
      else OpenNewFileDialog(a, None)
    case CloseOverlay => a
    case SearchNext => a
    case SearchPrev => a
  }

  /** Control and Shift held with S, in either case. */
  predicate SaveAsChord(key: KeyEvent) {
    key.modifiers.control && key.modifiers.shift && (key.code == Char('S') || key.code == Char('s'))
  }

  /**
   * `handle_key`: Control+Shift+S opens Save As from anywhere; otherwise an
   * open dialog, then the focused tree, then the command table takes the key.
   * Dialogs follow the corrected Enter of `HandleOverlayKey`.
   */
  function HandleKey(a: App, key: KeyEvent): App
    requires Wf(a)
  {
    if SaveAsChord(key) then
      if a.buffer.readonly then OpenError(a, "Readonly mode: save disabled") else OpenSaveAsDialog(a, None)
    else if !a.overlay.NoOverlay? then HandleOverlayKey(a, key)
    else if a.tree.focus then HandleTreeKey(a, key)
    else
      match Input.MapKeyEvent(key, false)
      case Some(cmd) => ApplyCommand(a, cmd)
      case None => a
  }
}

=== FILE: app_dialogs.dfy ===
/**
 * The key rules of the dialogs: how the confirmation dialogs pick an
 * answer, what the name dialogs accept, how the category selection
 * cycles, and what typing into go-to-line and search does.
 */
module AppDialogs {
  import opened Wrappers
  import opened Keys
  import B = Buffer
  import opened Paths
  import opened Names
  import opened Application

  /** Keys that answer "Yes" in a confirmation dialog. */
  predicate YesKey(code: KeyCode) { code == Left || code == Up || code == Char('y') || code == Char('Y') }

  /** Keys that answer "No" in a confirmation dialog. */
  predicate NoKey(code: KeyCode) { code == Right || code == Down || code == Char('n') || code == Char('N') }

  /** The answer after a key that neither closes nor confirms the dialog. */
  predicate AnswerAfter(before: Choice, code: KeyCode, after: Choice) {
    after == Yes <==> (YesKey(code) || (before == Yes && !NoKey(code)))
  }

  // ------------------------------------------------------- confirmations

  /**
   * The unsaved-changes dialog: Esc closes it and nothing else happens;
   * any key but Enter keeps it open with the answer the key selects, or
   * the old one.
   */
  lemma ConfirmUnsavedKeys(a: App, key: KeyEvent)
    requires a.overlay.ConfirmUnsaved? && key.code != Enter
    ensures var r := HandleOverlayKey(a, key);
      && (key.code == Esc ==> r == a.(overlay := NoOverlay))
      && (key.code != Esc ==>
            && r == a.(overlay := r.overlay) && r.overlay.ConfirmUnsaved?
            && r.overlay.fileName == a.overlay.fileName && r.overlay.pending == a.overlay.pending
            && AnswerAfter(a.overlay.choice, key.code, r.overlay.choice))
  {
    if key.code != Esc {
      UnsavedAnswerKey(a, key);
    }
  }

  lemma UnsavedAnswerKey(a: App, key: KeyEvent)
    requires a.overlay.ConfirmUnsaved? && key.code != Enter && key.code != Esc
    ensures HandleOverlayKey(a, key) == a.(overlay := ConfirmUnsaved(a.overlay.fileName, a.overlay.pending,
                                                                       ChoiceKey(key.code).GetOr(a.overlay.choice)))
  {
  }

  /** The delete dialog follows the same rules. */
  lemma ConfirmDeleteKeys(a: App, key: KeyEvent)
    requires a.overlay.ConfirmDelete? && key.code != Enter
    ensures var r := HandleOverlayKey(a, key);
      && (key.code == Esc ==> r == a.(overlay := NoOverlay))
      && (key.code != Esc ==>
            && r == a.(overlay := r.overlay) && r.overlay.ConfirmDelete?
            && r.overlay.fileName == a.overlay.fileName && r.overlay.path == a.overlay.path
            && AnswerAfter(a.overlay.choice, key.code, r.overlay.choice))
  {
    if key.code != Esc {
      DeleteAnswerKey(a, key);
    }
  }

  lemma DeleteAnswerKey(a: App, key: KeyEvent)
    requires a.overlay.ConfirmDelete? && key.code != Enter && key.code != Esc
    ensures HandleOverlayKey(a, key) == a.(overlay := ConfirmDelete(a.overlay.fileName, a.overlay.path,
                                                                      ChoiceKey(key.code).GetOr(a.overlay.choice)))
  {
  }

  /**
   * Enter in the delete dialog: "No" closes it; "Yes" removes the file
   * when it may be removed, and otherwise reports the failure.
   */
  lemma ConfirmDeleteEnter(a: App, key: KeyEvent)
    requires a.overlay.ConfirmDelete? && key.code == Enter
    ensures var r := HandleOverlayKey(a, key); var p := a.overlay.path;
      && (a.overlay.choice == No ==> r == a.(overlay := NoOverlay))
      && (a.overlay.choice == Yes && p in a.disk.removable ==> p !in r.disk.files)
      && (a.overlay.choice == Yes ==>
            (r.overlay == NoOverlay <==> DeleteNotePath(a.(overlay := NoOverlay), p).ok))
      && (a.overlay.choice == Yes && r.overlay != NoOverlay ==> r.overlay == Error("Delete failed"))
  {
  }

  // ---------------------------------------------------------------- names

  /** No path separator in a typed name. */
  predicate SeparatorFree(s: string) { '/' !in s && '\\' !in s }

  /** A name dialog: Save As, New File or New Category, and the name it holds. */
  predicate NameOverlay(o: Overlay) { o.SaveAs? || o.NewFile? || o.NewCategory? }

  function TypedName(o: Overlay): string
    requires NameOverlay(o)
  {
    match o
    case SaveAs(f, _) => f
    case NewFile(f, _) => f
    case NewCategory(n, _) => n
  }

  /** The same dialog, with the same category or follow-up, around another name. */
  predicate SameDialog(o: Overlay, o': Overlay) {
    match o
    case SaveAs(_, i) => o'.SaveAs? && o'.categoryIndex == i
    case NewFile(_, i) => o'.NewFile? && o'.categoryIndex == i
    case NewCategory(_, next) => o'.NewCategory? && o'.next == next
    case _ => false
  }

  /** Popping the last character leaves no new character behind. */
  lemma PopKeepsFree(s: string)
    requires SeparatorFree(s)
    ensures SeparatorFree(Pop(s))
  {
    if s != [] {
      assert Pop(s) + [s[|s| - 1]] == s;
      assert forall c :: c in Pop(s) ==> c in s;
    }
  }

  /**
   * In a name dialog a separator, or a character typed with Control or
   * Alt, is ignored: the state does not change.
   */
  lemma NameIgnoresRejected(a: App, key: KeyEvent)
    requires NameOverlay(a.overlay) && key.code.Char? && !NameChar(key)
    ensures HandleOverlayKey(a, key) == a
  {
  }

  /**
   * Editing a name in a name dialog (any key but Esc, Enter, Up and Down)
   * keeps the dialog and never brings a separator into a name that had
   * none; a name character is appended and Backspace drops the last one.
   */
  lemma NameEditing(a: App, key: KeyEvent)
    requires NameOverlay(a.overlay) && key.code !in {Esc, Enter, Up, Down}
    ensures var r := HandleOverlayKey(a, key);
      && r == a.(overlay := r.overlay) && SameDialog(a.overlay, r.overlay)
      && (SeparatorFree(TypedName(a.overlay)) ==> SeparatorFree(TypedName(r.overlay)))
      && (NameChar(key) ==> TypedName(r.overlay) == TypedName(a.overlay) + [key.code.c])
      && (key.code == Backspace ==> TypedName(r.overlay) == Pop(TypedName(a.overlay)))
  {
    if SeparatorFree(TypedName(a.overlay)) {
      PopKeepsFree(TypedName(a.overlay));
    }
  }

  /** Enter on a blank name reports it and creates nothing. */
  lemma BlankNameRefused(a: App, key: KeyEvent)
    requires NameOverlay(a.overlay) && key.code == Enter && Trim(TypedName(a.overlay)) == []
    ensures HandleOverlayKey(a, key) == a.(overlay := Error(
      if a.overlay.NewCategory? then "Category name cannot be empty" else "File name cannot be empty"))
  {
  }

  /** Enter in the new-category dialog is `NewCategoryEnter` on its name and follow-up. */
  lemma CategoryEnterDispatch(a: App, key: KeyEvent, name: string, next: PostCategoryAction)
    requires a.overlay == NewCategory(name, next) && key.code == Enter
    ensures HandleOverlayKey(a, key) == NewCategoryEnter(a.(overlay := NoOverlay), name, next)
  {
    var a0 := a.(overlay := NoOverlay);
    assert HandleOverlayKey(a, key) == NewCategoryKey(a0, key, name, next);
  }

  /**
   * Enter in the new-category dialog on a name that is not blank: a
   * refused category is reported; a created one resumes what asked for
   * it, which is closing the dialog, Save As holding the pending action,
   * or the new-file dialog.
   */
  lemma CategoryCreatedResumes(a: App, name: string, next: PostCategoryAction)
    requires a.overlay == NoOverlay && Trim(name) != []
    ensures var r := NewCategoryEnter(a, name, next); var o := CreateCategory(a, Trim(name));
      && (!o.ok ==> r == a.(overlay := Error("Category creation failed")))
      && (o.ok ==> r.categories == o.app.categories && |r.categories| > 0)
      && (o.ok && next == NoAction ==> r == o.app)
      && (o.ok && next.OpenSaveAs? ==>
            r == OpenSaveAsDialog(o.app, next.pending) && r.overlay.SaveAs? && r.pendingAfterSave == next.pending)
      && (o.ok && next.OpenNewFile? ==>
            r == OpenNewFileDialog(o.app, next.preferredCategory) && r.overlay.NewFile?)
  {
  }

  /** Enter in the new-file dialog is `NewFileEnter` on its name and category. */
  lemma NoteEnterDispatch(a: App, key: KeyEvent, filename: string, index: nat)
    requires a.overlay == NewFile(filename, index) && key.code == Enter
    ensures HandleOverlayKey(a, key) == NewFileEnter(a.(overlay := NoOverlay), filename, index)
  {
    var a0 := a.(overlay := NoOverlay);
    assert HandleOverlayKey(a, key) == NameDialog(a0, key, filename, index, false);
  }

  /**
   * Enter in the new-file dialog on a name that is not blank: a note that
   * cannot be created is reported; a created note is opened, empty and
   * clean, and the dialog closes.
   */
  lemma NoteCreatedOpens(a: App, filename: string, index: nat)
    requires a.overlay == NoOverlay && Trim(filename) != []
    ensures var r := NewFileEnter(a, filename, index); var c := CreateNewFileInCategory(a, filename, index);
      && (c.path.None? ==> r == a.(overlay := Error("File creation failed")))
      && (c.path.Some? ==>
            && index < |a.categories|
            && r.overlay == NoOverlay && r.buffer.path == Some(NotePath(a, index, filename))
            && r.buffer.text == [] && !r.buffer.dirty
            && r.disk.files == a.disk.files[NotePath(a, index, filename) := ""])
  {
    var c := CreateNewFileInCategory(a, filename, index);
    if c.path.Some? {
      assert OpenDocument(c.app, c.path.value).ok;
    }
  }

  // ---------------------------------------------------------- categories

  /** Up and Down in Save As or New File select another category in range. */
  lemma CategoryKeysStayInRange(a: App, key: KeyEvent)
    requires (a.overlay.SaveAs? || a.overlay.NewFile?) && a.overlay.categoryIndex < |a.categories|
    requires key.code == Up || key.code == Down
    ensures var r := HandleOverlayKey(a, key);
      && r == a.(overlay := r.overlay) && SameKind(a.overlay, r.overlay)
      && r.overlay.filename == a.overlay.filename && r.overlay.categoryIndex < |a.categories|
  {
  }

  /** Save As stays Save As and New File stays New File. */
  predicate SameKind(o: Overlay, o': Overlay) {
    (o.SaveAs? && o'.SaveAs?) || (o.NewFile? && o'.NewFile?)
  }

  /** Down and then Up come back to the category selected before. */
  lemma CategoryDownUp(a: App, down: KeyEvent, up: KeyEvent)
    requires (a.overlay.SaveAs? || a.overlay.NewFile?) && a.overlay.categoryIndex < |a.categories|
    requires down.code == Down && up.code == Up
    ensures HandleOverlayKey(HandleOverlayKey(a, down), up) == a
  {
    CycleInverse(a.overlay.categoryIndex, |a.categories|);
  }

  /** `k` presses of a key in a dialog. */
  function PressTimes(a: App, key: KeyEvent, k: nat): App
    decreases k
  {
    if k == 0 then a else HandleOverlayKey(PressTimes(a, key, k - 1), key)
  }

  /** `k` presses of Up or Down step the selected category `k` times round. */
  lemma {:induction false} CategoryPresses(a: App, key: KeyEvent, k: nat)
    requires (a.overlay.SaveAs? || a.overlay.NewFile?) && |a.categories| > 0
    requires key.code == Up || key.code == Down
    ensures var r := PressTimes(a, key, k);
      r == a.(overlay := r.overlay) && SameKind(a.overlay, r.overlay) && r.overlay.filename == a.overlay.filename
      && r.overlay.categoryIndex == CycleTimes(a.overlay.categoryIndex, |a.categories|, key.code == Up, k)
    decreases k
  {
    if k > 0 {
      CategoryPresses(a, key, k - 1);
    }
  }

  /** As many presses as there are categories come back to the start. */
  lemma CategoryRoundTrip(a: App, key: KeyEvent)
    requires (a.overlay.SaveAs? || a.overlay.NewFile?) && a.overlay.categoryIndex < |a.categories|
    requires key.code == Up || key.code == Down
    ensures PressTimes(a, key, |a.categories|) == a
  {
    CategoryPresses(a, key, |a.categories|);
    FullCycle(a.overlay.categoryIndex, |a.categories|, key.code == Up);
  }

  // ---------------------------------------------------------- go to line

  /** Typing `s` into the open dialog, one plain key press per character. */
  function TypeText(a: App, s: string): App
    decreases |s|
  {
    if s == [] then a
    else TypeText(HandleOverlayKey(a, KeyEvent(Char(s[0]), NoMods, Press)), s[1..])
  }

  /** The go-to-line input only ever holds digits. */
  lemma GotoInputDigits(a: App, key: KeyEvent)
    requires a.overlay.Goto? && AllDigits(a.overlay.input)
    ensures var r := HandleOverlayKey(a, key); r.overlay.Goto? ==> AllDigits(r.overlay.input)
  {
    var s := a.overlay.input;
    if s != [] {
      assert Pop(s) + [s[|s| - 1]] == s;
      assert forall k :: 0 <= k < |Pop(s)| ==> Pop(s)[k] == s[k];
    }
  }

  /** Typed digits are appended to the go-to-line input. */
  lemma {:induction false} TypeDigits(a: App, s: string)
    requires a.overlay.Goto? && AllDigits(s)
    ensures TypeText(a, s) == a.(overlay := Goto(a.overlay.input + s))
    decreases |s|
  {
    if s != [] {
      var a1 := TypeDigitStep(a, s);
      assert AllDigits(s[1..]);
      TypeDigits(a1, s[1..]);
      assert a1.overlay.input + s[1..] == a.overlay.input + s;
    }
  }

  /** Typing a digit first: the digit joins the input, then the rest is typed. */
  lemma TypeDigitStep(a: App, s: string) returns (a1: App)
    requires a.overlay.Goto? && s != [] && IsDigit(s[0])
    ensures a1 == a.(overlay := Goto(a.overlay.input + [s[0]]))
    ensures TypeText(a, s) == TypeText(a1, s[1..])
  {
    a1 := a.(overlay := Goto(a.overlay.input + [s[0]]));
    GotoDigit(a, s[0]);
    TypeTextFirst(a, s);
  }

  /** Typing a string is typing its first character and then the rest. */
  lemma TypeTextFirst(a: App, s: string)
    requires s != []
    ensures TypeText(a, s) == TypeText(HandleOverlayKey(a, KeyEvent(Char(s[0]), NoMods, Press)), s[1..])
  {
  }

  /** A digit typed into the go-to-line dialog is appended to its input. */
  lemma GotoDigit(a: App, c: char)
    requires a.overlay.Goto? && IsDigit(c)
    ensures HandleOverlayKey(a, KeyEvent(Char(c), NoMods, Press)) == a.(overlay := Goto(a.overlay.input + [c]))
  {
  }

  /**
   * Typing the decimal digits of a line number into an empty go-to-line
   * dialog and pressing Enter goes to that line and closes the dialog.
   */
  lemma GotoTypedLine(a: App, n: nat, enter: KeyEvent)
    requires a.overlay == Goto("") && n <= UsizeMax && enter.code == Enter
    ensures HandleOverlayKey(TypeText(a, Decimal(n)), enter) == a.(overlay := NoOverlay, buffer := B.GotoLine(a.buffer, n))
  {
    TypeDigits(a, Decimal(n));
    assert "" + Decimal(n) == Decimal(n);
    ParseDecimal(n);
    GotoEnter(TypeText(a, Decimal(n)), enter, n);
  }

  /** Enter in the go-to-line dialog goes to the line its input parses to. */
  lemma GotoEnter(a: App, enter: KeyEvent, n: nat)
    requires a.overlay.Goto? && enter.code == Enter && ParseUsize(a.overlay.input) == Some(n)
    ensures HandleOverlayKey(a, enter) == a.(overlay := NoOverlay, buffer := B.GotoLine(a.buffer, n))
  {
  }

  // --------------------------------------------------------------- search

  /**
   * A query character or Backspace in the search dialog searches the
   * edited query again, selecting its first match, and jumps to it.
   */
  lemma SearchEditsQuery(a: App, key: KeyEvent)
    requires a.overlay.Search? && (QueryChar(key) || key.code == Backspace)
    ensures var q := if key.code == Backspace then Pop(a.overlay.input) else a.overlay.input + [key.code.c];
      var r := HandleOverlayKey(a, key);
      && r.overlay == Search(q, BuildSearchState(a, q, 0))
      && (r.overlay.state.current.Some? <==> |B.FindMatches(a.buffer.text, q)| > 0)
      && (r.overlay.state.current.Some? ==> r.overlay.state.current.value == 0)
  {
  }

  /**
   * Enter in the search dialog moves to the next match (with Shift, the
   * previous one) when there are matches, and does nothing when there are none.
   */
  lemma SearchEnter(a: App, key: KeyEvent)
    requires a.overlay.Search? && key.code == Enter
    ensures var r := HandleOverlayKey(a, key); var s := a.overlay.state;
      && (|s.matches| == 0 ==> r == a)
      && (|s.matches| > 0 ==>
            && r.overlay == Search(a.overlay.input, SearchStep(s, key.modifiers.shift))
            && B.SameDocument(r.buffer, a.buffer))
  {
  }
}

=== FILE: app_guards.dfy ===
/**
 * The unsaved-changes guard: every action that would quit, replace or
 * delete a document with unsaved changes asks first, and the answer
 * decides whether the changes are written, dropped or kept.
 */
module AppGuards {
  import opened Wrappers
  import opened Keys
  import C = Commands
  import B = Buffer
  import FS = FileSystem
  import opened Paths
  import FT = FileTree
  import Input
  import opened Application
  import opened AppProperties

  /** A key press with the given modifiers. */
  function Pressed(code: KeyCode, mods: Modifiers): KeyEvent {
    KeyEvent(code, mods, Press)
  }

  /** The editor's state after a sequence of keys. */
  function HandleKeys(a: App, keys: seq<KeyEvent>): (r: App)
    requires Wf(a)
    ensures Wf(r)
    decreases |keys|
  {
    if keys == [] then a
    else
      HandleKeyKeepsWf(a, keys[0]);
      HandleKeys(HandleKey(a, keys[0]), keys[1..])
  }

  /** The first key, then the rest. */
  lemma HandleKeysStep(a: App, key: KeyEvent, rest: seq<KeyEvent>)
    requires Wf(a)
    ensures Wf(HandleKey(a, key)) && HandleKeys(a, [key] + rest) == HandleKeys(HandleKey(a, key), rest)
  {
    HandleKeyKeepsWf(a, key);
    assert ([key] + rest)[1..] == rest;
  }

  /** The editor proper has the keys: no dialog is open and the tree does not have the focus. */
  predicate Editing(a: App) {
    Wf(a) && a.overlay == NoOverlay && !a.tree.focus
  }

  // --------------------------------------------------------- asking first

  /** Control+Q quits a clean editor at once and asks about a dirty one. */
  lemma QuitAsksFirst(a: App, key: KeyEvent)
    requires Editing(a)
    requires key.kind == Press && Input.CtrlLetter(key.code, key.modifiers, 'q', 'Q')
    ensures a.buffer.dirty ==> HandleKey(a, key) == RequestUnsavedConfirmation(a, Quit)
    ensures !a.buffer.dirty ==> HandleKey(a, key) == a.(running := false)
  {
  }

  /**
   * Control+N is refused in read-only mode, asks about a dirty buffer
   * (carrying the new-file dialog as the pending action), and otherwise
   * opens the new-file dialog.
   */
  lemma NewFileAsksFirst(a: App, key: KeyEvent)
    requires Editing(a)
    requires key.kind == Press && Input.CtrlLetter(key.code, key.modifiers, 'n', 'N')
    ensures a.buffer.readonly ==> HandleKey(a, key) == a.(overlay := Error("Readonly mode: cannot create files"))
    ensures !a.buffer.readonly && a.buffer.dirty ==>
      HandleKey(a, key) == RequestUnsavedConfirmation(a, OpenNewFileOverlay(None))
    ensures !a.buffer.readonly && !a.buffer.dirty ==> HandleKey(a, key) == OpenNewFileDialog(a, None)
  {
    CtrlNDispatch(a, key);
    NewFileCommand(a);
  }

  lemma NewFileCommand(a: App)
    requires Wf(a)
    ensures a.buffer.readonly ==> ApplyCommand(a, C.NewFile) == a.(overlay := Error("Readonly mode: cannot create files"))
    ensures !a.buffer.readonly && a.buffer.dirty ==>
      ApplyCommand(a, C.NewFile) == RequestUnsavedConfirmation(a, OpenNewFileOverlay(None))
    ensures !a.buffer.readonly && !a.buffer.dirty ==> ApplyCommand(a, C.NewFile) == OpenNewFileDialog(a, None)
  {
  }

  lemma CtrlNDispatch(a: App, key: KeyEvent)
    requires Editing(a)
    requires key.kind == Press && Input.CtrlLetter(key.code, key.modifiers, 'n', 'N')
    ensures HandleKey(a, key) == ApplyCommand(a, C.NewFile)
  {
    Input.ControlShortcuts(key, false);
  }

  /** Enter in the tree opens the selected note, asking first when the buffer is dirty. */
  lemma TreeOpenAsksFirst(a: App, key: KeyEvent)
    requires Wf(a) && a.overlay == NoOverlay && a.tree.focus && key.code == Enter
    ensures FT.SelectedPath(a.tree).None? ==> HandleKey(a, key) == a
    ensures FT.SelectedPath(a.tree).Some? && a.buffer.dirty ==>
      HandleKey(a, key) == RequestUnsavedConfirmation(a, OpenPath(FT.SelectedPath(a.tree).value))
    ensures FT.SelectedPath(a.tree).Some? && !a.buffer.dirty ==>
      var o := OpenDocument(a, FT.SelectedPath(a.tree).value);
      HandleKey(a, key) == if o.ok then o.app else a.(overlay := Error("Failed to open file"))
  {
  }

  /**
   * Delete (or d) in the tree: refused in read-only mode; the open file
   * with unsaved changes asks about them first; any other note asks for
   * the deletion to be confirmed.
   */
  lemma TreeDeleteAsksFirst(a: App, key: KeyEvent)
    requires Wf(a) && a.overlay == NoOverlay && a.tree.focus
    requires key.code in {Delete, Char('d'), Char('D')}
    ensures a.buffer.readonly ==> HandleKey(a, key) == a.(overlay := Error("Readonly mode: cannot delete files"))
    ensures !a.buffer.readonly && FT.SelectedPath(a.tree).None? ==> HandleKey(a, key) == a
    ensures !a.buffer.readonly && FT.SelectedPath(a.tree).Some? ==>
      var p := FT.SelectedPath(a.tree).value;
      HandleKey(a, key) == if a.buffer.dirty && a.buffer.path == Some(p)
        then RequestUnsavedConfirmation(a, DeletePath(p))
        else OpenDeleteConfirmation(a, p)
  {
    TreeDeleteDispatch(a, key);
  }

  lemma TreeDeleteDispatch(a: App, key: KeyEvent)
    requires Wf(a) && a.overlay == NoOverlay && a.tree.focus
    requires key.code in {Delete, Char('d'), Char('D')}
    ensures HandleKey(a, key) == TreeDelete(a)
  {
    TreeFocusDispatch(a, key);
    if key.code == Delete {
      assert HandleTreeKey(a, key) == TreeDelete(a);
    } else {
      TreeLetterDelete(a, key);
    }
  }

  lemma TreeLetterDelete(a: App, key: KeyEvent)
    requires key.code == Char('d') || key.code == Char('D')
    ensures HandleTreeKey(a, key) == TreeDelete(a)
  {
  }

  /**
   * n in the tree starts a note in the selected category: refused in
   * read-only mode, asking about unsaved changes first, and otherwise
   * opening the new-file dialog.
   */
  lemma TreeNewFileAsksFirst(a: App, key: KeyEvent)
    requires Wf(a) && a.overlay == NoOverlay && a.tree.focus
    requires key.code == Char('n') || key.code == Char('N')
    ensures var cat := FT.SelectedCategoryIndex(a.tree);
      HandleKey(a, key) ==
        if a.buffer.readonly then a.(overlay := Error("Readonly mode: cannot create files"))
        else if a.buffer.dirty then a.(overlay := ConfirmUnsaved(CurrentFileName(a), OpenNewFileOverlay(cat), Yes))
        else OpenNewFileDialog(a, cat)
  {
    TreeFocusDispatch(a, key);
    TreeLetterNewFile(a, key);
  }

  lemma TreeLetterNewFile(a: App, key: KeyEvent)
    requires key.code == Char('n') || key.code == Char('N')
    ensures var cat := FT.SelectedCategoryIndex(a.tree);
      HandleTreeKey(a, key) ==
        if a.buffer.readonly then OpenError(a, "Readonly mode: cannot create files")
        else if a.buffer.dirty then RequestUnsavedConfirmation(a, OpenNewFileOverlay(cat))
        else OpenNewFileDialog(a, cat)
  {
  }

  /** c in the tree asks for a category name, with nothing to resume after it. */
  lemma TreeNewCategory(a: App, key: KeyEvent)
    requires Wf(a) && a.overlay == NoOverlay && a.tree.focus
    requires key.code == Char('c') || key.code == Char('C')
    ensures HandleKey(a, key) == a.(overlay := NewCategory("", NoAction))
  {
    TreeFocusDispatch(a, key);
  }

  /** With the tree focused and no dialog, the tree takes every key but Control+Shift+S. */
  lemma TreeFocusDispatch(a: App, key: KeyEvent)
    requires Wf(a) && a.overlay == NoOverlay && a.tree.focus && !SaveAsChord(key)
    ensures HandleKey(a, key) == HandleTreeKey(a, key)
  {
  }

  /**
   * The document of `a` survives in `r`: the editor still runs on the same
   * file, and the changes are either still in the buffer or were written
   * to that file.
   */
  predicate DocumentKept(a: App, r: App) {
    && r.running && r.buffer.path == a.buffer.path
    && (r.buffer.dirty || (a.buffer.path.Some? && a.buffer.path.value in r.disk.files
                           && r.disk.files[a.buffer.path.value] == FS.SaveDocument(a.buffer.text, a.eol)))
  }

  /** With no dialog open, no key drops unsaved changes. */
  lemma DirtyDocumentKept(a: App, key: KeyEvent)
    requires Wf(a) && a.overlay == NoOverlay && a.buffer.dirty && a.running
    ensures DocumentKept(a, HandleKey(a, key))
  {
    if !SaveAsChord(key) && a.tree.focus {
      DirtyKeptInTree(a, key);
    } else if !SaveAsChord(key) {
      match Input.MapKeyEvent(key, false)
      case Some(cmd) => DirtyKeptByCommand(a, cmd);
      case None =>
    }
  }

  lemma DirtyKeptInTree(a: App, key: KeyEvent)
    requires Wf(a) && a.overlay == NoOverlay && a.buffer.dirty && a.running
    ensures var r := HandleTreeKey(a, key); r.running && r.buffer == a.buffer
  {
  }

  lemma DirtyKeptByCommand(a: App, cmd: C.Command)
    requires Wf(a) && a.buffer.dirty && a.running
    ensures DocumentKept(a, ApplyCommand(a, cmd))
  {
    if cmd.Save? {
      DirtyKeptBySave(a);
    } else if EditCommand(cmd) {
      DirtyKeptByEdit(a, cmd);
    } else {
      DirtyKeptByOther(a, cmd);
    }
  }

  /** Saving either writes the text to the buffer's file or leaves the buffer dirty. */
  lemma DirtyKeptBySave(a: App)
    requires Wf(a) && a.buffer.dirty && a.running
    ensures DocumentKept(a, ApplyCommand(a, C.Save))
  {
  }

  /** Editing and moving never clear the dirty flag or change the file. */
  lemma DirtyKeptByEdit(a: App, cmd: C.Command)
    requires Wf(a) && a.buffer.dirty && a.running && EditCommand(cmd)
    ensures var r := ApplyCommand(a, cmd); r.running && r.buffer.dirty && r.buffer.path == a.buffer.path
  {
  }

  /** The remaining commands keep the dirty buffer or only open a dialog. */
  lemma DirtyKeptByOther(a: App, cmd: C.Command)
    requires Wf(a) && a.buffer.dirty && a.running && !cmd.Save? && !EditCommand(cmd)
    ensures var r := ApplyCommand(a, cmd); r.running && r.buffer.dirty && r.buffer.path == a.buffer.path
  {
  }

  // ---------------------------------------------------- the answer decides

  /** Enter in the unsaved-changes dialog closes it and acts on the choice, as corrected. */
  lemma ConfirmUnsavedEnterKey(a: App, key: KeyEvent)
    requires a.overlay.ConfirmUnsaved? && key.code == Enter
    ensures HandleOverlayKey(a, key) == ConfirmUnsavedEnter(a.(overlay := NoOverlay), a.overlay.pending, a.overlay.choice)
  {
  }

  /**
   * Enter in the unsaved-changes dialog held for quitting: "No" quits
   * without writing; "Yes" writes the document and quits when that works,
   * reports the failure and keeps running when it does not, and with no
   * path asks where to save, still holding the quit.
   */
  lemma QuitAnswer(a: App, choice: Choice)
    requires a.running && a.overlay == NoOverlay
    ensures var r := ConfirmUnsavedEnter(a, Quit, choice);
      && (choice == No ==> r == a.(running := false))
      && (choice == Yes && a.buffer.path.Some? ==>
            var p := a.buffer.path.value;
            if PersistToPath(a, p).ok
            then !r.running && !r.buffer.dirty && r.disk.files[p] == FS.SaveDocument(a.buffer.text, a.eol)
            else r.running && r.overlay == Error("Save failed") && r.buffer == a.buffer)
      && (choice == Yes && a.buffer.path.None? ==>
            && r.running && r.buffer == a.buffer
            && (r.overlay.SaveAs? ==> r.pendingAfterSave == Some(Quit))
            && (r.overlay.NewCategory? ==> r.overlay.next == OpenSaveAs(Some(Quit)))
            && (r.overlay.SaveAs? || r.overlay.NewCategory?))
  {
  }

  /** Held for quitting, the answer does the same as written and corrected: quitting opens no dialog. */
  lemma QuitAnswerAsWritten(a: App, choice: Choice)
    requires a.overlay == NoOverlay
    ensures ConfirmUnsavedEnterAsWritten(a, Quit, choice) == ConfirmUnsavedEnter(a, Quit, choice)
  {
  }

  // ------------------------------------------------------ the lost dialog

  /**
   * As written, "No" in the unsaved-changes dialog held for a new file
   * opens the new-file dialog and then closes it again: with a category to
   * put the note in, the action opens the dialog, yet the dialog's
   * successor replaces it with none.
   */
  lemma DiscardThenNewFileAsWritten(a: App, preferred: Option<nat>)
    requires a.overlay == NoOverlay && |a.categories| > 0
    ensures ExecutePendingAction(a, OpenNewFileOverlay(preferred)).overlay.NewFile?
    ensures ConfirmUnsavedEnterAsWritten(a, OpenNewFileOverlay(preferred), No).overlay == NoOverlay
  {
  }

  /** Corrected, "No" leaves the new-file dialog open on a valid category. */
  lemma DiscardThenNewFile(a: App, preferred: Option<nat>)
    requires a.overlay == NoOverlay && |a.categories| > 0
    ensures var r := ConfirmUnsavedEnter(a, OpenNewFileOverlay(preferred), No);
      && r.overlay.NewFile? && r.overlay.filename == "new_note.txt"
      && r.overlay.categoryIndex < |a.categories| && r.buffer == a.buffer
  {
  }

  /**
   * As written, Save As holding a new-file request saves and then closes
   * the new-file dialog the request opened.
   */
  lemma SaveThenNewFileAsWritten(a: App, filename: string, index: nat, preferred: Option<nat>)
    requires a.overlay == NoOverlay && |a.categories| > 0
    requires a.pendingAfterSave == Some(OpenNewFileOverlay(preferred))
    requires Names.Trim(filename) != [] && index < |a.categories|
    requires NotePath(a, index, filename) in a.disk.writable
    requires a.noStyle || FS.SidecarPathFor(NotePath(a, index, filename)) in a.disk.writable
    ensures ExecutePendingAction(SaveToCategory(a, filename, index).app.(pendingAfterSave := None),
                                 OpenNewFileOverlay(preferred)).overlay.NewFile?
    ensures SaveAsEnterAsWritten(a, filename, index).overlay == NoOverlay
  {
  }

  /** Corrected, the save goes through and the new-file dialog stays open. */
  lemma SaveThenNewFile(a: App, filename: string, index: nat, preferred: Option<nat>)
    requires a.overlay == NoOverlay && |a.categories| > 0
    requires a.pendingAfterSave == Some(OpenNewFileOverlay(preferred))
    requires Names.Trim(filename) != [] && index < |a.categories|
    requires NotePath(a, index, filename) in a.disk.writable
    requires a.noStyle || FS.SidecarPathFor(NotePath(a, index, filename)) in a.disk.writable
    ensures var r := SaveAsEnter(a, filename, index);
      && r.overlay.NewFile? && r.overlay.categoryIndex < |a.categories|
      && !r.buffer.dirty && r.pendingAfterSave == None
      && r.buffer.path == Some(NotePath(a, index, filename))
  {
  }

  /**
   * With the corrected Enter, from the editor with unsaved changes,
   * Control+N, then n (answer "No"), then Enter ends in the new-file dialog
   * with the changes still in the buffer, unsaved. The program as written
   * ends with no dialog open instead (`DiscardThenNewFileAsWritten`).
   */
  lemma NewFileAfterDiscardingChanges(a: App)
    requires Editing(a) && a.buffer.dirty && !a.buffer.readonly && |a.categories| > 0
    ensures var r := HandleKeys(a, [Pressed(Char('n'), ControlOnly), Pressed(Char('n'), NoMods), Pressed(Enter, NoMods)]);
      r.overlay.NewFile? && r.buffer == a.buffer
  {
    var k1, k2, k3 := Pressed(Char('n'), ControlOnly), Pressed(Char('n'), NoMods), Pressed(Enter, NoMods);
    var a1 := AskNewFile(a, k1);
    var a2 := AnswerNo(a, a1, k2);
    var a3 := EnterNo(a, a2, k3);
    HandleKeysStep(a, k1, [k2, k3]);
    HandleKeysStep(a1, k2, [k3]);
    HandleKeysStep(a2, k3, []);
    assert [k1] + [k2, k3] == [k1, k2, k3] && [k2] + [k3] == [k2, k3] && [k3] + [] == [k3];
  }

  /** Control+N on a dirty buffer asks first. */
  lemma AskNewFile(a: App, key: KeyEvent) returns (a1: App)
    requires Editing(a) && a.buffer.dirty && !a.buffer.readonly
    requires key == Pressed(Char('n'), ControlOnly)
    ensures a1 == HandleKey(a, key) && a1 == RequestUnsavedConfirmation(a, OpenNewFileOverlay(None))
  {
    NewFileAsksFirst(a, key);
    a1 := HandleKey(a, key);
  }

  /** Enter on "No" runs the held new-file request, and with the correction its dialog stays open. */
  lemma EnterNo(a: App, a2: App, key: KeyEvent) returns (a3: App)
    requires Wf(a) && a.overlay == NoOverlay && |a.categories| > 0
    requires a2 == a.(overlay := ConfirmUnsaved(CurrentFileName(a), OpenNewFileOverlay(None), No))
    requires key == Pressed(Enter, NoMods)
    ensures Wf(a2) && a3 == HandleKey(a2, key) && a3.overlay.NewFile? && a3.buffer == a.buffer
  {
    ConfirmUnsavedEnterKey(a2, key);
    DiscardThenNewFile(a, None);
    a3 := HandleKey(a2, key);
  }

  /** n in the unsaved-changes dialog selects "No". */
  lemma AnswerNo(a: App, a1: App, key: KeyEvent) returns (a2: App)
    requires Wf(a) && a.overlay == NoOverlay
    requires a1 == RequestUnsavedConfirmation(a, OpenNewFileOverlay(None))
    requires key == Pressed(Char('n'), NoMods)
    ensures Wf(a1) && a2 == HandleKey(a1, key)
    ensures a2 == a.(overlay := ConfirmUnsaved(CurrentFileName(a), OpenNewFileOverlay(None), No))
  {
    assert ChoiceKey(key.code) == Some(No);
    a2 := HandleKey(a1, key);
  }
}

=== FILE: app_properties.dfy ===
/**
 * Properties of the application state machine: the editor's invariant is
 * kept by every key, the unsaved-changes guard stands before every action
 * that would drop the document, and the dialogs follow their key rules.
 */
module AppProperties {
  import opened Wrappers
  import opened Keys
  import C = Commands
  import B = Buffer
  import FS = FileSystem
  import opened Paths
  import FT = FileTree
  import Input
  import opened Names
  import opened Application

  // ------------------------------------------------------------ invariant

  /** Every buffer an effect leaves behind has its cursor in range and in view. */
  lemma PendingActionKeepsWf(a: App, pending: PendingAction)
    requires Wf(a)
    ensures Wf(ExecutePendingAction(a, pending))
  {
  }

  lemma ConfirmUnsavedKeepsWf(a: App, key: KeyEvent, f: string, p: PendingAction, c: Choice)
    requires Wf(a) && a.overlay == NoOverlay
    ensures Wf(ConfirmUnsavedKey(a, key, f, p, c))
  {
    if key.code == Enter && c == Yes && a.buffer.path.Some? {
      var o := PersistToPath(a, a.buffer.path.value);
      if o.ok { PendingActionKeepsWf(o.app, p); }
    } else if key.code == Enter && c == No {
      PendingActionKeepsWf(a, p);
    }
  }

  lemma ConfirmDeleteKeepsWf(a: App, key: KeyEvent, f: string, p: Path, c: Choice)
    requires Wf(a) && a.overlay == NoOverlay
    ensures Wf(ConfirmDeleteKey(a, key, f, p, c))
  {
  }

  lemma NewCategoryEnterKeepsWf(a: App, n: string, next: PostCategoryAction)
    requires Wf(a) && a.overlay == NoOverlay
    ensures Wf(NewCategoryEnter(a, n, next))
  {
    var t := Trim(n);
    if t != [] {
      var o := CreateCategory(a, t);
      assert Wf(o.app);
    }
  }

  lemma NewCategoryKeepsWf(a: App, key: KeyEvent, n: string, next: PostCategoryAction)
    requires Wf(a) && a.overlay == NoOverlay
    ensures Wf(NewCategoryKey(a, key, n, next))
  {
    if key.code == Enter {
      NewCategoryEnterDispatch(a, key, n, next);
      NewCategoryEnterKeepsWf(a, n, next);
    }
  }

  lemma NewCategoryEnterDispatch(a: App, key: KeyEvent, n: string, next: PostCategoryAction)
    requires a.overlay == NoOverlay && key.code == Enter
    ensures NewCategoryKey(a, key, n, next) == NewCategoryEnter(a, n, next)
  {
  }

  lemma SaveAsEnterKeepsWf(a: App, f: string, i: nat)
    requires Wf(a) && a.overlay == NoOverlay
    ensures Wf(SaveAsEnter(a, f, i))
  {
    if Trim(f) != [] {
      var o := SaveToCategory(a, f, i);
      if o.ok && o.app.pendingAfterSave.Some? {
        PendingActionKeepsWf(o.app.(pendingAfterSave := None), o.app.pendingAfterSave.value);
      }
    }
  }

  lemma NewFileEnterKeepsWf(a: App, f: string, i: nat)
    requires Wf(a) && a.overlay == NoOverlay
    ensures Wf(NewFileEnter(a, f, i))
  {
  }

  lemma NameDialogKeepsWf(a: App, key: KeyEvent, f: string, i: nat, saveAs: bool)
    requires Wf(a) && a.overlay == NoOverlay
    ensures Wf(NameDialog(a, key, f, i, saveAs))
  {
    if key.code == Enter {
      if saveAs { SaveAsEnterKeepsWf(a, f, i); } else { NewFileEnterKeepsWf(a, f, i); }
    }
  }

  lemma SearchKeyKeepsWf(a: App, key: KeyEvent, input: string, state: B.SearchState)
    requires Wf(a) && a.overlay == NoOverlay
    ensures Wf(SearchKey(a, key, input, state))
  {
  }

  lemma GotoKeyKeepsWf(a: App, key: KeyEvent, input: string)
    requires Wf(a) && a.overlay == NoOverlay
    ensures Wf(GotoKey(a, key, input))
  {
  }

  /** Every dialog keeps the invariant. */
  lemma OverlayKeyKeepsWf(a: App, key: KeyEvent)
    requires Wf(a)
    ensures Wf(HandleOverlayKey(a, key))
  {
    if a.overlay.ConfirmUnsaved? {
      UnsavedOverlayKeepsWf(a, key);
    } else if a.overlay.ConfirmDelete? {
      DeleteOverlayKeepsWf(a, key);
    } else if a.overlay.NewCategory? {
      CategoryOverlayKeepsWf(a, key);
    } else {
      InputOverlayKeepsWf(a, key);
    }
  }

  lemma UnsavedOverlayKeepsWf(a: App, key: KeyEvent)
    requires Wf(a) && a.overlay.ConfirmUnsaved?
    ensures Wf(HandleOverlayKey(a, key))
  {
    var o := a.overlay;
    UnsavedDispatch(a, key, o.fileName, o.pending, o.choice);
    ConfirmUnsavedKeepsWf(a.(overlay := NoOverlay), key, o.fileName, o.pending, o.choice);
  }

  lemma UnsavedDispatch(a: App, key: KeyEvent, f: string, p: PendingAction, c: Choice)
    requires a.overlay == ConfirmUnsaved(f, p, c)
    ensures HandleOverlayKey(a, key) == ConfirmUnsavedKey(a.(overlay := NoOverlay), key, f, p, c)
  {
  }

  lemma DeleteOverlayKeepsWf(a: App, key: KeyEvent)
    requires Wf(a) && a.overlay.ConfirmDelete?
    ensures Wf(HandleOverlayKey(a, key))
  {
    var o := a.overlay;
    DeleteDispatch(a, key, o.fileName, o.path, o.choice);
    ConfirmDeleteKeepsWf(a.(overlay := NoOverlay), key, o.fileName, o.path, o.choice);
  }

  lemma DeleteDispatch(a: App, key: KeyEvent, f: string, p: Path, c: Choice)
    requires a.overlay == ConfirmDelete(f, p, c)
    ensures HandleOverlayKey(a, key) == ConfirmDeleteKey(a.(overlay := NoOverlay), key, f, p, c)
  {
  }

  lemma CategoryOverlayKeepsWf(a: App, key: KeyEvent)
    requires Wf(a) && a.overlay.NewCategory?
    ensures Wf(HandleOverlayKey(a, key))
  {
    NewCategoryKeepsWf(a.(overlay := NoOverlay), key, a.overlay.name, a.overlay.next);
  }

  lemma InputOverlayKeepsWf(a: App, key: KeyEvent)
    requires Wf(a) && !(a.overlay.ConfirmUnsaved? || a.overlay.ConfirmDelete? || a.overlay.NewCategory?)
    ensures Wf(HandleOverlayKey(a, key))
  {
    if a.overlay.Goto? {
      GotoKeyKeepsWf(a.(overlay := NoOverlay), key, a.overlay.input);
    } else if a.overlay.SaveAs? || a.overlay.NewFile? {
      NameOverlayKeepsWf(a, key);
    } else if a.overlay.Search? {
      SearchKeyKeepsWf(a.(overlay := NoOverlay), key, a.overlay.input, a.overlay.state);
    }
  }

  lemma NameOverlayKeepsWf(a: App, key: KeyEvent)
    requires Wf(a) && (a.overlay.SaveAs? || a.overlay.NewFile?)
    ensures Wf(HandleOverlayKey(a, key))
  {
    if a.overlay.SaveAs? {
      SaveAsOverlayKeepsWf(a, key);
    } else {
      NewFileDispatch(a, key);
      NameDialogKeepsWf(a.(overlay := NoOverlay), key, a.overlay.filename, a.overlay.categoryIndex, false);
    }
  }

  lemma NewFileDispatch(a: App, key: KeyEvent)
    requires a.overlay.NewFile?
    ensures HandleOverlayKey(a, key) == NameDialog(a.(overlay := NoOverlay), key, a.overlay.filename, a.overlay.categoryIndex, false)
  {
  }

  lemma SaveAsOverlayKeepsWf(a: App, key: KeyEvent)
    requires Wf(a) && a.overlay.SaveAs?
    ensures Wf(HandleOverlayKey(a, key))
  {
    SaveAsDispatch(a, key);
    NameDialogKeepsWf(a.(overlay := NoOverlay), key, a.overlay.filename, a.overlay.categoryIndex, true);
  }

  lemma SaveAsDispatch(a: App, key: KeyEvent)
    requires a.overlay.SaveAs?
    ensures HandleOverlayKey(a, key) == NameDialog(a.(overlay := NoOverlay), key, a.overlay.filename, a.overlay.categoryIndex, true)
  {
  }

  lemma TreeKeyKeepsWf(a: App, key: KeyEvent)
    requires Wf(a)
    ensures Wf(HandleTreeKey(a, key))
  {
    if key.code == Enter {
      TreeEnterKeepsWf(a, key);
    } else if key.code == Delete || key.code.Char? {
      TreeLetterKeepsWf(a, key);
    }
  }

  lemma TreeLetterKeepsWf(a: App, key: KeyEvent)
    requires Wf(a) && (key.code == Delete || key.code.Char?)
    ensures Wf(HandleTreeKey(a, key))
  {
    TreeLetterKeepsBuffer(a, key);
  }

  /** The tree's letter keys and Delete only open dialogs: the buffer stays as it was. */
  lemma TreeLetterKeepsBuffer(a: App, key: KeyEvent)
    requires key.code == Delete || key.code.Char?
    ensures HandleTreeKey(a, key).buffer == a.buffer
  {
    if key.code == Char('n') || key.code == Char('N') {
      TreeNewFileKeepsBuffer(a, key);
    }
  }

  lemma TreeNewFileKeepsBuffer(a: App, key: KeyEvent)
    requires key.code == Char('n') || key.code == Char('N')
    ensures HandleTreeKey(a, key).buffer == a.buffer
  {
  }

  lemma TreeEnterKeepsWf(a: App, key: KeyEvent)
    requires Wf(a) && key.code == Enter
    ensures Wf(HandleTreeKey(a, key))
  {
    if FT.SelectedPath(a.tree).Some? && !a.buffer.dirty {
      OpenKeepsWf(a, FT.SelectedPath(a.tree).value);
    }
  }

  lemma OpenKeepsWf(a: App, p: Path)
    requires Wf(a)
    ensures Wf(OpenDocument(a, p).app)
  {
  }

  lemma ApplyCommandKeepsWf(a: App, cmd: C.Command)
    requires Wf(a)
    ensures Wf(ApplyCommand(a, cmd))
  {
    if cmd.Save? {
      SaveKeepsWf(a);
    } else if EditCommand(cmd) {
      EditKeepsWf(a, cmd);
    }
  }

  /** The commands that edit the text or move the cursor. */
  predicate EditCommand(cmd: C.Command) {
    || cmd.Insert? || cmd.NewLine? || cmd.Backspace? || cmd.Delete?
    || cmd.MoveLeft? || cmd.MoveRight? || cmd.MoveUp? || cmd.MoveDown?
    || cmd.MoveHome? || cmd.MoveEnd? || cmd.PageUp? || cmd.PageDown?
  }

  lemma EditKeepsWf(a: App, cmd: C.Command)
    requires Wf(a) && EditCommand(cmd)
    ensures Wf(ApplyCommand(a, cmd))
  {
  }

  lemma SaveKeepsWf(a: App)
    requires Wf(a)
    ensures Wf(ApplyCommand(a, C.Save))
  {
  }

  /** Every key keeps the cursor on a position of the text and inside the window. */
  lemma HandleKeyKeepsWf(a: App, key: KeyEvent)
    requires Wf(a)
    ensures Wf(HandleKey(a, key))
  {
    if SaveAsChord(key) {
    } else if !a.overlay.NoOverlay? {
      OverlayKeyKeepsWf(a, key);
    } else if a.tree.focus {
      TreeKeyKeepsWf(a, key);
    } else {
      match Input.MapKeyEvent(key, false)
      case Some(cmd) => ApplyCommandKeepsWf(a, cmd);
      case None =>
    }
  }
}

=== FILE: buffer.dfy ===
/**
 * The document engine (`TextBuffer`): text, a clamped cursor with a preferred
 * column, a scroll viewport, and a sparse offset-to-colour map that every edit
 * re-indexes so that each colour stays on the same surviving character.
 */
module Buffer {
  import opened Wrappers
  import opened TextLines
  import opened ColorMap
  import opened Paths

  /** A position as (line, column), both counted from zero. */
  datatype Cursor = Cursor(line: nat, col: nat)

  /** The visible window: first line and column shown, and its size in cells. */
  datatype Viewport = Viewport(topLine: nat, leftCol: nat, width: nat, height: nat)

  /** Query, matching line indices, and the index of the selected match. */
  datatype SearchState = SearchState(query: string, matches: seq<nat>, current: Option<nat>)

  datatype TextBuffer = TextBuffer(
    text: string,
    cursor: Cursor,
    viewport: Viewport,
    preferredCol: nat,
    dirty: bool,
    readonly: bool,
    path: Option<Path>,
    charColors: Colors,
    activeColor: Option<ColorId>)

  function Min(a: nat, b: nat): nat { if a <= b then a else b }

  /** `n.saturating_sub(1)`. */
  function Reach(n: nat): nat { if n == 0 then 0 else n - 1 }

  // ---------------------------------------------------------------- queries

  /** `line_count`: number of lines; there is always at least one. */
  function LineCount(t: string): (n: nat)
    ensures n == Breaks(t) + 1
  {
    |Split(t)|
  }

  /** The text surrounding line `l`. */
  lemma TextAroundLine(t: string, l: nat)
    requires l < LineCount(t)
    ensures t == Lead(Split(t)[..l]) + Split(t)[l] + Tail(Split(t)[l + 1..])
  {
    JoinSplit(t);
    Layout(Split(t), l);
  }

  /** `line_text`: the characters of a line without its terminating '\n'. */
  function LineText(t: string, line: nat): (s: string)
    ensures NoBreak(s)
    ensures line >= LineCount(t) ==> s == []
  {
    if line >= LineCount(t) then [] else Split(t)[line]
  }

  /**
   * Where a line sits in the text: it starts at `LineStart` after exactly
   * `line` breaks, right after a break unless it is the first line, and is
   * followed by a break or the end of the text.
   */
  lemma LineTextPlace(t: string, line: nat)
    requires line < LineCount(t)
    ensures var s := LineText(t, line); var start := LineStart(Split(t), line);
      && start + |s| <= |t|
      && t[start..start + |s|] == s
      && Breaks(t[..start]) == line
      && (start + |s| == |t| || t[start + |s|] == '\n')
      && (line == 0 ==> start == 0)
      && (line > 0 ==> start > 0 && t[start - 1] == '\n')
  {
    var ls := Split(t);
    TextAroundLine(t, line);
    LineStartIsLead(ls, line);
    LeadBreaks(ls, line);
    Pieces(t, Lead(ls[..line]), ls[line], Tail(ls[line + 1..]));
  }

  /** Positions inside a three-part concatenation. */
  lemma Pieces(t: string, a: string, b: string, z: string)
    requires t == a + b + z
    ensures t[..|a|] == a && t[|a|..|a| + |b|] == b
    ensures |a| > 0 ==> t[|a| - 1] == a[|a| - 1]
    ensures |z| > 0 ==> t[|a| + |b|] == z[0]
  {
  }

  /** `line_len_chars`: length of a line without its terminating '\n'. */
  function LineLen(t: string, line: nat): nat {
    |LineText(t, line)|
  }

  /** The last line index. */
  function LastLine(t: string): nat { LineCount(t) - 1 }

  /** The line index `line` clamped into the text. */
  function ClampLine(t: string, line: nat): nat { Min(line, LastLine(t)) }

  /** `line_col_to_char_idx`: the absolute offset of a (line, column) position, both clamped into the text. */
  function Offset(t: string, line: nat, col: nat): (o: nat)
    ensures o <= |t|
  {
    var l := ClampLine(t, line);
    var c := Min(col, LineLen(t, l));
    OffsetFacts(t, l, c);
    LineStart(Split(t), l) + c
  }

  /**
   * The offset is preceded by exactly `line` breaks (after clamping), and
   * the `col` characters before it (after clamping) belong to the same line.
   */
  lemma OffsetPlace(t: string, line: nat, col: nat)
    ensures var o := Offset(t, line, col); var c := Min(col, LineLen(t, ClampLine(t, line)));
      && Breaks(t[..o]) == ClampLine(t, line)
      && c <= o
      && NoBreak(t[o - c..o])
      && (o == c || t[o - c - 1] == '\n')
  {
    OffsetFacts(t, ClampLine(t, line), Min(col, LineLen(t, ClampLine(t, line))));
  }

  lemma OffsetFacts(t: string, l: nat, c: nat)
    requires l < LineCount(t) && c <= LineLen(t, l)
    ensures var o := LineStart(Split(t), l) + c;
      && o <= |t|
      && Breaks(t[..o]) == l
      && NoBreak(t[o - c..o])
      && (o == c || t[o - c - 1] == '\n')
  {
    LineTextPlace(t, l);
    InsideLine(t, LineStart(Split(t), l), LineText(t, l), l, c);
  }

  /** Facts about the offset `c` characters into a line that starts at `start`. */
  lemma InsideLine(t: string, start: nat, line: string, l: nat, c: nat)
    requires start + |line| <= |t| && t[start..start + |line|] == line
    requires NoBreak(line) && c <= |line| && Breaks(t[..start]) == l
    requires l == 0 ==> start == 0
    requires l > 0 ==> start > 0 && t[start - 1] == '\n'
    ensures var o := start + c;
      && o <= |t|
      && Breaks(t[..o]) == l
      && NoBreak(t[o - c..o])
      && (o == c || t[o - c - 1] == '\n')
  {
    var o := start + c;
    assert t[start..o] == line[..c];
    assert t[..o] == t[..start] + t[start..o];
    PrefixNoBreak(line, c);
    BreaksOfNoBreak(line[..c]);
    BreaksConcat(t[..start], t[start..o]);
  }

  lemma LeadBreaks(ls: seq<seq<char>>, l: nat)
    requires l <= |ls| && AllNoBreak(ls)
    ensures Breaks(Lead(ls[..l])) == l
  {
    assert AllNoBreak(ls[..l]) by {
      forall i | 0 <= i < l ensures NoBreak(ls[..l][i]) { assert ls[..l][i] == ls[i]; }
    }
    BreaksOfLead(ls[..l]);
  }

  lemma PrefixNoBreak(s: string, c: nat)
    requires NoBreak(s) && c <= |s|
    ensures NoBreak(s[..c]) && NoBreak(s[c..])
  {
    forall i | 0 <= i < c ensures s[..c][i] != '\n' { assert s[..c][i] == s[i]; }
    forall i | 0 <= i < |s| - c ensures s[c..][i] != '\n' { assert s[c..][i] == s[c + i]; }
  }

  /** The absolute offset of the cursor. */
  function CursorOffset(b: TextBuffer): nat {
    Offset(b.text, b.cursor.line, b.cursor.col)
  }

  /** The cursor names an existing line and a column within it. */
  predicate CursorValid(t: string, c: Cursor) {
    c.line < LineCount(t) && c.col <= LineLen(t, c.line)
  }

  /** `clamp_cursor`: line clamped to the last line, then column to that line. */
  function ClampCursor(t: string, c: Cursor): (r: Cursor)
    ensures CursorValid(t, r)
    ensures CursorValid(t, c) ==> r == c
  {
    var l := ClampLine(t, c.line);
    Cursor(l, Min(c.col, LineLen(t, l)))
  }

  /** The cursor lies inside the window. */
  predicate Visible(v: Viewport, c: Cursor) {
    && v.topLine <= c.line <= v.topLine + Reach(v.height)
    && v.leftCol <= c.col <= v.leftCol + Reach(v.width)
  }

  /** Everything but cursor, preferred column and viewport is equal. */
  predicate SameDocument(a: TextBuffer, b: TextBuffer) {
    && a.text == b.text
    && a.charColors == b.charColors
    && a.activeColor == b.activeColor
    && a.dirty == b.dirty
    && a.readonly == b.readonly
    && a.path == b.path
  }

  // --------------------------------------------------------------- viewport

  /**
   * `ensure_cursor_visible`: clamps the cursor, then scrolls as little as
   * needed to bring it into the window; an axis already showing the cursor
   * is not scrolled.
   */
  function EnsureCursorVisible(b: TextBuffer): (r: TextBuffer)
    ensures r.cursor == ClampCursor(b.text, b.cursor)
    ensures CursorValid(r.text, r.cursor) && Visible(r.viewport, r.cursor)
    ensures b.viewport.topLine <= r.cursor.line <= b.viewport.topLine + Reach(b.viewport.height)
      ==> r.viewport.topLine == b.viewport.topLine
    ensures b.viewport.leftCol <= r.cursor.col <= b.viewport.leftCol + Reach(b.viewport.width)
      ==> r.viewport.leftCol == b.viewport.leftCol
    ensures r == b.(cursor := r.cursor, viewport := r.viewport)
    ensures r.viewport.width == b.viewport.width && r.viewport.height == b.viewport.height
  {
    var c := ClampCursor(b.text, b.cursor);
    var v := b.viewport;
    var top1 := if c.line < v.topLine then c.line else v.topLine;
    var top := if c.line > top1 + Reach(v.height) then c.line - Reach(v.height) else top1;
    var left1 := if c.col < v.leftCol then c.col else v.leftCol;
    var left := if c.col > left1 + Reach(v.width) then c.col - Reach(v.width) else left1;
    b.(cursor := c, viewport := v.(topLine := top, leftCol := left))
  }

  /** A second `ensure_cursor_visible` changes nothing. */
  lemma EnsureCursorVisibleIdempotent(b: TextBuffer)
    ensures EnsureCursorVisible(EnsureCursorVisible(b)) == EnsureCursorVisible(b)
  {
  }

  /** `set_viewport_size`: sizes are raised to at least 1, then the cursor is made visible. */
  function SetViewportSize(b: TextBuffer, width: nat, height: nat): (r: TextBuffer)
    ensures r.viewport.width == (if width == 0 then 1 else width)
    ensures r.viewport.height == (if height == 0 then 1 else height)
    ensures CursorValid(r.text, r.cursor) && Visible(r.viewport, r.cursor)
    ensures SameDocument(r, b)
  {
    var w := if width == 0 then 1 else width;
    var h := if height == 0 then 1 else height;
    EnsureCursorVisible(b.(viewport := b.viewport.(width := w, height := h)))
  }

  /** `from_text`: a clean buffer at the origin with an 80x20 window and no colours. */
  function FromText(text: string, path: Option<Path>, readonly: bool): (b: TextBuffer)
    ensures b.text == text && b.path == path && b.readonly == readonly
    ensures CursorValid(b.text, b.cursor) && Visible(b.viewport, b.cursor)
    ensures !b.dirty && b.charColors == map[] && b.activeColor == None
  {
    TextBuffer(text, Cursor(0, 0), Viewport(0, 0, 80, 20), 0, false, readonly, path, map[], None)
  }

  /** `new`: an empty buffer. */
  function NewBuffer(path: Option<Path>, readonly: bool): TextBuffer {
    FromText([], path, readonly)
  }

  // ---------------------------------------------------------- edit geometry

  /** Inserting into the middle part of a three-part concatenation. */
  lemma InsertInMiddle(t: string, a: string, x: string, z: string, k: nat, ins: string)
    requires t == a + x + z && k <= |x|
    ensures t[..|a| + k] + ins + t[|a| + k..] == a + (x[..k] + ins + x[k..]) + z
  {
    assert t[..|a| + k] == a + x[..k];
    assert t[|a| + k..] == x[k..] + z;
  }

  /** Removing one character of the middle part of a three-part concatenation. */
  lemma RemoveInMiddle(t: string, a: string, x: string, z: string, k: nat)
    requires t == a + x + z && k < |x|
    ensures t[..|a| + k] + t[|a| + k + 1..] == a + (x[..k] + x[k + 1..]) + z
  {
    assert t[..|a| + k] == a + x[..k];
    assert t[|a| + k + 1..] == x[k + 1..] + z;
  }

  /** Removing the break between two lines of a concatenation. */
  lemma RemoveBreak(t: string, a: string, x: string, y: string, z: string)
    requires t == a + x + (['\n'] + y + z)
    ensures t[..|a| + |x|] + t[|a| + |x| + 1..] == a + (x + y) + z
  {
    assert t[..|a| + |x|] == a + x;
    assert t[|a| + |x| + 1..] == y + z;
  }

  /** Breaks are additive over a three-part concatenation. */
  lemma Breaks3(a: string, m: string, z: string)
    ensures Breaks(a + m + z) == Breaks(a) + Breaks(m) + Breaks(z)
  {
    BreaksConcat(a + m, z);
    BreaksConcat(a, m);
  }

  /** A one-character text has a break exactly when that character is one. */
  lemma BreaksOfChar(ch: char)
    ensures Breaks([ch]) == if ch == '\n' then 1 else 0
  {
    assert [ch][1..] == [];
  }

  /** Breaks of three parts with a single character in the middle. */
  lemma BreaksAroundChar(a: string, ch: char, z: string)
    ensures Breaks(a + [ch] + z) == Breaks(a + z) + (if ch == '\n' then 1 else 0)
  {
    Breaks3(a, [ch], z);
    BreaksConcat(a, z);
    BreaksOfChar(ch);
  }

  /** Breaks of a text with one character inserted. */
  lemma BreaksAfterInsert(t: string, o: nat, ch: char)
    requires o <= |t|
    ensures Breaks(t[..o] + [ch] + t[o..]) == Breaks(t) + (if ch == '\n' then 1 else 0)
  {
    var a, z := t[..o], t[o..];
    assert t == a + z;
    BreaksAroundChar(a, ch, z);
  }

  /** Breaks of a text with the character at `o` removed. */
  lemma BreaksAfterRemove(t: string, o: nat)
    requires o < |t|
    ensures Breaks(t[..o] + t[o + 1..]) == Breaks(t) - (if t[o] == '\n' then 1 else 0)
  {
    AroundIndex(t, o);
    BreaksAroundChar(t[..o], t[o], t[o + 1..]);
  }

  /** The offset of a valid position is its line start plus its column. */
  lemma OffsetOfValid(t: string, l: nat, c: nat)
    requires CursorValid(t, Cursor(l, c))
    ensures Offset(t, l, c) == LineStart(Split(t), l) + c
  {
  }

  /** Inserting a non-break character lengthens the cursor's line by one. */
  lemma InsertCharGeometry(t: string, l: nat, c: nat, ch: char, o: nat)
    requires l < LineCount(t) && c <= LineLen(t, l) && ch != '\n'
    requires o == LineStart(Split(t), l) + c
    ensures o <= |t|
    ensures var t' := t[..o] + [ch] + t[o..];
      && LineCount(t') == LineCount(t) && LineLen(t', l) == LineLen(t, l) + 1
      && LineStart(Split(t'), l) == LineStart(Split(t), l)
  {
    var ls := Split(t);
    TextAroundLine(t, l);
    LineStartIsLead(ls, l);
    InsertIntoLine(t, ls, l, c, ch, Lead(ls[..l]), Tail(ls[l + 1..]));
    OneLineReplaced(t, t[..o] + [ch] + t[o..], l, ls[l][..c] + [ch] + ls[l][c..]);
  }

  /** When the lines of `t'` are those of `t` with line `l` replaced by `x`. */
  lemma OneLineReplaced(t: string, t': string, l: nat, x: string)
    requires l < LineCount(t)
    requires Split(t') == Split(t)[..l] + [x] + Split(t)[l + 1..]
    ensures LineCount(t') == LineCount(t) && LineText(t', l) == x
    ensures LineStart(Split(t'), l) == LineStart(Split(t), l)
  {
    assert Split(t')[..l] == Split(t)[..l];
    LineStartPrefix(Split(t'), Split(t), l);
  }

  /** When the lines of `t'` are those of `t` with lines `l` and `l + 1` replaced by `x`. */
  lemma TwoLinesReplaced(t: string, t': string, l: nat, x: string)
    requires l + 1 < LineCount(t)
    requires Split(t') == Split(t)[..l] + [x] + Split(t)[l + 2..]
    ensures LineCount(t') == LineCount(t) - 1 && LineText(t', l) == x
    ensures LineStart(Split(t'), l) == LineStart(Split(t), l)
  {
    assert Split(t')[..l] == Split(t)[..l];
    LineStartPrefix(Split(t'), Split(t), l);
  }

  /** When the lines of `t'` are those of `t` with line `l` replaced by `x` and `y`. */
  lemma LineReplacedByTwo(t: string, t': string, l: nat, x: string, y: string)
    requires l < LineCount(t)
    requires Split(t') == Split(t)[..l] + [x, y] + Split(t)[l + 1..]
    ensures LineCount(t') == LineCount(t) + 1 && LineText(t', l) == x && LineText(t', l + 1) == y
    ensures LineStart(Split(t'), l) == LineStart(Split(t), l)
    ensures LineStart(Split(t'), l + 1) == LineStart(Split(t), l) + |x| + 1
  {
    assert Split(t')[..l] == Split(t)[..l];
    LineStartPrefix(Split(t'), Split(t), l);
    LineStartNext(Split(t'), l);
  }

  lemma InsertIntoLine(t: string, ls: seq<seq<char>>, l: nat, c: nat, ch: char, lead: string, tail: string)
    requires l < |ls| && AllNoBreak(ls) && c <= |ls[l]| && ch != '\n'
    requires lead == Lead(ls[..l]) && tail == Tail(ls[l + 1..]) && t == lead + ls[l] + tail
    ensures Split(t[..|lead| + c] + [ch] + t[|lead| + c..])
         == ls[..l] + [ls[l][..c] + [ch] + ls[l][c..]] + ls[l + 1..]
  {
    var x := ls[l];
    InsertInMiddle(t, lead, x, tail, c, [ch]);
    PrefixNoBreak(x, c);
    NoBreakConcat(x[..c], [ch]);
    NoBreakConcat(x[..c] + [ch], x[c..]);
    ReplaceLine(ls, l, x[..c] + [ch] + x[c..]);
  }

  /** Removing a non-break character of line `l` shortens that line by one. */
  lemma RemoveCharGeometry(t: string, l: nat, k: nat, o: nat)
    requires l < LineCount(t) && k < LineLen(t, l)
    requires o == LineStart(Split(t), l) + k
    ensures o < |t|
    ensures var t' := t[..o] + t[o + 1..];
      && LineCount(t') == LineCount(t) && LineLen(t', l) == LineLen(t, l) - 1
      && LineStart(Split(t'), l) == LineStart(Split(t), l)
  {
    var ls := Split(t);
    TextAroundLine(t, l);
    LineStartIsLead(ls, l);
    RemoveFromLine(t, ls, l, k, Lead(ls[..l]), Tail(ls[l + 1..]));
    OneLineReplaced(t, t[..o] + t[o + 1..], l, ls[l][..k] + ls[l][k + 1..]);
  }

  lemma RemoveFromLine(t: string, ls: seq<seq<char>>, l: nat, k: nat, lead: string, tail: string)
    requires l < |ls| && AllNoBreak(ls) && k < |ls[l]|
    requires lead == Lead(ls[..l]) && tail == Tail(ls[l + 1..]) && t == lead + ls[l] + tail
    ensures Split(t[..|lead| + k] + t[|lead| + k + 1..])
         == ls[..l] + [ls[l][..k] + ls[l][k + 1..]] + ls[l + 1..]
  {
    var x := ls[l];
    RemoveInMiddle(t, lead, x, tail, k);
    PrefixNoBreak(x, k);
    PrefixNoBreak(x, k + 1);
    NoBreakConcat(x[..k], x[k + 1..]);
    ReplaceLine(ls, l, x[..k] + x[k + 1..]);
  }

  /** Removing the break that ends line `l` joins it with line `l + 1`. */
  lemma MergeGeometry(t: string, l: nat, o: nat)
    requires l + 1 < LineCount(t) && o == LineStart(Split(t), l) + LineLen(t, l)
    ensures o < |t|
    ensures var t' := t[..o] + t[o + 1..];
      && t[o] == '\n'
      && LineCount(t') == LineCount(t) - 1
      && LineLen(t', l) == LineLen(t, l) + LineLen(t, l + 1)
      && LineStart(Split(t), l + 1) == o + 1
      && LineStart(Split(t'), l) == LineStart(Split(t), l)
  {
    var ls := Split(t);
    TextAroundLine(t, l);
    LineStartIsLead(ls, l);
    TailStep(ls, l);
    LineStartNext(ls, l);
    MergeAt(t, ls, l, Lead(ls[..l]), Tail(ls[l + 2..]));
    TwoLinesReplaced(t, t[..o] + t[o + 1..], l, ls[l] + ls[l + 1]);
  }

  /** Breaking line `l` at column `c` splits it into two lines. */
  lemma NewlineGeometry(t: string, l: nat, c: nat, o: nat)
    requires l < LineCount(t) && c <= LineLen(t, l) && o == LineStart(Split(t), l) + c
    ensures o <= |t|
    ensures var t' := t[..o] + ['\n'] + t[o..];
      && LineCount(t') == LineCount(t) + 1
      && LineStart(Split(t'), l) == LineStart(Split(t), l)
      && LineStart(Split(t'), l + 1) == o + 1
      && LineText(t', l) == LineText(t, l)[..c]
      && LineText(t', l + 1) == LineText(t, l)[c..]
  {
    var ls := Split(t);
    TextAroundLine(t, l);
    LineStartIsLead(ls, l);
    BreakLine(t, ls, l, c, Lead(ls[..l]), Tail(ls[l + 1..]));
    LineReplacedByTwo(t, t[..o] + ['\n'] + t[o..], l, ls[l][..c], ls[l][c..]);
  }

  lemma BreakLine(t: string, ls: seq<seq<char>>, l: nat, c: nat, lead: string, tail: string)
    requires l < |ls| && AllNoBreak(ls) && c <= |ls[l]|
    requires lead == Lead(ls[..l]) && tail == Tail(ls[l + 1..]) && t == lead + ls[l] + tail
    ensures Split(t[..|lead| + c] + ['\n'] + t[|lead| + c..])
         == ls[..l] + [ls[l][..c], ls[l][c..]] + ls[l + 1..]
  {
    var x := ls[l];
    InsertInMiddle(t, lead, x, tail, c, ['\n']);
    PrefixNoBreak(x, c);
    assert lead + (x[..c] + ['\n'] + x[c..]) + tail == lead + x[..c] + ['\n'] + x[c..] + tail;
    ReplaceLineByTwo(ls, l, x[..c], x[c..]);
  }

  lemma MergeAt(t: string, ls: seq<seq<char>>, l: nat, lead: string, tail: string)
    requires l + 1 < |ls| && AllNoBreak(ls)
    requires lead == Lead(ls[..l]) && tail == Tail(ls[l + 2..])
    requires t == lead + ls[l] + (['\n'] + ls[l + 1] + tail)
    ensures t[|lead| + |ls[l]|] == '\n'
    ensures Split(t[..|lead| + |ls[l]|] + t[|lead| + |ls[l]| + 1..])
         == ls[..l] + [ls[l] + ls[l + 1]] + ls[l + 2..]
  {
    RemoveBreak(t, lead, ls[l], ls[l + 1], tail);
    NoBreakConcat(ls[l], ls[l + 1]);
    ReplaceTwoLines(ls, l, ls[l] + ls[l + 1]);
  }

  // ------------------------------------------------------------- navigation

  /** The invariant every public operation re-establishes. */
  predicate Settled(b: TextBuffer) {
    CursorValid(b.text, b.cursor) && Visible(b.viewport, b.cursor)
  }

  /** The last line runs to the end of the text. */
  lemma LastLineEnd(t: string)
    ensures LineStart(Split(t), LastLine(t)) + LineLen(t, LastLine(t)) == |t|
  {
    var ls := Split(t);
    var l := LastLine(t);
    TextAroundLine(t, l);
    LineStartIsLead(ls, l);
    assert ls[l + 1..] == [];
  }

  /** Distinct valid positions have distinct offsets. */
  lemma OffsetInjective(t: string, a: Cursor, b: Cursor)
    requires CursorValid(t, a) && CursorValid(t, b)
    requires Offset(t, a.line, a.col) == Offset(t, b.line, b.col)
    ensures a == b
  {
    OffsetOfValid(t, a.line, a.col);
    OffsetOfValid(t, b.line, b.col);
    OffsetPlace(t, a.line, a.col);
    OffsetPlace(t, b.line, b.col);
  }

  /** One character back: the end of the previous line from column 0. */
  function StepBack(t: string, c: Cursor): Cursor {
    if c.col > 0 then Cursor(c.line, c.col - 1)
    else if c.line > 0 then Cursor(c.line - 1, LineLen(t, c.line - 1))
    else c
  }

  /** Within a line, columns and offsets move together. */
  lemma WithinLine(t: string, l: nat, c: nat)
    requires l < LineCount(t) && c < LineLen(t, l)
    ensures Offset(t, l, c) < |t| && Offset(t, l, c + 1) == Offset(t, l, c) + 1
  {
    OffsetOfValid(t, l, c);
    OffsetOfValid(t, l, c + 1);
  }

  /** The start of a line is one past the end of the line before it. */
  lemma AcrossLines(t: string, l: nat)
    requires l + 1 < LineCount(t)
    ensures Offset(t, l, LineLen(t, l)) < |t|
    ensures Offset(t, l + 1, 0) == Offset(t, l, LineLen(t, l)) + 1
  {
    OffsetOfValid(t, l, LineLen(t, l));
    OffsetOfValid(t, l + 1, 0);
    MergeGeometry(t, l, Offset(t, l, LineLen(t, l)));
  }

  /** The end of the last line is the end of the text. */
  lemma EndOfText(t: string)
    ensures Offset(t, LastLine(t), LineLen(t, LastLine(t))) == |t|
  {
    OffsetOfValid(t, LastLine(t), LineLen(t, LastLine(t)));
    LastLineEnd(t);
  }

  /** Stepping back from a valid position lands one offset earlier, except at offset 0. */
  lemma StepBackOffset(t: string, c: Cursor)
    requires CursorValid(t, c)
    ensures var r := StepBack(t, c); var o := Offset(t, c.line, c.col);
      CursorValid(t, r) && Offset(t, r.line, r.col) == if o > 0 then o - 1 else o
  {
    if c.col > 0 {
      WithinLine(t, c.line, c.col - 1);
    } else if c.line > 0 {
      AcrossLines(t, c.line - 1);
    }
  }

  /** One character forward: the start of the next line from the end of a line. */
  function StepForward(t: string, c: Cursor): Cursor {
    if c.col < LineLen(t, c.line) then Cursor(c.line, c.col + 1)
    else if c.line + 1 < LineCount(t) then Cursor(c.line + 1, 0)
    else c
  }

  /** Stepping forward from a valid position lands one offset later, except at the end. */
  lemma StepForwardOffset(t: string, c: Cursor)
    requires CursorValid(t, c)
    ensures var r := StepForward(t, c); var o := Offset(t, c.line, c.col);
      CursorValid(t, r) && Offset(t, r.line, r.col) == if o < |t| then o + 1 else o
  {
    if c.col < LineLen(t, c.line) {
      WithinLine(t, c.line, c.col);
    } else if c.line + 1 < LineCount(t) {
      AcrossLines(t, c.line);
    } else {
      assert c == Cursor(LastLine(t), LineLen(t, LastLine(t)));
      EndOfText(t);
    }
  }

  /** `move_left`: one character back; the preferred column follows. */
  function MoveLeft(b: TextBuffer): (r: TextBuffer)
    ensures SameDocument(r, b) && Settled(r)
    ensures CursorValid(b.text, b.cursor) ==>
      && r.preferredCol == r.cursor.col
      && var o := CursorOffset(b);
         CursorOffset(r) == if o > 0 then o - 1 else o
  {
    var c := StepBack(b.text, b.cursor);
    if CursorValid(b.text, b.cursor) then
      StepBackOffset(b.text, b.cursor);
      EnsureCursorVisible(b.(cursor := c, preferredCol := c.col))
    else
      EnsureCursorVisible(b.(cursor := c, preferredCol := c.col))
  }

  /** `move_right`: one character forward; the preferred column follows. */
  function MoveRight(b: TextBuffer): (r: TextBuffer)
    ensures SameDocument(r, b) && Settled(r)
    ensures CursorValid(b.text, b.cursor) ==>
      && r.preferredCol == r.cursor.col
      && var o := CursorOffset(b);
         CursorOffset(r) == if o < |b.text| then o + 1 else o
  {
    var c := StepForward(b.text, b.cursor);
    if CursorValid(b.text, b.cursor) then
      StepForwardOffset(b.text, b.cursor);
      EnsureCursorVisible(b.(cursor := c, preferredCol := c.col))
    else
      EnsureCursorVisible(b.(cursor := c, preferredCol := c.col))
  }

  /** Moving right then left returns to the start, unless already at the end. */
  lemma MoveRightThenLeft(b: TextBuffer)
    requires CursorValid(b.text, b.cursor) && CursorOffset(b) < |b.text|
    ensures MoveLeft(MoveRight(b)).cursor == b.cursor
  {
    var r := MoveLeft(MoveRight(b));
    OffsetInjective(b.text, r.cursor, b.cursor);
  }

  /** Moving left then right returns to the start, unless already at the origin. */
  lemma MoveLeftThenRight(b: TextBuffer)
    requires CursorValid(b.text, b.cursor) && CursorOffset(b) > 0
    ensures MoveRight(MoveLeft(b)).cursor == b.cursor
  {
    var r := MoveRight(MoveLeft(b));
    OffsetInjective(b.text, r.cursor, b.cursor);
  }

  /** The preferred column clamped to a line. */
  function ColumnOn(b: TextBuffer, line: nat): nat {
    Min(b.preferredCol, LineLen(b.text, line))
  }

  /** `move_up`: the previous line at the preferred column, which is kept. */
  function MoveUp(b: TextBuffer): (r: TextBuffer)
    ensures SameDocument(r, b) && Settled(r) && r.preferredCol == b.preferredCol
    ensures CursorValid(b.text, b.cursor) ==>
      if b.cursor.line > 0 then
        && r.cursor.line == b.cursor.line - 1
        && r.cursor.col <= b.preferredCol
        && (b.preferredCol <= LineLen(b.text, r.cursor.line) ==> r.cursor.col == b.preferredCol)
        && (b.preferredCol > LineLen(b.text, r.cursor.line) ==> r.cursor.col == LineLen(b.text, r.cursor.line))
      else r.cursor == b.cursor
  {
    var c := b.cursor;
    var moved := if c.line > 0 then Cursor(c.line - 1, ColumnOn(b, c.line - 1)) else c;
    EnsureCursorVisible(b.(cursor := moved))
  }

  /** `move_down`: the next line at the preferred column, which is kept. */
  function MoveDown(b: TextBuffer): (r: TextBuffer)
    ensures SameDocument(r, b) && Settled(r) && r.preferredCol == b.preferredCol
    ensures CursorValid(b.text, b.cursor) ==>
      if b.cursor.line + 1 < LineCount(b.text) then
        && r.cursor.line == b.cursor.line + 1
        && r.cursor.col <= b.preferredCol
        && (b.preferredCol <= LineLen(b.text, r.cursor.line) ==> r.cursor.col == b.preferredCol)
        && (b.preferredCol > LineLen(b.text, r.cursor.line) ==> r.cursor.col == LineLen(b.text, r.cursor.line))
      else r.cursor == b.cursor
  {
    var c := b.cursor;
    var moved := if c.line + 1 < LineCount(b.text) then Cursor(c.line + 1, ColumnOn(b, c.line + 1)) else c;
    EnsureCursorVisible(b.(cursor := moved))
  }

  /**
   * Down then up returns to the starting position when the cursor sits at
   * its preferred column, even through a shorter line.
   */
  lemma MoveDownThenUp(b: TextBuffer)
    requires CursorValid(b.text, b.cursor) && b.cursor.col == b.preferredCol
    requires b.cursor.line + 1 < LineCount(b.text)
    ensures MoveUp(MoveDown(b)).cursor == b.cursor
  {
  }

  /** `move_home`: column 0 of the current line. */
  function MoveHome(b: TextBuffer): (r: TextBuffer)
    ensures SameDocument(r, b) && Settled(r)
    ensures r.cursor == Cursor(ClampLine(b.text, b.cursor.line), 0) && r.preferredCol == 0
  {
    EnsureCursorVisible(b.(cursor := b.cursor.(col := 0), preferredCol := 0))
  }

  /** The end of a line is followed by a break or by the end of the text. */
  lemma EndOfLine(t: string, l: nat)
    requires l < LineCount(t)
    ensures var o := Offset(t, l, LineLen(t, l)); o == |t| || t[o] == '\n'
  {
    OffsetOfValid(t, l, LineLen(t, l));
    LineTextPlace(t, l);
  }

  /** `move_end`: the end of the current line, which is followed by a break or the end of text. */
  function MoveEnd(b: TextBuffer): (r: TextBuffer)
    ensures SameDocument(r, b) && Settled(r)
    ensures CursorValid(b.text, b.cursor) ==>
      && r.cursor.line == b.cursor.line
      && r.preferredCol == r.cursor.col
      && var o := CursorOffset(r);
         o == |r.text| || r.text[o] == '\n'
  {
    var len := LineLen(b.text, b.cursor.line);
    var r := EnsureCursorVisible(b.(cursor := b.cursor.(col := len), preferredCol := len));
    if CursorValid(b.text, b.cursor) then
      EndOfLine(b.text, b.cursor.line);
      r
    else
      r
  }

  /** `page_up`: up by one less than the window height, at the preferred column. */
  function PageUp(b: TextBuffer): (r: TextBuffer)
    ensures SameDocument(r, b) && Settled(r) && r.preferredCol == b.preferredCol
    ensures var amount := Reach(b.viewport.height);
      CursorValid(b.text, b.cursor) ==>
        && r.cursor.line == (if b.cursor.line >= amount then b.cursor.line - amount else 0)
        && r.cursor.col == ColumnOn(b, r.cursor.line)
  {
    var amount := Reach(b.viewport.height);
    var line := if b.cursor.line >= amount then b.cursor.line - amount else 0;
    EnsureCursorVisible(b.(cursor := Cursor(line, ColumnOn(b, line))))
  }

  /** `page_down`: down by one less than the window height, stopping at the last line. */
  function PageDown(b: TextBuffer): (r: TextBuffer)
    ensures SameDocument(r, b) && Settled(r) && r.preferredCol == b.preferredCol
    ensures var amount := Reach(b.viewport.height);
      && r.cursor.line == Min(b.cursor.line + amount, LastLine(b.text))
      && r.cursor.col == ColumnOn(b, r.cursor.line)
  {
    var amount := Reach(b.viewport.height);
    var line := Min(b.cursor.line + amount, LastLine(b.text));
    EnsureCursorVisible(b.(cursor := Cursor(line, ColumnOn(b, line))))
  }

  /**
   * `goto_line`: jumps to the 1-based line `n` (0 counts as 1, past the end
   * means the last line), keeping the column where that line allows.
   */
  function GotoLine(b: TextBuffer, n: nat): (r: TextBuffer)
    ensures SameDocument(r, b) && Settled(r) && r.preferredCol == r.cursor.col
    ensures 1 <= n <= LineCount(b.text) ==> r.cursor.line == n - 1
    ensures n == 0 ==> r.cursor.line == 0
    ensures n > LineCount(b.text) ==> r.cursor.line == LastLine(b.text)
    ensures r.cursor.col <= b.cursor.col
    ensures b.cursor.col <= LineLen(b.text, r.cursor.line) ==> r.cursor.col == b.cursor.col
  {
    var target := Min(Reach(n), LastLine(b.text));
    var col := Min(b.cursor.col, LineLen(b.text, target));
    EnsureCursorVisible(b.(cursor := Cursor(target, col), preferredCol := col))
  }

  // ------------------------------------------------------------------ edits

  /** The colour map with `at` given the colour `tag`, if there is one. */
  function Tagged(m: Colors, at: nat, tag: Option<ColorId>): Colors {
    match tag
    case None => m
    case Some(id) => m[at := id]
  }

  /** Read-only flag, path and active colour are those of `b`. */
  predicate SameSettings(r: TextBuffer, b: TextBuffer) {
    r.readonly == b.readonly && r.path == b.path && r.activeColor == b.activeColor
  }

  /**
   * The buffer after an edit: the new text and colours, the cursor at `c`
   * (clamped) with preferred column `pref`, marked dirty, and the viewport
   * scrolled onto the cursor; read-only flag, path and active colour stay.
   */
  function Edited(b: TextBuffer, t: string, colors: Colors, c: Cursor, pref: nat): (r: TextBuffer)
    ensures r.text == t && r.charColors == colors && r.dirty && r.preferredCol == pref
    ensures SameSettings(r, b) && Settled(r)
    ensures CursorValid(t, c) ==> r.cursor == c
  {
    EnsureCursorVisible(b.(text := t, charColors := colors, cursor := c, preferredCol := pref, dirty := true))
  }

  /** A position whose line start is known has that start plus its column as offset. */
  lemma OffsetFromStart(t: string, l: nat, c: nat, start: nat)
    requires l < LineCount(t) && c <= LineLen(t, l) && LineStart(Split(t), l) == start
    ensures CursorValid(t, Cursor(l, c)) && Offset(t, l, c) == start + c
  {
    OffsetOfValid(t, l, c);
  }

  /** After a non-break insert at a valid position, the next column is valid and one offset on. */
  lemma InsertCharCursor(t: string, c: Cursor, ch: char)
    requires CursorValid(t, c) && ch != '\n'
    ensures var o := Offset(t, c.line, c.col); var t' := t[..o] + [ch] + t[o..];
      CursorValid(t', Cursor(c.line, c.col + 1)) && Offset(t', c.line, c.col + 1) == o + 1
  {
    var start := LineStart(Split(t), c.line);
    OffsetFromStart(t, c.line, c.col, start);
    InsertCharCursorAt(t, c.line, c.col, ch, start, start + c.col);
  }

  lemma InsertCharCursorAt(t: string, l: nat, c: nat, ch: char, start: nat, o: nat)
    requires l < LineCount(t) && c <= LineLen(t, l) && ch != '\n'
    requires start == LineStart(Split(t), l) && o == start + c
    ensures o <= |t|
    ensures var t' := t[..o] + [ch] + t[o..];
      CursorValid(t', Cursor(l, c + 1)) && Offset(t', l, c + 1) == o + 1
  {
    InsertCharGeometry(t, l, c, ch, o);
    OffsetFromStart(t[..o] + [ch] + t[o..], l, c + 1, start);
  }

  /** Every line of `t` but line `l` reads the same in `t'`. */
  predicate OtherLinesKept(t': string, t: string, l: nat) {
    forall k :: 0 <= k < LineCount(t) && k != l ==> LineText(t', k) == LineText(t, k)
  }

  /** A non-break insert at a valid position lengthens its line by one and leaves the others. */
  lemma InsertCharLines(t: string, c: Cursor, ch: char)
    requires CursorValid(t, c) && ch != '\n'
    ensures var o := Offset(t, c.line, c.col); var t' := t[..o] + [ch] + t[o..];
      && LineCount(t') == LineCount(t) && LineLen(t', c.line) == LineLen(t, c.line) + 1
      && OtherLinesKept(t', t, c.line)
  {
    var start := LineStart(Split(t), c.line);
    OffsetFromStart(t, c.line, c.col, start);
    InsertCharGeometry(t, c.line, c.col, ch, start + c.col);
    InsertKeepsOtherLines(t, c.line, c.col, ch, start + c.col);
  }

  lemma InsertKeepsOtherLines(t: string, l: nat, c: nat, ch: char, o: nat)
    requires l < LineCount(t) && c <= LineLen(t, l) && ch != '\n'
    requires o == LineStart(Split(t), l) + c && o <= |t|
    ensures forall k :: 0 <= k < LineCount(t) && k != l ==> LineText(t[..o] + [ch] + t[o..], k) == LineText(t, k)
  {
    var ls := Split(t);
    TextAroundLine(t, l);
    LineStartIsLead(ls, l);
    InsertIntoLine(t, ls, l, c, ch, Lead(ls[..l]), Tail(ls[l + 1..]));
    OtherLinesSame(t, t[..o] + [ch] + t[o..], l, ls[l][..c] + [ch] + ls[l][c..]);
  }

  /** Replacing one line of the split leaves every other line's text. */
  lemma OtherLinesSame(t: string, t': string, l: nat, x: string)
    requires l < LineCount(t) && Split(t') == Split(t)[..l] + [x] + Split(t)[l + 1..]
    ensures forall k :: 0 <= k < LineCount(t) && k != l ==> LineText(t', k) == LineText(t, k)
  {
    forall k | 0 <= k < LineCount(t) && k != l ensures LineText(t', k) == LineText(t, k) {
      assert Split(t')[k] == Split(t)[k];
    }
  }

  /** After a break insert at a valid position, the start of the next line is valid and one offset on. */
  lemma NewlineCursor(t: string, c: Cursor)
    requires CursorValid(t, c)
    ensures var o := Offset(t, c.line, c.col); var t' := t[..o] + ['\n'] + t[o..];
      CursorValid(t', Cursor(c.line + 1, 0)) && Offset(t', c.line + 1, 0) == o + 1
  {
    OffsetOfValid(t, c.line, c.col);
    NewlineCursorAt(t, c.line, c.col, Offset(t, c.line, c.col));
  }

  lemma NewlineCursorAt(t: string, l: nat, c: nat, o: nat)
    requires l < LineCount(t) && c <= LineLen(t, l) && o == LineStart(Split(t), l) + c
    ensures o <= |t|
    ensures var t' := t[..o] + ['\n'] + t[o..];
      CursorValid(t', Cursor(l + 1, 0)) && Offset(t', l + 1, 0) == o + 1
  {
    NewlineGeometry(t, l, c, o);
    OffsetFromStart(t[..o] + ['\n'] + t[o..], l + 1, 0, o + 1);
  }

  /** A break inserted at a valid position splits the cursor's line in two there. */
  lemma NewlineLinesAt(t: string, l: nat, c: nat, o: nat)
    requires l < LineCount(t) && c <= LineLen(t, l) && o == LineStart(Split(t), l) + c
    ensures o <= |t|
    ensures var t' := t[..o] + ['\n'] + t[o..];
      && LineCount(t') == LineCount(t) + 1
      && LineText(t', l) == LineText(t, l)[..c]
      && LineText(t', l + 1) == LineText(t, l)[c..]
  {
    NewlineGeometry(t, l, c, o);
  }

  /**
   * Removing the character before a valid position away from the origin
   * leaves the step-back position valid, one offset earlier; from column 0
   * that character is the break ending the previous line.
   */
  lemma BackspaceCursor(t: string, c: Cursor)
    requires CursorValid(t, c) && (c.col > 0 || c.line > 0)
    ensures var o := Offset(t, c.line, c.col);
      && 0 < o <= |t|
      && (c.col == 0 ==> t[o - 1] == '\n')
      && var t' := t[..o - 1] + t[o..]; var s := StepBack(t, c);
         && CursorValid(t', s) && Offset(t', s.line, s.col) == o - 1
         && (c.col == 0 ==> LineCount(t') + 1 == LineCount(t))
  {
    if c.col > 0 {
      assert StepBack(t, c) == Cursor(c.line, c.col - 1);
      BackspaceWithinLine(t, c.line, c.col);
    } else {
      assert StepBack(t, c) == Cursor(c.line - 1, LineLen(t, c.line - 1));
      BackspaceAcrossLines(t, c.line);
    }
  }

  lemma BackspaceWithinLine(t: string, l: nat, c: nat)
    requires l < LineCount(t) && 0 < c <= LineLen(t, l)
    ensures var o := Offset(t, l, c);
      && 0 < o <= |t|
      && var t' := t[..o - 1] + t[o..];
         CursorValid(t', Cursor(l, c - 1)) && Offset(t', l, c - 1) == o - 1
  {
    var start := LineStart(Split(t), l);
    OffsetFromStart(t, l, c, start);
    var p := start + (c - 1);
    RemoveCharGeometry(t, l, c - 1, p);
    OffsetFromStart(t[..p] + t[p + 1..], l, c - 1, start);
  }

  lemma BackspaceAcrossLines(t: string, l: nat)
    requires 0 < l < LineCount(t)
    ensures var o := Offset(t, l, 0);
      && 0 < o <= |t| && t[o - 1] == '\n'
      && var t' := t[..o - 1] + t[o..]; var len := LineLen(t, l - 1);
         && CursorValid(t', Cursor(l - 1, len)) && Offset(t', l - 1, len) == o - 1
         && LineCount(t') + 1 == LineCount(t)
  {
    var start := LineStart(Split(t), l - 1);
    var len := LineLen(t, l - 1);
    LineStartNext(Split(t), l - 1);
    OffsetFromStart(t, l, 0, start + len + 1);
    JoinedLineEnd(t, l - 1, start + len);
  }

  /** After joining line `l` with the next, the old end of line `l` is still valid, at the same offset. */
  lemma JoinedLineEnd(t: string, l: nat, p: nat)
    requires l + 1 < LineCount(t) && p == LineStart(Split(t), l) + LineLen(t, l)
    ensures p < |t| && t[p] == '\n'
    ensures var t' := t[..p] + t[p + 1..];
      && CursorValid(t', Cursor(l, LineLen(t, l))) && Offset(t', l, LineLen(t, l)) == p
      && LineCount(t') + 1 == LineCount(t)
  {
    MergeGeometry(t, l, p);
    OffsetFromStart(t[..p] + t[p + 1..], l, LineLen(t, l), LineStart(Split(t), l));
  }

  /** Removing the character at a valid position inside the text keeps that position, and its offset. */
  lemma DeleteCursor(t: string, c: Cursor)
    requires CursorValid(t, c) && Offset(t, c.line, c.col) < |t|
    ensures var o := Offset(t, c.line, c.col); var t' := t[..o] + t[o + 1..];
      CursorValid(t', c) && Offset(t', c.line, c.col) == o
  {
    if c.col < LineLen(t, c.line) {
      DeleteWithinLine(t, c.line, c.col);
    } else {
      if c.line + 1 >= LineCount(t) {
        assert c == Cursor(LastLine(t), LineLen(t, LastLine(t)));
        EndOfText(t);
        assert false;
      }
      DeleteAtLineEnd(t, c.line);
    }
  }

  lemma DeleteWithinLine(t: string, l: nat, c: nat)
    requires l < LineCount(t) && c < LineLen(t, l)
    ensures var o := Offset(t, l, c);
      && o < |t|
      && var t' := t[..o] + t[o + 1..];
         CursorValid(t', Cursor(l, c)) && Offset(t', l, c) == o
  {
    var start := LineStart(Split(t), l);
    OffsetFromStart(t, l, c, start);
    var o := start + c;
    RemoveCharGeometry(t, l, c, o);
    var t' := t[..o] + t[o + 1..];
    assert LineCount(t') == LineCount(t) && LineLen(t', l) + 1 == LineLen(t, l);
    OffsetFromStart(t', l, c, start);
  }

  lemma DeleteAtLineEnd(t: string, l: nat)
    requires l + 1 < LineCount(t)
    ensures var len := LineLen(t, l); var o := Offset(t, l, len);
      && o < |t|
      && var t' := t[..o] + t[o + 1..];
         CursorValid(t', Cursor(l, len)) && Offset(t', l, len) == o
  {
    var start := LineStart(Split(t), l);
    var len := LineLen(t, l);
    OffsetFromStart(t, l, len, start);
    JoinedLineEnd(t, l, start + len);
  }

  /**
   * `insert_char`: unless read-only, the character goes in at the cursor
   * and the cursor ends just after it; `InsertCharColors` states what
   * happens to the colours.
   */
  function InsertChar(b: TextBuffer, ch: char): (r: TextBuffer)
    ensures b.readonly ==> r == b
    ensures !b.readonly ==>
      var o := CursorOffset(b);
      && r.text == b.text[..o] + [ch] + b.text[o..]
      && r.dirty && Settled(r) && SameSettings(r, b)
      && r.preferredCol == b.cursor.col + 1
      && (CursorValid(b.text, b.cursor) && ch != '\n' ==>
            && r.cursor == Cursor(b.cursor.line, b.cursor.col + 1) && CursorOffset(r) == o + 1
            && LineCount(r.text) == LineCount(b.text)
            && LineLen(r.text, b.cursor.line) == LineLen(b.text, b.cursor.line) + 1
            && OtherLinesKept(r.text, b.text, b.cursor.line))
  {
    if b.readonly then b
    else
      var o := CursorOffset(b);
      var t := b.text[..o] + [ch] + b.text[o..];
      var colors := Tagged(ShiftAfterInsert(b.charColors, o, 1), o, b.activeColor);
      var col := b.cursor.col + 1;
      var r := Edited(b, t, colors, b.cursor.(col := col), col);
      if CursorValid(b.text, b.cursor) && ch != '\n' then
        InsertCharCursor(b.text, b.cursor, ch);
        InsertCharLines(b.text, b.cursor, ch);
        r
      else
        r
  }

  /**
   * The colours after `insert_char`: those at or after the cursor move up by
   * one, and the new character takes the active colour, if any.
   */
  lemma InsertCharColors(b: TextBuffer, ch: char)
    requires !b.readonly
    ensures var o := CursorOffset(b); var r := InsertChar(b, ch);
      && r.charColors == Tagged(ShiftAfterInsert(b.charColors, o, 1), o, b.activeColor)
      && (b.activeColor.Some? ==> o in r.charColors && r.charColors[o] == b.activeColor.value)
      && (b.activeColor.None? ==> o !in r.charColors)
  {
  }

  /**
   * `insert_newline`: unless read-only, a break goes in at the cursor, later
   * colours move up by one, the line is split at the cursor, and the cursor
   * moves to the start of the new line.
   */
  function InsertNewline(b: TextBuffer): (r: TextBuffer)
    ensures b.readonly ==> r == b
    ensures !b.readonly ==>
      var o := CursorOffset(b);
      && r.text == b.text[..o] + ['\n'] + b.text[o..]
      && r.charColors == ShiftAfterInsert(b.charColors, o, 1)
      && r.dirty && Settled(r) && SameSettings(r, b)
      && r.preferredCol == 0
      && (CursorValid(b.text, b.cursor) ==>
            && r.cursor == Cursor(b.cursor.line + 1, 0) && CursorOffset(r) == o + 1
            && LineCount(r.text) == LineCount(b.text) + 1
            && LineText(r.text, b.cursor.line) == LineText(b.text, b.cursor.line)[..b.cursor.col]
            && LineText(r.text, b.cursor.line + 1) == LineText(b.text, b.cursor.line)[b.cursor.col..])
  {
    if b.readonly then b
    else
      var o := CursorOffset(b);
      var t := b.text[..o] + ['\n'] + b.text[o..];
      var r := Edited(b, t, ShiftAfterInsert(b.charColors, o, 1), Cursor(b.cursor.line + 1, 0), 0);
      if CursorValid(b.text, b.cursor) then
        NewlineCursor(b.text, b.cursor);
        OffsetOfValid(b.text, b.cursor.line, b.cursor.col);
        NewlineLinesAt(b.text, b.cursor.line, b.cursor.col, o);
        r
      else
        r
  }

  /**
   * `backspace`: unless read-only or at the origin, removes the character
   * before the cursor (the break joining two lines, from column 0), moves
   * later colours down by one, and steps the cursor back onto the removed
   * position. At the origin only the viewport is re-checked.
   */
  function Backspace(b: TextBuffer): (r: TextBuffer)
    requires CursorValid(b.text, b.cursor)
    ensures b.readonly ==> r == b
    ensures !b.readonly && b.cursor == Cursor(0, 0) ==> r == EnsureCursorVisible(b)
    ensures !b.readonly && b.cursor != Cursor(0, 0) ==>
      var o := CursorOffset(b);
      && 0 < o <= |b.text|
      && r.text == b.text[..o - 1] + b.text[o..]
      && r.charColors == ShiftAfterRemove(b.charColors, o - 1, 1)
      && r.dirty && Settled(r) && SameSettings(r, b)
      && r.preferredCol == r.cursor.col
      && (b.cursor.col > 0 ==> r.cursor == Cursor(b.cursor.line, b.cursor.col - 1))
      && (b.cursor.col == 0 ==> r.cursor == Cursor(b.cursor.line - 1, LineLen(b.text, b.cursor.line - 1)))
  {
    if b.readonly then b
    else if b.cursor.col > 0 || b.cursor.line > 0 then RemoveBefore(b)
    else EnsureCursorVisible(b)
  }

  /**
   * `backspace` relies on the cursor lying inside the text: with the cursor
   * past the end of an empty first line, the clamped offset is 0 and the
   * removal range `idx - 1..idx` has no start.
   */
  lemma BackspaceBeyondText(col: nat)
    requires col > 0
    ensures !CursorValid([], Cursor(0, col)) && Offset([], 0, col) == 0
  {
  }

  /** The removing half of `backspace`, away from the origin. */
  function RemoveBefore(b: TextBuffer): (r: TextBuffer)
    requires CursorValid(b.text, b.cursor) && b.cursor != Cursor(0, 0)
    ensures var o := CursorOffset(b);
      && 0 < o <= |b.text|
      && r.text == b.text[..o - 1] + b.text[o..]
      && r.charColors == ShiftAfterRemove(b.charColors, o - 1, 1)
      && r.dirty && Settled(r) && SameSettings(r, b)
      && r.preferredCol == r.cursor.col
      && r.cursor == StepBack(b.text, b.cursor)
  {
    BackspaceCursor(b.text, b.cursor);
    var o := CursorOffset(b);
    var c := StepBack(b.text, b.cursor);
    Edited(b, b.text[..o - 1] + b.text[o..], ShiftAfterRemove(b.charColors, o - 1, 1), c, c.col)
  }

  /**
   * Away from the origin the cursor lands exactly on the removed position;
   * from column 0 the removed character is the break that ended the
   * previous line, so the text loses one line.
   */
  lemma BackspaceOffset(b: TextBuffer)
    requires !b.readonly && CursorValid(b.text, b.cursor) && b.cursor != Cursor(0, 0)
    ensures var o := CursorOffset(b); var r := Backspace(b);
      && 0 < o && CursorOffset(r) == o - 1
      && (b.cursor.col == 0 ==> b.text[o - 1] == '\n' && LineCount(r.text) + 1 == LineCount(b.text))
  {
    BackspaceCursor(b.text, b.cursor);
  }

  /**
   * `delete`: unless read-only or at the end of the text, removes the
   * character at the cursor and moves later colours down by one; the cursor
   * keeps its place.
   */
  function Delete(b: TextBuffer): (r: TextBuffer)
    ensures b.readonly || CursorOffset(b) >= |b.text| ==> r == b
    ensures !b.readonly && CursorOffset(b) < |b.text| ==>
      var o := CursorOffset(b);
      && r.text == b.text[..o] + b.text[o + 1..]
      && r.charColors == ShiftAfterRemove(b.charColors, o, 1)
      && r.dirty && Settled(r) && SameSettings(r, b)
      && r.preferredCol == b.preferredCol
      && (CursorValid(b.text, b.cursor) ==> r.cursor == b.cursor && CursorOffset(r) == o)
  {
    var o := CursorOffset(b);
    if b.readonly || o >= |b.text| then b
    else
      var r := Edited(b, b.text[..o] + b.text[o + 1..], ShiftAfterRemove(b.charColors, o, 1),
                      b.cursor, b.preferredCol);
      if CursorValid(b.text, b.cursor) then
        DeleteCursor(b.text, b.cursor);
        r
      else
        r
  }

  /** Removing the character just inserted gives back the original text. */
  lemma RemoveUndoesInsertText(t: string, o: nat, ch: char, t': string, t'': string)
    requires o <= |t| && t' == t[..o] + [ch] + t[o..] && t'' == t'[..o] + t'[o + 1..]
    ensures t'' == t
  {
    assert t'[..o] == t[..o];
    assert t'[o + 1..] == t[o..];
  }

  /** The colour map after typing, then removing, one character is the original. */
  lemma RemoveUndoesInsertColors(m: Colors, o: nat, tag: Option<ColorId>, m': Colors)
    requires m' == Tagged(ShiftAfterInsert(m, o, 1), o, tag)
    ensures ShiftAfterRemove(m', o, 1) == m
  {
    match tag {
      case None => RemoveUndoesInsert(m, o, 1);
      case Some(id) => RemoveUndoesTaggedInsert(m, o, id);
    }
  }

  /** Backspace right after typing a character restores text, colours and cursor. */
  lemma InsertThenBackspace(b: TextBuffer, ch: char)
    requires !b.readonly && CursorValid(b.text, b.cursor) && ch != '\n'
    ensures var r := Backspace(InsertChar(b, ch));
      r.text == b.text && r.charColors == b.charColors && r.cursor == b.cursor
  {
    var o := CursorOffset(b);
    var i := InsertChar(b, ch);
    assert i.cursor != Cursor(0, 0) && CursorOffset(i) == o + 1;
    var r := Backspace(i);
    BackspaceOffset(i);
    RemoveUndoesInsertText(b.text, o, ch, i.text, r.text);
    RemoveUndoesInsertColors(b.charColors, o, b.activeColor, i.charColors);
    OffsetInjective(b.text, r.cursor, b.cursor);
  }

  /** Backspace right after a line break restores text, colours and cursor. */
  lemma NewlineThenBackspace(b: TextBuffer)
    requires !b.readonly && CursorValid(b.text, b.cursor)
    ensures var r := Backspace(InsertNewline(b));
      r.text == b.text && r.charColors == b.charColors && r.cursor == b.cursor
  {
    var o := CursorOffset(b);
    var i := InsertNewline(b);
    assert i.cursor != Cursor(0, 0) && CursorOffset(i) == o + 1;
    var r := Backspace(i);
    BackspaceOffset(i);
    RemoveUndoesInsertText(b.text, o, '\n', i.text, r.text);
    RemoveUndoesInsertColors(b.charColors, o, None, i.charColors);
    OffsetInjective(b.text, r.cursor, b.cursor);
  }

  /** Away from the origin, backspace is a step left followed by a delete. */
  lemma BackspaceIsLeftThenDelete(b: TextBuffer)
    requires !b.readonly && CursorValid(b.text, b.cursor) && b.cursor != Cursor(0, 0)
    ensures var r := Backspace(b); var d := Delete(MoveLeft(b));
      r.text == d.text && r.charColors == d.charColors && r.cursor == d.cursor
  {
    var r := Backspace(b);
    BackspaceOffset(b);
    var l := MoveLeft(b);
    assert CursorOffset(l) + 1 == CursorOffset(b);
    var d := Delete(l);
    assert d.text == r.text && CursorOffset(d) == CursorOffset(r);
    OffsetInjective(r.text, r.cursor, d.cursor);
  }

  /**
   * Inserting one character at `at` keeps every coloured character's colour:
   * a character before `at` stays put, one at or after it moves up by one.
   */
  lemma InsertKeepsColourOnCharacter(t: string, m: Colors, at: nat, ch: char, tag: Option<ColorId>, k: nat)
    requires at <= |t| && k in m
    ensures var t' := t[..at] + [ch] + t[at..]; var m' := Tagged(ShiftAfterInsert(m, at, 1), at, tag);
      var k' := if k < at then k else k + 1;
      && k' in m' && m'[k'] == m[k]
      && (k < |t| ==> t'[k'] == t[k])
  {
    if k < at {
      InsertKeepsLowKey(m, at, 1, k);
    } else {
      InsertMovesHighKey(m, at, 1, k);
    }
  }

  /**
   * Removing the character at `at` keeps every other coloured character's
   * colour: one before `at` stays put, one after it moves down by one.
   */
  lemma RemoveKeepsColourOnCharacter(t: string, m: Colors, at: nat, k: nat)
    requires at < |t| && k in m && k != at
    ensures var t' := t[..at] + t[at + 1..]; var m' := ShiftAfterRemove(m, at, 1);
      var k' := if k < at then k else k - 1;
      && k' in m' && m'[k'] == m[k]
      && (k < |t| ==> t'[k'] == t[k])
  {
    if k < at {
      RemoveKeepsLowKey(m, at, 1, k);
    } else {
      RemoveMovesHighKey(m, at, 1, k);
    }
  }

  // ---------------------------------------------------------------- colours

  /** The cursor sits on a character that can carry a colour: not the end, not a break. */
  predicate OnColourable(b: TextBuffer) {
    var o := CursorOffset(b);
    o < |b.text| && b.text[o] != '\n'
  }

  /**
   * `set_current_char_color`: the colour becomes the active colour; when the
   * cursor is on a colourable character, that character takes it (or loses
   * its colour, for none) and the buffer becomes dirty.
   */
  function SetCurrentCharColor(b: TextBuffer, color: Option<ColorId>): (r: TextBuffer)
    ensures r.activeColor == color
    ensures r == b.(activeColor := color, charColors := r.charColors, dirty := r.dirty)
    ensures OnColourable(b) ==>
      && r.dirty
      && (color.Some? ==> r.charColors == b.charColors[CursorOffset(b) := color.value])
      && (color.None? ==> r.charColors == b.charColors - {CursorOffset(b)})
    ensures !OnColourable(b) ==> r.charColors == b.charColors && r.dirty == b.dirty
  {
    var o := CursorOffset(b);
    if OnColourable(b) then
      var colors := match color
        case Some(id) => b.charColors[o := id]
        case None => b.charColors - {o};
      b.(activeColor := color, charColors := colors, dirty := true)
    else
      b.(activeColor := color)
  }

  /** `current_char_color`: the colour stored at the cursor, else the active colour. */
  function CurrentCharColor(b: TextBuffer): (r: Option<ColorId>)
    ensures CursorOffset(b) in b.charColors ==> r == Some(b.charColors[CursorOffset(b)])
    ensures CursorOffset(b) !in b.charColors ==> r == b.activeColor
  {
    var o := CursorOffset(b);
    if o in b.charColors then Some(b.charColors[o]) else b.activeColor
  }

  /**
   * Reading the colour back after setting it gives the colour set, unless the
   * cursor is not on a colourable character and an older colour is stored there.
   */
  lemma SetThenCurrentCharColor(b: TextBuffer, color: Option<ColorId>)
    ensures var o := CursorOffset(b);
      CurrentCharColor(SetCurrentCharColor(b, color))
        == if OnColourable(b) || o !in b.charColors then color else Some(b.charColors[o])
  {
  }

  // ----------------------------------------------------------------- search

  /** ASCII lower-casing of one character. */
  function Lower(c: char): char {
    if 'A' <= c <= 'Z' then (c as int + 32) as char else c
  }

  function LowerStr(s: string): (r: string)
    ensures |r| == |s| && forall i :: 0 <= i < |s| ==> r[i] == Lower(s[i])
  {
    seq(|s|, i requires 0 <= i < |s| => Lower(s[i]))
  }

  /** `q` occurs in `s` starting at offset `k`. */
  predicate OccursAt(s: string, q: string, k: nat) {
    k + |q| <= |s| && s[k..k + |q|] == q
  }

  /** `q` occurs in `s`. */
  predicate Contains(s: string, q: string) {
    exists k: nat :: k <= |s| && OccursAt(s, q, k)
  }

  /** Line `l` contains the query, ignoring ASCII case. */
  predicate LineMatches(t: string, l: nat, q: string) {
    Contains(LowerStr(LineText(t, l)), LowerStr(q))
  }

  predicate Ascending(r: seq<nat>) {
    forall i, j :: 0 <= i < j < |r| ==> r[i] < r[j]
  }

  /** The matching lines from `from` on, in order. */
  function MatchesFrom(t: string, q: string, from: nat): (r: seq<nat>)
    ensures Ascending(r)
    ensures forall i :: 0 <= i < |r| ==> from <= r[i] < LineCount(t)
    ensures forall l: nat :: l in r <==> from <= l < LineCount(t) && LineMatches(t, l, q)
    decreases LineCount(t) - from
  {
    if from >= LineCount(t) then []
    else
      var rest := MatchesFrom(t, q, from + 1);
      if LineMatches(t, from, q) then [from] + rest else rest
  }

  /**
   * `find_matches`: the lines whose text contains the query, ignoring case,
   * in ascending order; an empty query matches nothing.
   */
  function FindMatches(t: string, q: string): (r: seq<nat>)
    ensures q == [] ==> r == []
    ensures Ascending(r)
    ensures forall i :: 0 <= i < |r| ==> r[i] < LineCount(t)
    ensures forall l: nat :: l in r <==> q != [] && l < LineCount(t) && LineMatches(t, l, q)
  {
    if q == [] then [] else MatchesFrom(t, q, 0)
  }

  // --------------------------------------------------------------- document

  /** `set_text_from_string`: new text, cursor and scroll at the origin, clean, no colours. */
  function SetTextFromString(b: TextBuffer, text: string): (r: TextBuffer)
    ensures r.text == text && r.cursor == Cursor(0, 0) && r.preferredCol == 0
    ensures r.viewport == b.viewport.(topLine := 0, leftCol := 0)
    ensures r.charColors == map[] && r.activeColor == None && !r.dirty
    ensures r.readonly == b.readonly && r.path == b.path
    ensures Settled(r)
  {
    b.(text := text, cursor := Cursor(0, 0), viewport := b.viewport.(topLine := 0, leftCol := 0),
       preferredCol := 0, charColors := map[], activeColor := None, dirty := false)
  }

  /** `mark_saved`: only the dirty flag is cleared. */
  function MarkSaved(b: TextBuffer): (r: TextBuffer)
    ensures r == b.(dirty := false)
  {
    b.(dirty := false)
  }
}

=== FILE: buffer_scenarios.dfy ===
/**
 * The document engine's usage scenarios, each stated for every buffer of
 * the shape the scenario starts from and derived from the operations'
 * contracts.
 */
module BufferScenarios {
  import opened Wrappers
  import opened TextLines
  import opened ColorMap
  import opened Buffer

  /** `n` keystrokes of the same character. */
  function TypeRepeated(b: TextBuffer, ch: char, n: nat): TextBuffer
    decreases n
  {
    if n == 0 then b else InsertChar(TypeRepeated(b, ch, n - 1), ch)
  }

  /**
   * `r` is `b` after `n` non-break characters were typed: still writable,
   * the cursor `n` columns further on a line that is `n` longer, and every
   * other line untouched.
   */
  predicate Grown(b: TextBuffer, r: TextBuffer, n: nat) {
    && !r.readonly && CursorValid(r.text, r.cursor)
    && r.cursor == Cursor(b.cursor.line, b.cursor.col + n)
    && LineCount(r.text) == LineCount(b.text)
    && LineLen(r.text, b.cursor.line) == LineLen(b.text, b.cursor.line) + n
    && OtherLinesKept(r.text, b.text, b.cursor.line)
  }

  /** One keystroke grows the line by one. */
  lemma TypeOne(b: TextBuffer, ch: char)
    requires !b.readonly && CursorValid(b.text, b.cursor) && ch != '\n'
    ensures Grown(b, InsertChar(b, ch), 1)
  {
  }

  /** Growth by `n` and then by one is growth by `n + 1`. */
  lemma GrownThen(a: TextBuffer, b: TextBuffer, c: TextBuffer, n: nat)
    requires Grown(a, b, n) && Grown(b, c, 1)
    ensures Grown(a, c, n + 1)
  {
  }

  /** Typing `n` non-break characters into a writable buffer grows the cursor's line by `n`. */
  lemma {:induction false} TypingLengthensLine(b: TextBuffer, ch: char, n: nat)
    requires !b.readonly && CursorValid(b.text, b.cursor) && ch != '\n'
    ensures Grown(b, TypeRepeated(b, ch, n), n)
    decreases n
  {
    if n > 0 {
      TypingLengthensLine(b, ch, n - 1);
      var p := TypeRepeated(b, ch, n - 1);
      TypeOne(p, ch);
      GrownThen(b, p, InsertChar(p, ch), n - 1);
    }
  }

  /** A writable buffer whose text is one empty line, with the cursor at the origin. */
  predicate Blank(b: TextBuffer) {
    !b.readonly && b.cursor == Cursor(0, 0) && LineCount(b.text) == 1 && LineLen(b.text, 0) == 0
  }

  /** `TextBuffer::new(path, false)` is blank. */
  lemma NewBufferIsBlank(path: Option<Paths.Path>)
    ensures Blank(NewBuffer(path, false))
  {
  }

  /**
   * Typing `n` non-break characters, a line break, then `m` non-break
   * characters into a blank buffer gives exactly two lines, of lengths `n`
   * and `m`.
   */
  lemma TypeTwoLines(b: TextBuffer, x: char, y: char, n: nat, m: nat)
    requires Blank(b) && x != '\n' && y != '\n'
    ensures var b3 := TypeRepeated(InsertNewline(TypeRepeated(b, x, n)), y, m);
      && LineCount(b3.text) == 2 && Breaks(b3.text) == 1
      && LineLen(b3.text, 0) == n && LineLen(b3.text, 1) == m
  {
    var b1 := TypeRepeated(b, x, n);
    TypingLengthensLine(b, x, n);
    var b2 := InsertNewline(b1);
    NewlineAfterTyping(b1, n);
    var b3 := TypeRepeated(b2, y, m);
    TypingLengthensLine(b2, y, m);
    SecondLineTyped(b2, b3, n, m);
  }

  /** A break typed at the end of a single line of `n` characters opens an empty second line. */
  lemma NewlineAfterTyping(b1: TextBuffer, n: nat)
    requires !b1.readonly && b1.cursor == Cursor(0, n) && CursorValid(b1.text, b1.cursor)
    requires LineCount(b1.text) == 1 && LineLen(b1.text, 0) == n
    ensures var b2 := InsertNewline(b1);
      && !b2.readonly && b2.cursor == Cursor(1, 0) && CursorValid(b2.text, b2.cursor)
      && LineCount(b2.text) == 2 && LineLen(b2.text, 0) == n && LineLen(b2.text, 1) == 0
  {
  }

  /** Typing `m` characters on the empty second line of two. */
  lemma SecondLineTyped(b2: TextBuffer, b3: TextBuffer, n: nat, m: nat)
    requires b2.cursor == Cursor(1, 0)
    requires LineCount(b2.text) == 2 && LineLen(b2.text, 0) == n && LineLen(b2.text, 1) == 0
    requires Grown(b2, b3, m)
    ensures LineCount(b3.text) == 2 && Breaks(b3.text) == 1
    ensures LineLen(b3.text, 0) == n && LineLen(b3.text, 1) == m
  {
    assert LineText(b3.text, 0) == LineText(b2.text, 0);
  }

  /**
   * Typing two characters and pressing backspace leaves the text with only
   * the first one inserted, and the cursor just after it.
   */
  lemma TypeTwoThenBackspace(b: TextBuffer, first: char, second: char)
    requires !b.readonly && CursorValid(b.text, b.cursor) && first != '\n' && second != '\n'
    ensures var o := CursorOffset(b);
      var r := Backspace(InsertChar(InsertChar(b, first), second));
      && r.text == b.text[..o] + [first] + b.text[o..]
      && r.cursor == Cursor(b.cursor.line, b.cursor.col + 1)
  {
    InsertThenBackspace(InsertChar(b, first), second);
  }

  /** With an active colour, both of two typed characters carry it. */
  lemma TypedCharactersTakeActiveColor(b: TextBuffer, id: ColorId, x: char, y: char)
    requires !b.readonly && CursorValid(b.text, b.cursor) && b.activeColor == Some(id)
    requires x != '\n'
    ensures var o := CursorOffset(b); var r := InsertChar(InsertChar(b, x), y);
      && o in r.charColors && r.charColors[o] == id
      && o + 1 in r.charColors && r.charColors[o + 1] == id
  {
    var b1 := InsertChar(b, x);
    InsertCharColors(b, x);
    InsertCharColors(b1, y);
    TwoTagged(b.charColors, CursorOffset(b), id, b1.charColors, InsertChar(b1, y).charColors);
  }

  /** Two consecutive tagged inserts leave both new positions tagged. */
  lemma TwoTagged(m: Colors, o: nat, id: ColorId, m1: Colors, m2: Colors)
    requires m1 == Tagged(ShiftAfterInsert(m, o, 1), o, Some(id))
    requires m2 == Tagged(ShiftAfterInsert(m1, o + 1, 1), o + 1, Some(id))
    ensures o in m2 && m2[o] == id && o + 1 in m2 && m2[o + 1] == id
  {
    InsertKeepsLowKey(m1, o + 1, 1, o);
  }

  /**
   * In a text whose first line has two or more characters: colouring the
   * second character with `id`, typing a non-break character `x` at the
   * start of the line and then deleting the character after it keeps `id`
   * on that same second character at each step.
   */
  lemma ColorFollowsCharacter(t: string, x: char, id: ColorId)
    requires LineLen(t, 0) >= 2 && x != '\n'
    ensures var b0 := FromText(t, None, false);
      var b1 := SetCurrentCharColor(MoveRight(b0), Some(id));
      var b2 := InsertChar(MoveHome(b1), x);
      var b3 := Delete(b2);
      && 1 in b1.charColors && b1.charColors[1] == id
      && b2.text == [x] + t && 2 in b2.charColors && b2.charColors[2] == id
      && b3.text == [x] + t[1..] && 1 in b3.charColors && b3.charColors[1] == id
      && b3.text[1] == t[1]
  {
    var b1 := SetCurrentCharColor(MoveRight(FromText(t, None, false)), Some(id));
    ColourSecond(t, id);
    var b2 := InsertChar(MoveHome(b1), x);
    TypeAtHome(b1, t, x, id);
    DeleteAfterFirst(b2, t, x, id);
  }

  /** Stepping right from the origin and colouring puts the colour on the second character. */
  lemma ColourSecond(t: string, id: ColorId)
    requires LineLen(t, 0) >= 2
    ensures var b1 := SetCurrentCharColor(MoveRight(FromText(t, None, false)), Some(id));
      && b1.text == t && !b1.readonly && b1.cursor.line == 0 && b1.activeColor == Some(id)
      && 1 in b1.charColors && b1.charColors[1] == id
      && 1 < |t| && t[1] != '\n'
  {
    LineTextPlace(t, 0);
    assert t[1] == LineText(t, 0)[1];
    OffsetOfValid(t, 0, 0);
  }

  /** Typing at the start of line 0 moves the colour of offset 1 to offset 2. */
  lemma TypeAtHome(b1: TextBuffer, t: string, x: char, id: ColorId)
    requires b1.text == t && !b1.readonly && b1.cursor.line == 0 && b1.activeColor == Some(id)
    requires 1 in b1.charColors && b1.charColors[1] == id && 1 < |t| && x != '\n'
    ensures var b2 := InsertChar(MoveHome(b1), x);
      && b2.text == [x] + t && CursorValid(b2.text, b2.cursor) && CursorOffset(b2) == 1
      && 2 in b2.charColors && b2.charColors[2] == id && !b2.readonly
  {
    var h := MoveHome(b1);
    OffsetOfValid(t, 0, 0);
    InsertKeepsColourOnCharacter(t, h.charColors, 0, x, Some(id), 1);
    assert InsertChar(h, x).text == [x] + t;
  }

  /** Deleting the character at offset 1 moves the colour of offset 2 back to 1. */
  lemma DeleteAfterFirst(b2: TextBuffer, t: string, x: char, id: ColorId)
    requires b2.text == [x] + t && CursorValid(b2.text, b2.cursor) && CursorOffset(b2) == 1
    requires 2 in b2.charColors && b2.charColors[2] == id && !b2.readonly && 1 < |t|
    ensures var b3 := Delete(b2);
      && b3.text == [x] + t[1..] && 1 in b3.charColors && b3.charColors[1] == id
      && b3.text[1] == t[1]
  {
    RemoveKeepsColourOnCharacter(b2.text, b2.charColors, 1, 2);
    assert Delete(b2).text == [x] + t[1..];
  }
}

=== FILE: categories.dfy ===
/**
 * The category list: the directories under the notes root, ordered by
 * their lowercased names, and where a newly created category takes its
 * place in that order.
 */
module Categories {
  import B = Buffer

  /** `Ord for str`: lexicographic by code point, a proper prefix first. */
  predicate LexLe(a: string, b: string)
    decreases |a|
  {
    a == [] || (b != [] && (a[0] < b[0] || (a[0] == b[0] && LexLe(a[1..], b[1..]))))
  }

  /** Any two strings are ordered one way or the other. */
  lemma {:induction false} LexTotal(a: string, b: string)
    ensures LexLe(a, b) || LexLe(b, a)
    decreases |a|
  {
    if a != [] && b != [] && a[0] == b[0] {
      LexTotal(a[1..], b[1..]);
    }
  }

  /** The order is transitive. */
  lemma {:induction false} LexTrans(a: string, b: string, c: string)
    requires LexLe(a, b) && LexLe(b, c)
    ensures LexLe(a, c)
    decreases |a|
  {
    if a != [] && a[0] == b[0] && b[0] == c[0] {
      LexTrans(a[1..], b[1..], c[1..]);
    }
  }

  /** The key `refresh_categories` sorts by: the lowercased name. */
  function Key(name: string): string {
    B.LowerStr(name)
  }

  /** The list is in `refresh_categories` order. */
  predicate Sorted(names: seq<string>) {
    forall i, j :: 0 <= i < j < |names| ==> LexLe(Key(names[i]), Key(names[j]))
  }

  /** Where a new name goes: after every name whose key does not sort after its own. */
  function InsertPos(names: seq<string>, name: string): (p: nat)
    ensures p <= |names|
    ensures forall k :: 0 <= k < p ==> LexLe(Key(names[k]), Key(name))
    ensures p < |names| ==> !LexLe(Key(names[p]), Key(name))
  {
    if names == [] || !LexLe(Key(names[0]), Key(name)) then 0
    else 1 + InsertPos(names[1..], name)
  }

  /**
   * The category list once the directory `name` exists: `name` taken into
   * the ordered list, everything else kept in its order.
   */
  function Insert(names: seq<string>, name: string): (r: seq<string>)
    ensures |r| == |names| + 1 && multiset(r) == multiset(names) + multiset{name}
    ensures exists p :: 0 <= p <= |names| && r == names[..p] + [name] + names[p..]
  {
    var p := InsertPos(names, name);
    assert names == names[..p] + names[p..];
    names[..p] + [name] + names[p..]
  }

  /** A sorted list stays sorted when a name is taken in. */
  lemma InsertKeepsSorted(names: seq<string>, name: string)
    requires Sorted(names)
    ensures Sorted(Insert(names, name))
  {
    var p := InsertPos(names, name);
    var r := Insert(names, name);
    assert r == names[..p] + [name] + names[p..];
    forall i, j | 0 <= i < j < |r|
      ensures LexLe(Key(r[i]), Key(r[j]))
    {
      if j < p {
        assert r[i] == names[i] && r[j] == names[j];
      } else if j == p {
        assert r[i] == names[i] && r[j] == name;
      } else if i < p {
        assert r[i] == names[i] && r[j] == names[j - 1];
      } else if i == p {
        assert r[i] == name && r[j] == names[j - 1];
        LexTotal(Key(names[p]), Key(name));
        if j - 1 > p {
          LexTrans(Key(name), Key(names[p]), Key(names[j - 1]));
        }
      } else {
        assert r[i] == names[i - 1] && r[j] == names[j - 1];
      }
    }
  }

  /** A name whose key sorts before every other goes first: "a" comes before "b". */
  lemma InsertBefore()
    ensures Insert(["b"], "a") == ["a", "b"]
  {
    assert Key("b") == "b" && Key("a") == "a";
    assert !LexLe("b", "a");
  }
}

=== FILE: color_map.dfy ===
/**
 * The sparse offset-to-colour annotation of a document and the two re-indexing
 * rules that keep every colour on the same surviving character across edits.
 */
module ColorMap {

  /** A colour id as stored by the editor: an unsigned byte. */
  type ColorId = x: nat | x < 256

  /** Character offset to colour id; offsets without an entry carry no colour. */
  type Colors = map<nat, ColorId>

  /**
   * Re-indexes the map after `count` characters were inserted at offset `at`:
   * an offset of the result is either a key below `at`, or a key at or above
   * `at` moved up by `count`, and it carries that key's colour.
   */
  function ShiftAfterInsert(m: Colors, at: nat, count: nat): (r: Colors)
    ensures forall j {:trigger j in r} ::
      j in r <==> (j < at && j in m) || (j >= at + count && j - count in m)
    ensures forall j {:trigger r[j]} ::
      j in r ==> r[j] == (if j < at then m[j] else m[j - count])
  {
    var keys := set k | k in m :: if k < at then k else k + count;
    assert forall j {:trigger j in keys} ::
      j in keys <==> (j < at && j in m) || (j >= at + count && j - count in m) by {
      forall j | (j >= at + count && j - count in m) ensures j in keys {
        var k: nat := j - count;
        assert k >= at && (if k < at then k else k + count) == j;
      }
    }
    map j | j in keys :: if j < at then m[j] else m[j - count]
  }

  /**
   * Re-indexes the map after the half-open range [at, at + count) was removed:
   * an offset of the result is either a key below `at`, or a key at or above
   * `at + count` moved down by `count`, and it carries that key's colour;
   * keys inside the range have no image.
   */
  function ShiftAfterRemove(m: Colors, at: nat, count: nat): (r: Colors)
    ensures forall j {:trigger j in r} ::
      j in r <==> (j < at && j in m) || (j >= at && j + count in m)
    ensures forall j {:trigger r[j]} ::
      j in r ==> r[j] == (if j < at then m[j] else m[j + count])
  {
    var keys := set k | k in m && (k < at || k >= at + count) :: if k < at then k else k - count;
    assert forall j {:trigger j in keys} ::
      j in keys <==> (j < at && j in m) || (j >= at && j + count in m) by {
      forall j | (j >= at && j + count in m) ensures j in keys {
        var k: nat := j + count;
        assert k >= at + count && (if k < at then k else k - count) == j;
      }
    }
    map j | j in keys :: if j < at then m[j] else m[j + count]
  }

  /** After an insert, a key below the insertion point keeps its colour in place. */
  lemma InsertKeepsLowKey(m: Colors, at: nat, count: nat, k: nat)
    requires k in m && k < at
    ensures k in ShiftAfterInsert(m, at, count)
    ensures ShiftAfterInsert(m, at, count)[k] == m[k]
  {
  }

  /** After an insert, a key at or above the insertion point moves up by `count`. */
  lemma InsertMovesHighKey(m: Colors, at: nat, count: nat, k: nat)
    requires k in m && k >= at
    ensures k + count in ShiftAfterInsert(m, at, count)
    ensures ShiftAfterInsert(m, at, count)[k + count] == m[k]
  {
    var j: nat := k + count;
    assert j - count == k;
  }

  /** After a removal, a key below the range keeps its colour in place. */
  lemma RemoveKeepsLowKey(m: Colors, at: nat, count: nat, k: nat)
    requires k in m && k < at
    ensures k in ShiftAfterRemove(m, at, count)
    ensures ShiftAfterRemove(m, at, count)[k] == m[k]
  {
  }

  /** After a removal, a key behind the range moves down by `count`. */
  lemma RemoveMovesHighKey(m: Colors, at: nat, count: nat, k: nat)
    requires k in m && k >= at + count
    ensures k - count in ShiftAfterRemove(m, at, count)
    ensures ShiftAfterRemove(m, at, count)[k - count] == m[k]
  {
    var j: nat := k - count;
    assert j + count == k;
  }

  /** Inserting nothing leaves the map as it was. */
  lemma InsertNothingIsIdentity(m: Colors, at: nat)
    ensures ShiftAfterInsert(m, at, 0) == m
  {
    var r := ShiftAfterInsert(m, at, 0);
    assert forall k {:trigger k in m} :: k in r <==> k in m by {
      forall k ensures k in r <==> k in m {
        assert k - 0 == k;
      }
    }
  }

  /** Removing nothing leaves the map as it was. */
  lemma RemoveNothingIsIdentity(m: Colors, at: nat)
    ensures ShiftAfterRemove(m, at, 0) == m
  {
    var r := ShiftAfterRemove(m, at, 0);
    assert forall k {:trigger k in m} :: k in r <==> k in m by {
      forall k ensures k in r <==> k in m {
        assert k + 0 == k;
      }
    }
  }

  /** Removing the characters just inserted restores the original annotation. */
  lemma RemoveUndoesInsert(m: Colors, at: nat, count: nat)
    ensures ShiftAfterRemove(ShiftAfterInsert(m, at, count), at, count) == m
  {
    var r := ShiftAfterRemove(ShiftAfterInsert(m, at, count), at, count);
    forall k | k in m ensures k in r && r[k] == m[k] {
      RoundTripKeepsKey(m, at, count, k);
    }
    forall j | j in r ensures j in m {
      RoundTripAddsNoKey(m, at, count, j);
    }
    MapsAgree(r, m);
  }

  lemma RoundTripKeepsKey(m: Colors, at: nat, count: nat, k: nat)
    requires k in m
    ensures k in ShiftAfterRemove(ShiftAfterInsert(m, at, count), at, count)
    ensures ShiftAfterRemove(ShiftAfterInsert(m, at, count), at, count)[k] == m[k]
  {
    var mid := ShiftAfterInsert(m, at, count);
    if k >= at {
      InsertMovesHighKey(m, at, count, k);
      RemoveMovesHighKey(mid, at, count, k + count);
      assert k + count - count == k;
    } else {
      InsertKeepsLowKey(m, at, count, k);
      RemoveKeepsLowKey(mid, at, count, k);
    }
  }

  lemma RoundTripAddsNoKey(m: Colors, at: nat, count: nat, j: nat)
    requires j in ShiftAfterRemove(ShiftAfterInsert(m, at, count), at, count)
    ensures j in m
  {
    var mid := ShiftAfterInsert(m, at, count);
    if j >= at {
      var i: nat := j + count;
      assert i in mid;
      assert i - count == j;
    } else {
      assert j in mid;
    }
  }

  /** A colour given to a removed offset leaves no trace in the re-indexed map. */
  lemma RemoveIgnoresRemovedKey(m: Colors, at: nat, count: nat, k: nat, c: ColorId)
    requires at <= k < at + count
    ensures ShiftAfterRemove(m[k := c], at, count) == ShiftAfterRemove(m, at, count)
  {
    var a := ShiftAfterRemove(m[k := c], at, count);
    var b := ShiftAfterRemove(m, at, count);
    forall j | j in b ensures j in a && a[j] == b[j] {
      if j >= at {
        var i: nat := j + count;
        assert i in m && i != k;
      }
    }
    forall j | j in a ensures j in b {
      if j >= at {
        var i: nat := j + count;
        assert i in m[k := c] && i != k;
      }
    }
    MapsAgree(a, b);
  }

  /** Removing a just-inserted, just-coloured character restores the original annotation. */
  lemma RemoveUndoesTaggedInsert(m: Colors, at: nat, c: ColorId)
    ensures ShiftAfterRemove(ShiftAfterInsert(m, at, 1)[at := c], at, 1) == m
  {
    RemoveIgnoresRemovedKey(ShiftAfterInsert(m, at, 1), at, 1, at, c);
    RemoveUndoesInsert(m, at, 1);
  }

  /** Two maps with the same keys and the same value at every key are equal. */
  lemma MapsAgree(a: Colors, b: Colors)
    requires forall k :: k in b ==> k in a && a[k] == b[k]
    requires forall k :: k in a ==> k in b
    ensures a == b
  {
    assert a.Keys == b.Keys;
  }

  /** Every key of `m` lies below `bound`. */
  predicate KeysBelow(m: Colors, bound: nat) {
    forall k :: k in m ==> k < bound
  }

  /** Shifting after an insert keeps keys inside the grown text. */
  lemma InsertKeepsKeysInText(m: Colors, at: nat, count: nat, len: nat)
    requires KeysBelow(m, len)
    ensures KeysBelow(ShiftAfterInsert(m, at, count), len + count)
  {
    var r := ShiftAfterInsert(m, at, count);
    forall j | j in r ensures j < len + count {
      if j >= at + count {
        var k: nat := j - count;
        assert k in m;
      }
    }
  }

  /** Shifting after a removal inside the text keeps keys inside the shrunk text. */
  lemma RemoveKeepsKeysInText(m: Colors, at: nat, count: nat, len: nat)
    requires at + count <= len && KeysBelow(m, len)
    ensures KeysBelow(ShiftAfterRemove(m, at, count), len - count)
  {
    var r := ShiftAfterRemove(m, at, count);
    forall j | j in r ensures j < len - count {
      if j >= at {
        var k: nat := j + count;
        assert k in m;
      }
    }
  }
}

=== FILE: file_tree.dfy ===
/**
 * The side panel's note tree: a flat list of category headers, note files
 * and placeholders, one of which is selected.
 */
module FileTree {
  import opened Wrappers
  import Paths
  import opened Modular

  datatype NodeKind = Category | File | Empty

  datatype TreeNode = TreeNode(title: string, kind: NodeKind, path: Option<Paths.Path>, categoryIndex: Option<nat>)

  /** `selected` is an index into `nodes`, but nothing forces it to be in range. */
  datatype Tree = Tree(nodes: seq<TreeNode>, selected: nat, focus: bool)

  /** `selected_path`: the selected node's path, if the index is in range and the node has one. */
  function SelectedPath(t: Tree): (r: Option<Paths.Path>)
    ensures t.selected >= |t.nodes| ==> r == None
    ensures t.selected < |t.nodes| ==> r == t.nodes[t.selected].path
  {
    if t.selected < |t.nodes| then t.nodes[t.selected].path else None
  }

  /** `selected_category_index`: likewise for the node's category. */
  function SelectedCategoryIndex(t: Tree): (r: Option<nat>)
    ensures t.selected >= |t.nodes| ==> r == None
    ensures t.selected < |t.nodes| ==> r == t.nodes[t.selected].categoryIndex
  {
    if t.selected < |t.nodes| then t.nodes[t.selected].categoryIndex else None
  }

  predicate IsFile(n: TreeNode) { n.kind == File }

  /** One step of the selection loop, backwards or forwards, wrapping round `len` nodes. */
  function Step(i: nat, len: nat, back: bool): (r: nat)
    requires len > 0
    ensures r < len
  {
    if back then (i + len - 1) % len else (i + 1) % len
  }

  /** The node `k` steps from `start`: `start - k` or `start + k`, modulo `len`. */
  function Pos(start: nat, len: nat, back: bool, k: nat): (r: nat)
    requires len > 0
    ensures r < len
  {
    if back then (start - k) % len else (start + k) % len
  }

  /** `k` more steps from the node one step on are `k + 1` steps from the start. */
  lemma PosAfterStep(start: nat, len: nat, back: bool, k: nat)
    requires len > 0
    ensures Pos(Step(start, len, back), len, back, k) == Pos(start, len, back, k + 1)
  {
    if back {
      calc {
        Pos(Step(start, len, back), len, back, k);
        ((start + len - 1) % len - k) % len;
        { ModSum(start + len - 1, -(k as int), len); }
        (start + len - 1 - k) % len;
        { ModAddModulus(start - 1 - k, len); }
        (start - (k + 1)) % len;
      }
    } else {
      ModSum(start + 1, k, len);
    }
  }

  /** One step is the first position. */
  lemma StepIsFirstPos(start: nat, len: nat, back: bool)
    requires len > 0
    ensures Step(start, len, back) == Pos(start, len, back, 1)
  {
    if back {
      ModAddModulus(start - 1, len);
    }
  }

  /** No File node among the first `m` steps from `start`. */
  predicate NoFileWithin(nodes: seq<TreeNode>, start: nat, back: bool, m: nat)
    requires |nodes| > 0
  {
    forall k :: 1 <= k <= m ==> !IsFile(nodes[Pos(start, |nodes|, back, k)])
  }

  /** The File node reached after `k` steps is the first one on the way. */
  predicate FirstFileAt(nodes: seq<TreeNode>, start: nat, back: bool, k: nat)
    requires |nodes| > 0
  {
    1 <= k && IsFile(nodes[Pos(start, |nodes|, back, k)]) && NoFileWithin(nodes, start, back, k - 1)
  }

  /**
   * What a scan of `left` steps from `idx` finds: nothing exactly when no
   * File node lies within those steps, and otherwise the first one.
   */
  predicate ScanFinds(nodes: seq<TreeNode>, idx: nat, back: bool, left: nat, r: Option<nat>)
    requires |nodes| > 0
  {
    && (r.None? <==> NoFileWithin(nodes, idx, back, left))
    && (r.Some? ==> exists k :: 1 <= k <= left && r.value == Pos(idx, |nodes|, back, k)
                                && FirstFileAt(nodes, idx, back, k))
  }

  /** The loop of `move_selection`: at most `left` steps from `idx`, stopping on a File node. */
  function Scan(nodes: seq<TreeNode>, idx: nat, left: nat, back: bool): (r: Option<nat>)
    requires |nodes| > 0
    ensures ScanFinds(nodes, idx, back, left, r)
    decreases left
  {
    if left == 0 then None
    else
      var j := Step(idx, |nodes|, back);
      StepIsFirstPos(idx, |nodes|, back);
      if IsFile(nodes[j]) then
        FoundFirst(nodes, idx, back, left);
        Some(j)
      else
        var r := Scan(nodes, j, left - 1, back);
        ScanShift(nodes, idx, back, left - 1, r);
        r
  }

  /** A File node one step on is the first one on the way. */
  lemma FoundFirst(nodes: seq<TreeNode>, idx: nat, back: bool, left: nat)
    requires |nodes| > 0 && left >= 1 && IsFile(nodes[Pos(idx, |nodes|, back, 1)])
    ensures ScanFinds(nodes, idx, back, left, Some(Pos(idx, |nodes|, back, 1)))
  {
    assert FirstFileAt(nodes, idx, back, 1);
  }

  /** Moves the facts about a scan from one step on back to `idx`. */
  lemma ScanShift(nodes: seq<TreeNode>, idx: nat, back: bool, m: nat, r: Option<nat>)
    requires |nodes| > 0
    requires !IsFile(nodes[Pos(idx, |nodes|, back, 1)])
    requires ScanFinds(nodes, Step(idx, |nodes|, back), back, m, r)
    ensures ScanFinds(nodes, idx, back, m + 1, r)
  {
    var j := Step(idx, |nodes|, back);
    forall k | 0 <= k <= m
      ensures Pos(j, |nodes|, back, k) == Pos(idx, |nodes|, back, k + 1)
    {
      PosAfterStep(idx, |nodes|, back, k);
    }
    if NoFileWithin(nodes, j, back, m) {
      forall k | 1 <= k <= m + 1
        ensures !IsFile(nodes[Pos(idx, |nodes|, back, k)])
      {
        if k > 1 { assert Pos(j, |nodes|, back, k - 1) == Pos(idx, |nodes|, back, k); }
      }
    } else {
      var k :| 1 <= k <= m && r.value == Pos(j, |nodes|, back, k) && FirstFileAt(nodes, j, back, k);
      assert Pos(j, |nodes|, back, k) == Pos(idx, |nodes|, back, k + 1);
      forall k' | 1 <= k' <= k
        ensures !IsFile(nodes[Pos(idx, |nodes|, back, k')])
      {
        if k' > 1 { assert Pos(j, |nodes|, back, k' - 1) == Pos(idx, |nodes|, back, k'); }
      }
      assert FirstFileAt(nodes, idx, back, k + 1);
    }
  }

  /** `move_selection` steps backwards for a negative direction. */
  predicate Backwards(direction: int) { direction < 0 }

  /**
   * `move_selection`: the nearest File node `direction` ways from the
   * selection, wrapping round; the selection stays when there is none.
   */
  function MoveSelection(t: Tree, direction: int): (r: Tree)
    ensures r.nodes == t.nodes && r.focus == t.focus
    ensures |t.nodes| == 0 ==> r == t
    ensures |t.nodes| > 0 && NoFileWithin(t.nodes, t.selected, Backwards(direction), |t.nodes|) ==> r == t
    ensures |t.nodes| > 0 && !NoFileWithin(t.nodes, t.selected, Backwards(direction), |t.nodes|) ==>
      exists k :: 1 <= k <= |t.nodes| && r.selected == Pos(t.selected, |t.nodes|, Backwards(direction), k)
                  && FirstFileAt(t.nodes, t.selected, Backwards(direction), k)
  {
    if |t.nodes| == 0 then t
    else
      match Scan(t.nodes, t.selected, |t.nodes|, Backwards(direction))
      case None => t
      case Some(i) => t.(selected := i)
  }

  /** Forwards, node `i` is `(i - start) mod len` steps away, or `len` when that is 0. */
  lemma ReachForward(start: nat, len: nat, i: nat)
    requires 0 < len && i < len
    ensures var d := (i - start) % len; Pos(start, len, false, if d == 0 then len else d) == i
  {
    ModSum(i - start, start, len);
    SmallMod(i, len);
    if (i - start) % len == 0 {
      ModAddModulus(start, len);
    }
  }

  /** Backwards, node `i` is `(start - i) mod len` steps away, or `len` when that is 0. */
  lemma ReachBack(start: nat, len: nat, i: nat)
    requires 0 < len && i < len
    ensures var d := (start - i) % len; Pos(start, len, true, if d == 0 then len else d) == i
  {
    ModDiff(start, start - i, len);
    SmallMod(i, len);
    if (start - i) % len == 0 {
      ModAddModulus(start - len, len);
    }
  }

  /** Every node is reached within `len` steps, either way. */
  lemma StepsReachAll(start: nat, len: nat, back: bool, i: nat)
    requires 0 < len && i < len
    ensures exists k :: 1 <= k <= len && Pos(start, len, back, k) == i
  {
    if back {
      ReachBack(start, len, i);
      var d := (start - i) % len;
      assert Pos(start, len, back, if d == 0 then len else d) == i;
    } else {
      ReachForward(start, len, i);
      var d := (i - start) % len;
      assert Pos(start, len, back, if d == 0 then len else d) == i;
    }
  }

  /** Within `len` steps there is no File node exactly when the tree holds none. */
  lemma NoFileWithinAll(nodes: seq<TreeNode>, start: nat, back: bool)
    requires |nodes| > 0
    ensures NoFileWithin(nodes, start, back, |nodes|) <==> forall i :: 0 <= i < |nodes| ==> !IsFile(nodes[i])
  {
    if NoFileWithin(nodes, start, back, |nodes|) {
      forall i | 0 <= i < |nodes|
        ensures !IsFile(nodes[i])
      {
        StepsReachAll(start, |nodes|, back, i);
      }
    }
  }

  /** With no File node the selection never moves; with one, it always lands on a File node. */
  lemma MoveSelectionLandsOnFile(t: Tree, direction: int)
    ensures (forall i :: 0 <= i < |t.nodes| ==> !IsFile(t.nodes[i])) ==> MoveSelection(t, direction) == t
    ensures (exists i :: 0 <= i < |t.nodes| && IsFile(t.nodes[i])) ==>
      var r := MoveSelection(t, direction); r.selected < |r.nodes| && IsFile(r.nodes[r.selected])
  {
    if |t.nodes| > 0 {
      NoFileWithinAll(t.nodes, t.selected, Backwards(direction));
    }
  }
}

=== FILE: filesystem.dfy ===
/**
 * The text transforms of document loading and saving (line-ending detection,
 * CRLF normalisation and re-encoding), the sidecar path rule, and the field
 * choice of the colour sidecar. Reading and writing bytes is left to the caller.
 */
module FileSystem {
  import opened Wrappers
  import opened Paths
  import opened ColorMap
  import TextLines

  /** The line-ending convention of a document file. */
  datatype EolStyle = Lf | Crlf

  /** A loaded document: normalised text plus the convention it was stored with. */
  datatype FileData = FileData(text: string, eol: EolStyle)

  /** Failures of the persistence layer, each naming the path involved. */
  datatype IoError =
    | ReadError(path: Path)
    | WriteError(path: Path)
    | SidecarParse(path: Path)
    | SidecarSerialize(path: Path)

  /** A carriage return directly followed by a line feed starts at `i`. */
  predicate CrlfAt(s: string, i: int) {
    0 <= i && i + 1 < |s| && s[i] == '\r' && s[i + 1] == '\n'
  }

  /** Every '\n' of `s` is directly preceded by '\r'. */
  predicate AllBreaksCrlf(s: string) {
    forall i :: 0 <= i < |s| && s[i] == '\n' ==> CrlfAt(s, i - 1)
  }

  /** Whether "\r\n" occurs in `s`, scanning from the front. */
  function HasCrlf(s: string): (b: bool)
    ensures b <==> exists i :: CrlfAt(s, i)
    decreases |s|
  {
    if |s| < 2 then false
    else if s[0] == '\r' && s[1] == '\n' then assert CrlfAt(s, 0); true
    else
      var b := HasCrlf(s[1..]);
      assert forall i :: CrlfAt(s[1..], i) <==> CrlfAt(s, i + 1);
      assert b ==> exists i :: CrlfAt(s, i) by {
        if b { var i :| CrlfAt(s[1..], i); assert CrlfAt(s, i + 1); }
      }
      assert (exists i :: CrlfAt(s, i)) ==> b by {
        if exists i :: CrlfAt(s, i) {
          var i :| CrlfAt(s, i);
          assert i != 0;
          assert CrlfAt(s[1..], i - 1);
        }
      }
      b
  }

  /** `detect_eol`: Crlf exactly when the content contains "\r\n". */
  function DetectEol(content: string): (e: EolStyle)
    ensures e == Crlf <==> exists i :: CrlfAt(content, i)
  {
    if HasCrlf(content) then Crlf else Lf
  }

  /** Replaces non-overlapping "\r\n" by "\n", scanning left to right. */
  function NormalizeCrlf(s: string): (r: string)
    ensures |r| <= |s|
    decreases |s|
  {
    if |s| == 0 then []
    else if |s| >= 2 && s[0] == '\r' && s[1] == '\n' then ['\n'] + NormalizeCrlf(s[2..])
    else [s[0]] + NormalizeCrlf(s[1..])
  }

  /** Replaces every '\n' by "\r\n". */
  function EncodeCrlf(t: string): (r: string)
    ensures AllBreaksCrlf(r)
    ensures |r| == |t| + TextLines.Breaks(t)
    ensures |r| > 0 ==> r[0] != '\n'
    decreases |t|
  {
    if |t| == 0 then []
    else
      var head := if t[0] == '\n' then "\r\n" else [t[0]];
      var rest := EncodeCrlf(t[1..]);
      assert AllBreaksCrlf(head + rest) by {
        forall i | 0 <= i < |head + rest| && (head + rest)[i] == '\n'
          ensures CrlfAt(head + rest, i - 1)
        {
          if i >= |head| {
            assert (head + rest)[i] == rest[i - |head|];
            if i - |head| == 0 {
              assert false;
            } else {
              assert CrlfAt(rest, i - |head| - 1);
            }
          }
        }
      }
      head + rest
  }

  /** `load_document` on the decoded file content: detect the convention, then normalise. */
  function LoadDocument(raw: string): (d: FileData)
    ensures d.eol == Crlf <==> exists i :: CrlfAt(raw, i)
    ensures |d.text| <= |raw|
  {
    FileData(NormalizeCrlf(raw), DetectEol(raw))
  }

  /** `save_document`: the content written for `text` under convention `eol`. */
  function SaveDocument(text: string, eol: EolStyle): (out: string)
    ensures eol == Lf ==> out == text
    ensures eol == Crlf ==> AllBreaksCrlf(out) && |out| == |text| + TextLines.Breaks(text)
  {
    match eol
    case Lf => text
    case Crlf => EncodeCrlf(text)
  }

  /** Normalising a CRLF-encoded text gives the text back. */
  lemma {:induction false} NormalizeUndoesEncode(t: string)
    ensures NormalizeCrlf(EncodeCrlf(t)) == t
    decreases |t|
  {
    if |t| > 0 {
      NormalizeUndoesEncode(t[1..]);
      var rest := EncodeCrlf(t[1..]);
      assert t == [t[0]] + t[1..];
      if t[0] == '\n' {
        var e := "\r\n" + rest;
        assert EncodeCrlf(t) == e;
        assert e[2..] == rest;
      } else {
        var e := [t[0]] + rest;
        assert EncodeCrlf(t) == e;
        assert e[1..] == rest;
        assert !(|e| >= 2 && e[0] == '\r' && e[1] == '\n');
      }
    }
  }

  /** Re-encoding a normalised text restores a raw text whose every '\n' was preceded by '\r'. */
  lemma {:induction false} EncodeUndoesNormalize(raw: string)
    requires AllBreaksCrlf(raw)
    ensures EncodeCrlf(NormalizeCrlf(raw)) == raw
    decreases |raw|
  {
    if |raw| > 0 {
      if |raw| >= 2 && raw[0] == '\r' && raw[1] == '\n' {
        var rest := raw[2..];
        assert AllBreaksCrlf(rest) by {
          forall i | 0 <= i < |rest| && rest[i] == '\n' ensures CrlfAt(rest, i - 1) {
            assert raw[i + 2] == '\n';
            assert CrlfAt(raw, i + 1);
          }
        }
        EncodeUndoesNormalize(rest);
        var n := ['\n'] + NormalizeCrlf(rest);
        assert NormalizeCrlf(raw) == n;
        assert n[1..] == NormalizeCrlf(rest);
        assert raw == "\r\n" + rest;
      } else {
        var rest := raw[1..];
        assert raw[0] != '\n' by {
          assert !CrlfAt(raw, -1);
        }
        assert AllBreaksCrlf(rest) by {
          forall i | 0 <= i < |rest| && rest[i] == '\n' ensures CrlfAt(rest, i - 1) {
            assert raw[i + 1] == '\n';
            assert CrlfAt(raw, i);
          }
        }
        EncodeUndoesNormalize(rest);
        var n := [raw[0]] + NormalizeCrlf(rest);
        assert NormalizeCrlf(raw) == n;
        assert n[1..] == NormalizeCrlf(rest);
        assert raw == [raw[0]] + rest;
      }
    }
  }

  /**
   * Loading a file whose line breaks are all "\r\n" and saving it unmodified
   * writes back exactly what was read.
   */
  lemma CrlfFileRoundTrip(raw: string)
    requires AllBreaksCrlf(raw) && exists i :: CrlfAt(raw, i)
    ensures var d := LoadDocument(raw); SaveDocument(d.text, d.eol) == raw
  {
    EncodeUndoesNormalize(raw);
  }

  /** Saving a text with Crlf and loading it back gives the text and the convention. */
  lemma SaveThenLoadCrlf(text: string)
    requires TextLines.Breaks(text) > 0
    ensures LoadDocument(SaveDocument(text, Crlf)) == FileData(text, Crlf)
  {
    NormalizeUndoesEncode(text);
    var out := EncodeCrlf(text);
    var i :| 0 <= i < |text| && text[i] == '\n' by { BreakHasIndex(text); }
    EncodedBreakPosition(text, i);
  }

  /** A text with a break has a position holding '\n'. */
  lemma {:induction false} BreakHasIndex(t: string)
    requires TextLines.Breaks(t) > 0
    ensures exists i :: 0 <= i < |t| && t[i] == '\n'
    decreases |t|
  {
    if t[0] != '\n' {
      BreakHasIndex(t[1..]);
      var i :| 0 <= i < |t[1..]| && t[1..][i] == '\n';
      assert t[i + 1] == '\n';
    }
  }

  /** A '\n' of the text turns into a "\r\n" of the encoding. */
  lemma {:induction false} EncodedBreakPosition(t: string, i: nat)
    requires i < |t| && t[i] == '\n'
    ensures exists j :: CrlfAt(EncodeCrlf(t), j)
    decreases |t|
  {
    var head := if t[0] == '\n' then "\r\n" else [t[0]];
    var rest := EncodeCrlf(t[1..]);
    assert EncodeCrlf(t) == head + rest;
    if i == 0 {
      assert CrlfAt(head + rest, 0);
    } else {
      EncodedBreakPosition(t[1..], i - 1);
      var j :| CrlfAt(rest, j);
      assert CrlfAt(head + rest, j + |head|);
    }
  }

  /** The suffix that names a document's colour sidecar. */
  const SidecarSuffix: string := ".dopedpad.json"

  /**
   * `sidecar_path_for`: the sidecar sits next to the document and is named
   * after it with the sidecar suffix appended ("untitled.txt" when the path
   * has no file name).
   */
  function SidecarPathFor(p: Path): (r: Path)
    ensures FileName(r) == Some(FileName(p).GetOr("untitled.txt") + SidecarSuffix)
    ensures FileName(p).Some? ==> Parent(r) == Parent(p)
    ensures FileName(p).None? ==> Parent(r) == Some(p)
  {
    var name := FileName(p).GetOr("untitled.txt") + SidecarSuffix;
    assert name[|name| - 1] == 'n';
    SetFileName(p, name)
  }

  /** The stored sidecar record: a character map and a legacy line map. */
  datatype Sidecar = Sidecar(charColors: Colors, lineColors: Colors)

  /** What reading and parsing a sidecar file produced. */
  datatype SidecarFile =
    | Missing
    | Unreadable
    | Malformed
    | Stored(sidecar: Sidecar)

  /**
   * `load_sidecar`: a missing file means no colours; otherwise the character
   * map, falling back to the legacy line map when the character map is empty.
   */
  function LoadSidecar(f: SidecarFile, path: Path): (r: Result<Colors, IoError>)
    ensures f == Missing ==> r == Ok(map[])
    ensures f == Unreadable ==> r == Err(ReadError(path))
    ensures f == Malformed ==> r == Err(SidecarParse(path))
    ensures f.Stored? && f.sidecar.charColors != map[] ==> r == Ok(f.sidecar.charColors)
    ensures f.Stored? && f.sidecar.charColors == map[] ==> r == Ok(f.sidecar.lineColors)
  {
    match f
    case Missing => Ok(map[])
    case Unreadable => Err(ReadError(path))
    case Malformed => Err(SidecarParse(path))
    case Stored(s) => if s.charColors == map[] then Ok(s.lineColors) else Ok(s.charColors)
  }

  /** `save_sidecar`: the record written for a colour map. */
  function SaveSidecar(colors: Colors): (s: Sidecar)
    ensures s.charColors == colors && s.lineColors == map[]
  {
    Sidecar(colors, map[])
  }

  /** A saved sidecar loads back as the same map, the empty map included. */
  lemma SidecarRoundTrip(colors: Colors, path: Path)
    ensures LoadSidecar(Stored(SaveSidecar(colors)), path) == Ok(colors)
  {
  }
}

=== FILE: input.dfy ===
/**
 * `map_key_event`: the first-match table from key events to editor
 * commands. It is the only place colour ids come from.
 */
module Input {
  import opened Wrappers
  import opened Keys
  import C = Commands
  import opened ColorMap

  /** The key is the letter `lower` or its upper-case form, held with Control alone. */
  predicate CtrlLetter(code: KeyCode, mods: Modifiers, lower: char, upper: char) {
    (code == Char(lower) || code == Char(upper)) && mods == ControlOnly
  }

  /** The colour command of function key `n` (F2..F9 give ids 1..8, F10 resets). */
  function FunctionKeyColor(n: nat): Option<C.Command> {
    if n == 10 then Some(C.ResetLineColor)
    else if 2 <= n <= 9 then Some(C.SetLineColor(n - 1))
    else None
  }

  /** The table for a key press: the first row that matches wins, in `map_key_event`'s order. */
  function MapPress(code: KeyCode, mods: Modifiers, searchMode: bool): Option<C.Command> {
    if CtrlLetter(code, mods, 'q', 'Q') then Some(C.Quit)
    else if CtrlLetter(code, mods, 's', 'S') then Some(C.Save)
    else if (code == Char('s') || code == Char('S')) && mods.control && mods.shift then Some(C.Save)
    else if code == F(1) && mods == NoMods then Some(C.OpenHelp)
    else if code == Esc then Some(C.CloseOverlay)
    else if CtrlLetter(code, mods, 'f', 'F') then Some(C.OpenSearch)
    else if CtrlLetter(code, mods, 'g', 'G') then Some(C.OpenGoto)
    else if CtrlLetter(code, mods, 'o', 'O') then Some(C.OpenFileTree)
    else if CtrlLetter(code, mods, 'n', 'N') then Some(C.NewFile)
    else if code == Enter && searchMode && mods.shift then Some(C.SearchPrev)
    else if code == Enter && searchMode then Some(C.SearchNext)
    else
      match code
      case Left => Some(C.MoveLeft)
      case Right => Some(C.MoveRight)
      case Up => Some(C.MoveUp)
      case Down => Some(C.MoveDown)
      case Home => Some(C.MoveHome)
      case End => Some(C.MoveEnd)
      case PageUp => Some(C.PageUp)
      case PageDown => Some(C.PageDown)
      case Backspace => Some(C.Backspace)
      case Delete => Some(C.Delete)
      case Enter => Some(C.NewLine)
      case Tab => Some(C.Insert('\t'))
      case Char(c) => if mods == NoMods || mods == ShiftOnly then Some(C.Insert(c)) else None
      case F(n) => if mods == NoMods then FunctionKeyColor(n) else None
      case _ => None
  }

  /** `map_key_event`: only key presses produce commands. */
  function MapKeyEvent(key: KeyEvent, searchMode: bool): (r: Option<C.Command>)
    ensures key.kind != Press ==> r == None
    ensures key.kind == Press ==> r == MapPress(key.code, key.modifiers, searchMode)
  {
    if key.kind != Press then None else MapPress(key.code, key.modifiers, searchMode)
  }

  /**
   * A colour command comes exactly from a press of F2..F9 without
   * modifiers, so its id lies in 1..8.
   */
  lemma ColorIdsInRange(key: KeyEvent, searchMode: bool, id: ColorId)
    ensures MapKeyEvent(key, searchMode) == Some(C.SetLineColor(id))
      <==> key.kind == Press && key.code == F(id + 1) && key.modifiers == NoMods && 1 <= id <= 8
  {
  }

  /** A colour reset comes exactly from a press of F10 without modifiers. */
  lemma ResetComesFromF10(key: KeyEvent, searchMode: bool)
    ensures MapKeyEvent(key, searchMode) == Some(C.ResetLineColor)
      <==> key.kind == Press && key.code == F(10) && key.modifiers == NoMods
  {
  }

  /** Esc closes the overlay whatever the modifiers, and nothing else does. */
  lemma EscClosesOverlay(key: KeyEvent, searchMode: bool)
    ensures MapKeyEvent(key, searchMode) == Some(C.CloseOverlay)
      <==> key.kind == Press && key.code == Esc
  {
  }

  /**
   * Enter steps back through matches with Shift in search mode, steps
   * forward otherwise in search mode, and breaks the line outside it.
   */
  lemma EnterByMode(key: KeyEvent, searchMode: bool)
    requires key.kind == Press && key.code == Enter
    ensures searchMode && key.modifiers.shift ==> MapKeyEvent(key, searchMode) == Some(C.SearchPrev)
    ensures searchMode && !key.modifiers.shift ==> MapKeyEvent(key, searchMode) == Some(C.SearchNext)
    ensures !searchMode ==> MapKeyEvent(key, searchMode) == Some(C.NewLine)
  {
  }

  /**
   * A character is inserted exactly for a plain or shifted press of that
   * character, or for Tab (which inserts '\t') with any modifiers.
   */
  lemma InsertExactly(key: KeyEvent, searchMode: bool, c: char)
    ensures MapKeyEvent(key, searchMode) == Some(C.Insert(c))
      <==> (key.kind == Press
            && ((key.code == Char(c) && (key.modifiers == NoMods || key.modifiers == ShiftOnly))
                || (key.code == Tab && c == '\t')))
  {
  }

  /** Quit is Control+Q alone, in either letter case. */
  lemma QuitExactly(key: KeyEvent, searchMode: bool)
    ensures MapKeyEvent(key, searchMode) == Some(C.Quit)
      <==> key.kind == Press && CtrlLetter(key.code, key.modifiers, 'q', 'Q')
  {
  }

  /** Save is Control+S alone, or S with at least Control and Shift held. */
  lemma SaveExactly(key: KeyEvent, searchMode: bool)
    ensures MapKeyEvent(key, searchMode) == Some(C.Save)
      <==> (key.kind == Press && (key.code == Char('s') || key.code == Char('S'))
            && key.modifiers.control && (key.modifiers == ControlOnly || key.modifiers.shift))
  {
  }

  /** Control+F, G, O and N alone open search, go-to, the file tree and a new file. */
  lemma ControlShortcuts(key: KeyEvent, searchMode: bool)
    requires key.kind == Press && key.modifiers == ControlOnly
    ensures key.code in {Char('f'), Char('F')} ==> MapKeyEvent(key, searchMode) == Some(C.OpenSearch)
    ensures key.code in {Char('g'), Char('G')} ==> MapKeyEvent(key, searchMode) == Some(C.OpenGoto)
    ensures key.code in {Char('o'), Char('O')} ==> MapKeyEvent(key, searchMode) == Some(C.OpenFileTree)
    ensures key.code in {Char('n'), Char('N')} ==> MapKeyEvent(key, searchMode) == Some(C.NewFile)
  {
  }
}

=== FILE: keys.dfy ===
/**
 * Terminal key events as the editor receives them: a key code, the held
 * modifiers and the event kind.
 */
module Keys {

  /** The key that was pressed; keys the editor never looks at are `OtherKey`. */
  datatype KeyCode =
    | Char(c: char)
    | F(n: nat)
    | Backspace
    | Enter
    | Left
    | Right
    | Up
    | Down
    | Home
    | End
    | PageUp
    | PageDown
    | Tab
    | BackTab
    | Delete
    | Insert
    | Null
    | Esc
    | OtherKey

  /** The modifier flags held with a key. */
  datatype Modifiers = Modifiers(shift: bool, control: bool, alt: bool, superKey: bool, hyper: bool, meta: bool)

  /** `KeyModifiers::NONE`. */
  const NoMods := Modifiers(false, false, false, false, false, false)

  /** `KeyModifiers::CONTROL`: Control and nothing else. */
  const ControlOnly := Modifiers(false, true, false, false, false, false)

  /** `KeyModifiers::SHIFT`: Shift and nothing else. */
  const ShiftOnly := Modifiers(true, false, false, false, false, false)

  datatype KeyEventKind = Press | Repeat | Release

  datatype KeyEvent = KeyEvent(code: KeyCode, modifiers: Modifiers, kind: KeyEventKind)
}

/** The editor commands a key can map to. */
module Commands {
  import opened ColorMap

  datatype Command =
    | Insert(c: char)
    | NewLine
    | Backspace
    | Delete
    | MoveLeft
    | MoveRight
    | MoveUp
    | MoveDown
    | MoveHome
    | MoveEnd
    | PageUp
    | PageDown
    | SetLineColor(id: ColorId)
    | ResetLineColor
    | Save
    | Quit
    | OpenHelp
    | OpenSearch
    | OpenGoto
    | OpenFileTree
    | NewFile
    | CloseOverlay
    | SearchNext
    | SearchPrev
}

=== FILE: modular.dfy ===
/** Facts about Euclidean remainders that wrap-around indexing needs. */
module Modular {
  /** A positive multiple of a positive number is at least that number. */
  lemma {:induction false} MultipleAtLeast(d: int, n: int)
    requires d >= 1 && n > 0
    ensures d * n >= n
    decreases d
  {
    if d > 1 {
      MultipleAtLeast(d - 1, n);
      assert d * n == (d - 1) * n + n;
    }
  }

  /** A representation `q * n + r` with `0 <= r < n` is the one `/` and `%` give. */
  lemma DivModUnique(x: int, n: int, q: int, r: int)
    requires n > 0 && 0 <= r < n && x == q * n + r
    ensures x % n == r && x / n == q
  {
    var q', r' := x / n, x % n;
    assert x == q' * n + r';
    var d := q' - q;
    assert d * n == q' * n - q * n;
    assert d * n == r - r';
    if d >= 1 {
      MultipleAtLeast(d, n);
    } else if d <= -1 {
      MultipleAtLeast(-d, n);
    }
  }

  /** Reducing one summand first does not change the remainder of a sum. */
  lemma ModSum(a: int, b: int, n: int)
    requires n > 0
    ensures (a % n + b) % n == (a + b) % n
  {
    var q, s := (a % n + b) / n, (a % n + b) % n;
    assert a % n + b == q * n + s;
    assert a == (a / n) * n + a % n;
    assert a + b == (a / n + q) * n + s;
    DivModUnique(a + b, n, a / n + q, s);
  }

  /** Likewise for a difference whose subtrahend is reduced. */
  lemma ModDiff(a: int, b: int, n: int)
    requires n > 0
    ensures (a - b % n) % n == (a - b) % n
  {
    var q, s := (a - b % n) / n, (a - b % n) % n;
    assert a - b % n == q * n + s;
    assert b == (b / n) * n + b % n;
    assert a - b == (q - b / n) * n + s;
    DivModUnique(a - b, n, q - b / n, s);
  }

  /** Adding the modulus leaves the remainder alone. */
  lemma ModAddModulus(a: int, n: int)
    requires n > 0
    ensures (a + n) % n == a % n
  {
    assert a == (a / n) * n + a % n;
    assert a + n == (a / n + 1) * n + a % n;
    DivModUnique(a + n, n, a / n + 1, a % n);
  }

  /** A number below the modulus is its own remainder. */
  lemma SmallMod(i: int, len: int)
    requires 0 <= i < len
    ensures i % len == i
  {
    DivModUnique(i, len, 0, i);
  }
}

=== FILE: names.dfy ===
/**
 * The text rules of the name-entry dialogs: trimming, the ".txt" suffix of
 * note files, and the unsigned decimal parse of the go-to-line dialog.
 */
module Names {
  import opened Wrappers

  /**
   * `char::is_whitespace`, the Unicode White_Space property that
   * `str::trim` removes from both ends.
   */
  predicate IsSpace(c: char) {
    || ('\t' <= c <= '\r') || c == ' ' || c == '\U{85}' || c == '\U{A0}' || c == '\U{1680}'
    || ('\U{2000}' <= c <= '\U{200A}') || c == '\U{2028}' || c == '\U{2029}'
    || c == '\U{202F}' || c == '\U{205F}' || c == '\U{3000}'
  }

  /** The number of leading white-space characters. */
  function TrimStartIndex(s: string): (i: nat)
    ensures i <= |s|
    ensures forall k :: 0 <= k < i ==> IsSpace(s[k])
    ensures i < |s| ==> !IsSpace(s[i])
  {
    if |s| == 0 || !IsSpace(s[0]) then 0 else 1 + TrimStartIndex(s[1..])
  }

  /** The length of `s` without its trailing white space. */
  function TrimEndIndex(s: string): (j: nat)
    ensures j <= |s|
    ensures forall k :: j <= k < |s| ==> IsSpace(s[k])
    ensures j > 0 ==> !IsSpace(s[j - 1])
  {
    if |s| == 0 || !IsSpace(s[|s| - 1]) then |s| else TrimEndIndex(s[..|s| - 1])
  }

  /** `str::trim`: the infix left after white space is dropped from both ends. */
  function Trim(s: string): (r: string)
    ensures r == [] <==> forall k :: 0 <= k < |s| ==> IsSpace(s[k])
    ensures r != [] ==> !IsSpace(r[0]) && !IsSpace(r[|r| - 1])
    ensures exists i, j :: 0 <= i <= j <= |s| && r == s[i..j]
              && (forall k :: 0 <= k < i ==> IsSpace(s[k]))
              && (forall k :: j <= k < |s| ==> IsSpace(s[k]))
  {
    var i := TrimStartIndex(s);
    var j := TrimEndIndex(s);
    if j <= i then
      BlankWhenEndsCross(s);
      assert [] == s[|s|..|s|];
      []
    else
      assert s[i..j][0] == s[i] && s[i..j][j - i - 1] == s[j - 1];
      s[i..j]
  }

  /** When the trailing white space reaches back over the leading white space, all is white space. */
  lemma BlankWhenEndsCross(s: string)
    requires TrimEndIndex(s) <= TrimStartIndex(s)
    ensures forall k :: 0 <= k < |s| ==> IsSpace(s[k])
  {
    forall k | 0 <= k < |s|
      ensures IsSpace(s[k])
    {
      if k >= TrimStartIndex(s) {
        assert k >= TrimEndIndex(s);
      }
    }
  }

  /** Trimming twice is trimming once. */
  lemma TrimIdempotent(s: string)
    ensures Trim(Trim(s)) == Trim(s)
  {
    var t := Trim(s);
    if t != [] {
      assert TrimStartIndex(t) == 0;
      assert TrimEndIndex(t) == |t|;
      assert t[0..|t|] == t;
    }
  }

  /** `s` ends with `suffix`. */
  predicate EndsWith(s: string, suffix: string) {
    |suffix| <= |s| && s[|s| - |suffix|..] == suffix
  }

  const TxtSuffix: string := ".txt"

  /** The note file name for a typed name: trimmed, with ".txt" appended unless present. */
  function FinalName(name: string): (r: string)
    ensures EndsWith(r, TxtSuffix)
  {
    var t := Trim(name);
    if EndsWith(t, TxtSuffix) then t
    else
      assert (t + TxtSuffix)[|t|..] == TxtSuffix;
      t + TxtSuffix
  }

  /**
   * The final name is the trimmed name when that already ends in ".txt",
   * and the trimmed name with ".txt" appended otherwise.
   */
  lemma FinalNameShape(name: string)
    ensures EndsWith(Trim(name), TxtSuffix) <==> FinalName(name) == Trim(name)
    ensures !EndsWith(Trim(name), TxtSuffix) <==> FinalName(name) == Trim(name) + TxtSuffix
  {
  }

  /** A string with non-space ends is its own trimming. */
  lemma TrimKeeps(s: string)
    requires s != [] && !IsSpace(s[0]) && !IsSpace(s[|s| - 1])
    ensures Trim(s) == s
  {
    assert TrimStartIndex(s) == 0 && TrimEndIndex(s) == |s|;
    assert s[0..|s|] == s;
  }

  /** Finalising a final name changes nothing. */
  lemma FinalNameIdempotent(name: string)
    ensures FinalName(FinalName(name)) == FinalName(name)
  {
    var t := Trim(name);
    if EndsWith(t, TxtSuffix) {
      TrimIdempotent(name);
    } else {
      var r := t + TxtSuffix;
      assert r[|r| - 1] == 't';
      assert r[0] == if t == [] then '.' else t[0];
      TrimKeeps(r);
    }
  }

  /** `s.pop()` on a `String`: the last character goes, and nothing happens to an empty string. */
  function Pop(s: string): (r: string)
    ensures s == [] ==> r == []
    ensures s != [] ==> r + [s[|s| - 1]] == s
  {
    if s == [] then [] else s[..|s| - 1]
  }

  // ------------------------------------------------------- decimal numbers

  predicate IsDigit(c: char) { '0' <= c <= '9' }

  predicate AllDigits(s: string) { forall k :: 0 <= k < |s| ==> IsDigit(s[k]) }

  /** The largest `usize` of a 64-bit target. */
  const UsizeMax: nat := 0xFFFF_FFFF_FFFF_FFFF

  /** The value of a string of decimal digits, most significant first. */
  function DigitsValue(s: string): nat
    requires AllDigits(s)
  {
    if s == [] then 0 else DigitsValue(s[..|s| - 1]) * 10 + (s[|s| - 1] as int - '0' as int)
  }

  /**
   * `str::parse::<usize>`: an optional '+' and then one or more decimal
   * digits whose value fits; anything else fails.
   */
  function ParseUsize(s: string): (r: Option<nat>)
    ensures r.Some? ==> r.value <= UsizeMax
    ensures r.Some? ==> s != [] && (AllDigits(s) || (s[0] == '+' && AllDigits(s[1..])))
    ensures s == [] || s == "+" ==> r == None
  {
    var body := if |s| > 0 && s[0] == '+' then s[1..] else s;
    if body == [] || !AllDigits(body) then None
    else
      var v := DigitsValue(body);
      if v <= UsizeMax then Some(v) else None
  }

  /** The decimal digit for `d`. */
  function DigitChar(d: nat): (c: char)
    requires d < 10
    ensures IsDigit(c) && c as int - '0' as int == d
  {
    ('0' as int + d) as char
  }

  /** The decimal spelling of `n`, without leading zeros. */
  function Decimal(n: nat): (r: string)
    ensures r != [] && AllDigits(r)
    decreases n
  {
    if n < 10 then [DigitChar(n)] else Decimal(n / 10) + [DigitChar(n % 10)]
  }

  /** Reading back a decimal spelling gives the number. */
  lemma {:induction false} DecimalValue(n: nat)
    ensures DigitsValue(Decimal(n)) == n
    decreases n
  {
    if n >= 10 {
      DecimalValue(n / 10);
      var s := Decimal(n);
      assert s[..|s| - 1] == Decimal(n / 10);
    }
  }

  /** Typing the digits of a number that fits and parsing them gives the number. */
  lemma ParseDecimal(n: nat)
    requires n <= UsizeMax
    ensures ParseUsize(Decimal(n)) == Some(n)
  {
    DecimalValue(n);
  }
}

=== FILE: paths.dfy ===
/** Filesystem paths as lists of components, with the few `Path` operations the editor uses. */
module Paths {
  import opened Wrappers

  /** A path as its components; absolute and relative paths are not distinguished. */
  datatype Path = Path(parts: seq<string>)

  /** The last component, unless the path is empty or ends in "..". */
  function FileName(p: Path): Option<string> {
    if |p.parts| == 0 || p.parts[|p.parts| - 1] == ".." then None
    else Some(p.parts[|p.parts| - 1])
  }

  /** The path without its last component; None for the empty path. */
  function Parent(p: Path): Option<Path> {
    if |p.parts| == 0 then None else Some(Path(p.parts[..|p.parts| - 1]))
  }

  /** `dir.join(name)` for a single component `name`. */
  function JoinName(dir: Path, name: string): (r: Path)
    ensures Parent(r) == Some(dir)
    ensures name != ".." ==> FileName(r) == Some(name)
  {
    assert (dir.parts + [name])[..|dir.parts|] == dir.parts;
    Path(dir.parts + [name])
  }

  /**
   * `set_file_name`: replaces the file name when there is one, and otherwise
   * appends `name` as a new last component.
   */
  function SetFileName(p: Path, name: string): (r: Path)
    requires name != ".."
    ensures FileName(r) == Some(name)
    ensures FileName(p).Some? ==> Parent(r) == Parent(p)
    ensures FileName(p).None? ==> Parent(r) == Some(p)
  {
    if FileName(p).Some? then JoinName(Path(p.parts[..|p.parts| - 1]), name)
    else JoinName(p, name)
  }
}

=== FILE: text_lines.dfy ===
/**
 * Line geometry of a text held as a flat sequence of characters: the text is
 * a list of logical lines separated by '\n'. A text with k line breaks has
 * k + 1 lines; a trailing '\n' opens an empty last line.
 */
module TextLines {

  /** True when `s` holds no line break. */
  predicate NoBreak(s: seq<char>) {
    forall i :: 0 <= i < |s| ==> s[i] != '\n'
  }

  /** True when no line of `ls` holds a line break. */
  predicate AllNoBreak(ls: seq<seq<char>>) {
    forall i :: 0 <= i < |ls| ==> NoBreak(ls[i])
  }

  /** Number of '\n' characters in `t`. */
  function Breaks(t: seq<char>): nat
    decreases |t|
  {
    if |t| == 0 then 0 else (if t[0] == '\n' then 1 else 0) + Breaks(t[1..])
  }

  /** Cuts `t` into its lines, dropping the separators. */
  function Split(t: seq<char>): (ls: seq<seq<char>>)
    ensures |ls| == Breaks(t) + 1
    ensures AllNoBreak(ls)
    decreases |t|
  {
    if |t| == 0 then [[]]
    else
      var rest := Split(t[1..]);
      if t[0] == '\n' then [[]] + rest
      else
        var first := [t[0]] + rest[0];
        assert NoBreak(first) by {
          assert NoBreak(rest[0]);
          forall i | 0 < i < |first| ensures first[i] != '\n' {
            assert first[i] == rest[0][i - 1];
          }
        }
        [first] + rest[1..]
  }

  /** Glues lines back together with a '\n' between neighbours. */
  function Join(ls: seq<seq<char>>): seq<char>
    requires |ls| >= 1
    decreases |ls|
  {
    if |ls| == 1 then ls[0] else ls[0] + ['\n'] + Join(ls[1..])
  }

  /** The text in front of a line whose predecessors are `before`. */
  function Lead(before: seq<seq<char>>): seq<char> {
    if |before| == 0 then [] else Join(before) + ['\n']
  }

  /** The text behind a line whose successors are `after`. */
  function Tail(after: seq<seq<char>>): seq<char> {
    if |after| == 0 then [] else ['\n'] + Join(after)
  }

  /** Offset of the first character of line `l`: lengths of the lines before it plus their breaks. */
  function LineStart(ls: seq<seq<char>>, l: nat): nat
    requires l < |ls|
  {
    if l == 0 then 0 else |ls[0]| + 1 + LineStart(ls[1..], l - 1)
  }

  lemma {:induction false} LineStartIsLead(ls: seq<seq<char>>, l: nat)
    requires l < |ls|
    ensures LineStart(ls, l) == |Lead(ls[..l])|
    decreases l
  {
    if l > 0 {
      LineStartIsLead(ls[1..], l - 1);
      assert ls[1..][..l - 1] == ls[..l][1..];
      if l > 1 {
        assert Join(ls[..l]) == ls[0] + ['\n'] + Join(ls[..l][1..]);
      }
    }
  }

  /** The next line starts one break after the end of this one. */
  lemma {:induction false} LineStartNext(ls: seq<seq<char>>, l: nat)
    requires l + 1 < |ls|
    ensures LineStart(ls, l + 1) == LineStart(ls, l) + |ls[l]| + 1
    decreases l
  {
    if l > 0 {
      LineStartNext(ls[1..], l - 1);
    }
  }

  /** A line's start depends only on the lines before it. */
  lemma LineStartPrefix(a: seq<seq<char>>, b: seq<seq<char>>, l: nat)
    requires l < |a| && l < |b| && a[..l] == b[..l]
    ensures LineStart(a, l) == LineStart(b, l)
  {
    LineStartIsLead(a, l);
    LineStartIsLead(b, l);
  }

  /** Joining the lines of a text gives the text back. */
  lemma {:induction false} JoinSplit(t: seq<char>)
    ensures Join(Split(t)) == t
    decreases |t|
  {
    if |t| > 0 {
      JoinSplit(t[1..]);
      var rest := Split(t[1..]);
      var ls := Split(t);
      assert t == [t[0]] + t[1..];
      if t[0] == '\n' {
        assert ls == [[]] + rest;
        assert ls[1..] == rest;
      } else {
        assert ls == [[t[0]] + rest[0]] + rest[1..];
        if |rest| > 1 {
          assert ls[1..] == rest[1..];
        }
      }
    }
  }

  /** Splitting joined break-free lines gives the lines back. */
  lemma {:induction false} SplitJoin(ls: seq<seq<char>>)
    requires |ls| >= 1 && AllNoBreak(ls)
    ensures Split(Join(ls)) == ls
    decreases |Join(ls)|
  {
    var t := Join(ls);
    if |ls[0]| > 0 {
      var head := ls[0][0];
      var ls' := [ls[0][1..]] + ls[1..];
      assert NoBreak(ls[0]);
      assert head != '\n';
      assert AllNoBreak(ls') by {
        forall i | 0 <= i < |ls'| ensures NoBreak(ls'[i]) {
          if i == 0 {
            forall j | 0 <= j < |ls'[0]| ensures ls'[0][j] != '\n' {
              assert ls'[0][j] == ls[0][j + 1];
            }
          } else {
            assert ls'[i] == ls[i];
          }
        }
      }
      assert ls[0] == [head] + ls[0][1..];
      if |ls| > 1 {
        assert ls'[1..] == ls[1..];
      }
      assert t == [head] + Join(ls');
      SplitJoin(ls');
      assert t[1..] == Join(ls');
      assert Split(t) == [[head] + ls'[0]] + ls'[1..];
    } else if |ls| > 1 {
      assert ls[0] == [];
      assert t == ['\n'] + Join(ls[1..]);
      assert t[1..] == Join(ls[1..]);
      SplitJoin(ls[1..]);
      assert ls == [[]] + ls[1..];
    } else {
      assert ls == [[]];
    }
  }

  /** Joining a first line in front of further lines. */
  lemma JoinCons(x: seq<char>, rest: seq<seq<char>>)
    requires |rest| >= 1
    ensures Join([x] + rest) == x + ['\n'] + Join(rest)
  {
    assert ([x] + rest)[1..] == rest;
  }

  /** The text in front of the lines after `before[0]`. */
  lemma LeadCons(before: seq<seq<char>>)
    requires |before| >= 1
    ensures Lead(before) == before[0] + ['\n'] + Lead(before[1..])
  {
    if |before| > 1 {
      assert before == [before[0]] + before[1..];
      JoinCons(before[0], before[1..]);
    }
  }

  /** A line sits between the text of its predecessors and of its successors. */
  lemma {:induction false} JoinAround(before: seq<seq<char>>, line: seq<char>, after: seq<seq<char>>)
    ensures Join(before + [line] + after) == Lead(before) + line + Tail(after)
    decreases |before|
  {
    if |before| == 0 {
      assert before + [line] + after == [line] + after;
      if |after| > 0 {
        JoinCons(line, after);
      }
    } else {
      var rest := before[1..] + [line] + after;
      assert before + [line] + after == [before[0]] + rest;
      JoinCons(before[0], rest);
      JoinAround(before[1..], line, after);
      LeadCons(before);
    }
  }

  /** Every line of `ls` sits at its LineStart inside the joined text. */
  lemma Layout(ls: seq<seq<char>>, l: nat)
    requires l < |ls|
    ensures Join(ls) == Lead(ls[..l]) + ls[l] + Tail(ls[l + 1..])
  {
    AroundIndex(ls, l);
    JoinAround(ls[..l], ls[l], ls[l + 1..]);
  }

  /** A sequence is its prefix, the element at `l`, and its suffix. */
  lemma AroundIndex<T>(s: seq<T>, l: nat)
    requires l < |s|
    ensures s == s[..l] + [s[l]] + s[l + 1..]
  {
    assert s[l..] == [s[l]] + s[l + 1..];
    assert s == s[..l] + s[l..];
  }

  /** The text behind line l starts with the break and the next line. */
  lemma TailStep(ls: seq<seq<char>>, l: nat)
    requires l + 1 < |ls|
    ensures Tail(ls[l + 1..]) == ['\n'] + ls[l + 1] + Tail(ls[l + 2..])
  {
    var after := ls[l + 1..];
    assert after == [] + [ls[l + 1]] + ls[l + 2..];
    JoinAround([], ls[l + 1], ls[l + 2..]);
  }

  /** The text in front of line l + 1 ends with line l and a break. */
  lemma LeadStep(ls: seq<seq<char>>, l: nat)
    requires l + 1 < |ls|
    ensures Lead(ls[..l + 1]) == Lead(ls[..l]) + ls[l] + ['\n']
  {
    var before := ls[..l + 1];
    assert before == ls[..l] + [ls[l]] + [];
    JoinAround(ls[..l], ls[l], []);
  }

  /** Splicing break-free lines into break-free lines keeps every line break-free. */
  lemma AllNoBreakSplice(ls: seq<seq<char>>, l: nat, k: nat, mid: seq<seq<char>>)
    requires l + k <= |ls| && AllNoBreak(ls) && AllNoBreak(mid)
    ensures AllNoBreak(ls[..l] + mid + ls[l + k..])
  {
    var ls' := ls[..l] + mid + ls[l + k..];
    forall i | 0 <= i < |ls'| ensures NoBreak(ls'[i]) {
      if i < l {
        assert ls'[i] == ls[i];
      } else if i < l + |mid| {
        assert ls'[i] == mid[i - l];
      } else {
        assert ls'[i] == ls[i - |mid| + k];
      }
    }
  }

  /** Replacing one line by break-free text changes exactly that line. */
  lemma ReplaceLine(ls: seq<seq<char>>, l: nat, line: seq<char>)
    requires l < |ls| && AllNoBreak(ls) && NoBreak(line)
    ensures Split(Lead(ls[..l]) + line + Tail(ls[l + 1..])) == ls[..l] + [line] + ls[l + 1..]
  {
    AllNoBreakSplice(ls, l, 1, [line]);
    JoinAround(ls[..l], line, ls[l + 1..]);
    SplitJoin(ls[..l] + [line] + ls[l + 1..]);
  }

  /** The joined text of two lines between neighbours. */
  lemma JoinAroundTwo(before: seq<seq<char>>, x: seq<char>, y: seq<char>, after: seq<seq<char>>)
    ensures Join(before + [x, y] + after) == Lead(before) + x + ['\n'] + y + Tail(after)
  {
    assert before + [x, y] + after == before + [x] + ([y] + after);
    JoinAround(before, x, [y] + after);
    TailCons(y, after);
  }

  /** The text behind a line whose successors start with `y`. */
  lemma TailCons(y: seq<char>, after: seq<seq<char>>)
    ensures Tail([y] + after) == ['\n'] + (y + Tail(after))
  {
    if |after| > 0 {
      assert ([y] + after)[1..] == after;
    }
  }

  /** Replacing one line by two break-free lines splits it. */
  lemma ReplaceLineByTwo(ls: seq<seq<char>>, l: nat, x: seq<char>, y: seq<char>)
    requires l < |ls| && AllNoBreak(ls) && NoBreak(x) && NoBreak(y)
    ensures Split(Lead(ls[..l]) + x + ['\n'] + y + Tail(ls[l + 1..]))
            == ls[..l] + [x, y] + ls[l + 1..]
  {
    AllNoBreakSplice(ls, l, 1, [x, y]);
    JoinAroundTwo(ls[..l], x, y, ls[l + 1..]);
    SplitJoin(ls[..l] + [x, y] + ls[l + 1..]);
  }

  /** Replacing two neighbouring lines by one break-free line merges them. */
  lemma ReplaceTwoLines(ls: seq<seq<char>>, l: nat, line: seq<char>)
    requires l + 1 < |ls| && AllNoBreak(ls) && NoBreak(line)
    ensures Split(Lead(ls[..l]) + line + Tail(ls[l + 2..])) == ls[..l] + [line] + ls[l + 2..]
  {
    AllNoBreakSplice(ls, l, 2, [line]);
    JoinAround(ls[..l], line, ls[l + 2..]);
    SplitJoin(ls[..l] + [line] + ls[l + 2..]);
  }

  /** Concatenation of break-free texts is break-free. */
  lemma NoBreakConcat(a: seq<char>, b: seq<char>)
    requires NoBreak(a) && NoBreak(b)
    ensures NoBreak(a + b)
  {
    forall i | 0 <= i < |a + b| ensures (a + b)[i] != '\n' {
      if i >= |a| { assert (a + b)[i] == b[i - |a|]; }
    }
  }

  /** Breaks distribute over concatenation. */
  lemma {:induction false} BreaksConcat(a: seq<char>, b: seq<char>)
    ensures Breaks(a + b) == Breaks(a) + Breaks(b)
    decreases |a|
  {
    if |a| > 0 {
      assert (a + b)[0] == a[0];
      assert (a + b)[1..] == a[1..] + b;
      BreaksConcat(a[1..], b);
    } else {
      assert a + b == b;
    }
  }

  /** Break-free text holds no breaks. */
  lemma {:induction false} BreaksOfNoBreak(a: seq<char>)
    requires NoBreak(a)
    ensures Breaks(a) == 0
    decreases |a|
  {
    if |a| > 0 {
      assert NoBreak(a[1..]) by {
        forall i | 0 <= i < |a[1..]| ensures a[1..][i] != '\n' { assert a[1..][i] == a[i + 1]; }
      }
      BreaksOfNoBreak(a[1..]);
    }
  }

  /** The text in front of line l holds exactly l breaks. */
  lemma {:induction false} BreaksOfLead(before: seq<seq<char>>)
    requires AllNoBreak(before)
    ensures Breaks(Lead(before)) == |before|
    decreases |before|
  {
    if |before| > 0 {
      var n := |before|;
      var init := before[..n - 1];
      assert AllNoBreak(init) by {
        forall i | 0 <= i < |init| ensures NoBreak(init[i]) { assert init[i] == before[i]; }
      }
      assert before == init + [before[n - 1]] + [];
      JoinAround(init, before[n - 1], []);
      assert Lead(before) == Lead(init) + before[n - 1] + ['\n'];
      BreaksOfLead(init);
      BreaksOfNoBreak(before[n - 1]);
      BreaksConcat(Lead(init) + before[n - 1], ['\n']);
      BreaksConcat(Lead(init), before[n - 1]);
      assert Breaks(['\n']) == 1;
    }
  }
}

=== FILE: wrappers.dfy ===
/** Option and Result datatypes shared by the other modules. */
module Wrappers {

  /** A value that may be absent (Rust's `Option`). */
  datatype Option<+T> = None | Some(value: T) {

    /** Returns the value in Some, or `default` if None (Rust's `unwrap_or`). */
    function GetOr(default: T): T {
      match this
      case Some(v) => v
      case None => default
    }

    /** This value if present, otherwise `other` (Rust's `Option::or`). */
    function Or(other: Option<T>): Option<T> {
      if Some? then this else other
    }
  }

  /** Either a value or an error (Rust's `Result`). */
  datatype Result<+T, +E> = Ok(value: T) | Err(error: E)
}
